=== FILE: README.md ===
# react-hidux data core in Dafny

react-hidux wraps a plain data class so that the object graph it owns can
be mutated freely while an immutable snapshot of it is kept alongside.
`wrapDataClass` (immutable/index.js) builds an instance, deep-clones it
into the first snapshot, and wraps the instance in an interceptor
(immutable/plainobject.js). Every array or plain object reachable from it
gets its own interceptor (immutable/array.js for arrays). Each interceptor
knows its namespace path from the root and keeps a table of its child
interceptors. Each `set`, `deleteProperty`, `push`, `pop`, `unshift` or
`shift` edits the live graph, keeps that table in step, and emits a
descriptor `(kind, path, payload)` to `change`. `change` rebuilds the
snapshot path-copyingly (`updateImmutable`) and hands it to the listener.
util/index.js supplies `clone`, `getAllKeys`, dotted-path lookup and the
prop-mapping helpers of the binding layer.

The model is functional throughout:

- `Values` holds JavaScript values as an algebraic datatype, with
  symbols (`Sym`) and bigints (`Big`) as values of their own. Object
  fields are keyed by canonical property keys: `Idx(n)` for array-index
  names, `Name(s)` for other names, and `SymbolKey(id)` for symbols.
  `KeyOfName`/`KeyString` give a proven bijection between property-name
  strings and the keys that are not symbols.
- `Util` holds `clone`, `getAllKeys`, `findInObject`, `defaultMergeProps`,
  `parseMapStateToProps` and `parseMapMethodToProps`.
- `Snapshot` is `updateImmutable`. Its theorem `UpdateAt` shows that it
  rebuilds exactly the spine of the path.
- `Interceptor` is the node shared by both factories: path, child table
  and validity. It also holds construction, `tryToProxyIt`, `unProxy`,
  `_DESTROYPROXY_`, `_RESETNAMESPACE_`, the `get` trap, and the coherence
  invariant `Tracks` between a node and the value it wraps.
- `ObjectProxy` and `ArrayProxy` model the traps. Each trap maps
  (node, backing value) to (node, backing value, emitted descriptor).
- `Instance` is the wrapper: snapshot, live graph, methods, listener,
  `$destroy`. Its theorem `WriteKeepsSnapshotLive` shows that any trap,
  committed, keeps the snapshot equal to the live graph. For the replaced
  array methods this holds as modelled by `ReplacedPush` and its
  siblings, which apply the native method to the raw backing array. The
  program calls the native method on the interceptor itself, so its
  stores re-enter the `set` trap. `PushAsWrittenBreaksCoherence` shows
  that `push` then leaves the snapshot with the arguments twice (see
  Findings).

## Model

| member | source | states |
|---|---|---|
| Values.Classify | util/index.js:15-21 | A value is an array, a plain object, an unsupported object or a scalar; each class is characterised exactly. |
| Util.Clone | util/index.js:35-60 | The clone contains only snapshot-safe values. Functions, symbols, bigints and `undefined` clone to `undefined`. Arrays keep their length. Objects of any class become plain objects without their symbol-keyed fields. A value that is already snapshot-safe (which holds no symbol-keyed field) is returned unchanged. |
| Util.CloneIdempotent | util/index.js:35-60 | Cloning a clone changes nothing. |
| Util.CloneArray | util/index.js:45-47 | An array clones element-wise. |
| Util.CloneObject | util/index.js:50-56 | A cloned object has exactly the keys other than symbols and `constructor` whose cloned value is not `undefined`, each holding that clone. |
| Util.AddNames | util/index.js:25-28 | Adding names to a duplicate-free list keeps it duplicate-free. The old list stays a prefix. Membership is the union. The order is that of a `Set` filled one name at a time (`Collect`). |
| Util.GetAllKeys | util/index.js:24-32 | The result has no duplicates and no `constructor`. A name is in it exactly when it is an own name or a name of a prototype before `Object.prototype`. The names come in `Set` insertion order: own names, then each prototype's in turn, first occurrence kept, `constructor` removed. |
| Util.CollectNames | util/index.js:25-29 | The `Set` the walk fills holds exactly the own names and the prototypes' names before `Object.prototype`, once each, in insertion order. |
| Util.DeleteName | util/index.js:30-31 | Deleting a name from the `Set` and listing it keeps the other names in their order. |
| Util.GetAllKeysOwnFirst | util/index.js:25-31 | The listed names start with the object's own names, in their order. The prototypes' names come after them. |
| Util.CollectAppend | util/index.js:25-29 | Adding two runs of names to the `Set` in turn is adding their concatenation. |
| Util.JoinSplit | util/index.js:69 | Rejoining the pieces of `split('.')` restores the string. |
| Util.SplitJoin | util/index.js:69 | Splitting a join of dot-free pieces restores the pieces. |
| Util.FindSingle | util/index.js:67-70 | A dot-free traveller is a single property read. |
| Util.FindDotted | util/index.js:67-70 | `a.rest` reads `a`, then resolves `rest` from what it found. It fails when a read hits `undefined`/`null`. |
| Util.DefaultMergeProps | util/index.js:73-77 | The merge has every key of the three inputs. Method props win over state props, and state props over plain props. |
| Util.StatePropsOfNames | util/index.js:82-85 | The array form succeeds exactly when every name is a string whose path resolves. Its keys are exactly the listed names. |
| Util.StatePropsOfNamesValue | util/index.js:82-85 | Each listed name's prop holds the value found at that dotted path. |
| Util.StatePropsOfObject | util/index.js:86-101 | In the object form, over the entries `Object.keys` lists (no symbol keys), string entries become the value at their path and function entries the function applied to the state. Other entries are skipped. It succeeds exactly when every listed string path resolves. |
| Util.ParseMapStateToProps | util/index.js:79-105 | The array form keys by the listed names; the object form keeps exactly the string-keyed string and function entries. Anything else gives no props. |
| Util.ToText | util/index.js:112 | The text a name converts to as a key: a string is itself, a number or bigint its decimal spelling, an object `[object Object]`, a one-string array that string, an array its elements joined with commas. It fails exactly on a value holding a symbol. |
| Util.PropertyKey | util/index.js:112 | A symbol is a key of its own. Any other name keys by its text: a string as `KeyOfName` reads it, a number or bigint by its decimal spelling, an object as `[object Object]`, and the key spells exactly that text. It fails exactly on an array holding a symbol. |
| Util.MethodPropsOfNames | util/index.js:110-113 | The array form has exactly the property keys of the listed names as keys, each holding the method under that key (`undefined` when absent). It fails exactly when a listed name is an array holding a symbol, which `join` cannot convert. |
| Util.ParseMapMethodToProps | util/index.js:107-133 | The object form keeps exactly the string-keyed string and function entries, and a string entry maps to the named method. The array form keys by the names' property keys and fails exactly on an array name holding a symbol. Anything else gives no props. |
| Snapshot.ShallowCopy | immutable/index.js:27-31 | An array is copied as an array and anything else as a plain object. A container copies to an equal value. A string spreads to one field per character, under its index. Other primitives give an empty object. |
| Snapshot.Arguments | immutable/index.js:47-55 | The arguments `apply` takes from a payload: an array's elements, none for `undefined` or `null`, an object's members `0` up to its converted `length`. A primitive payload, or an object whose `length` cannot be converted, is a TypeError. |
| Snapshot.ArrayLikeLength | immutable/index.js:47-55 | `ToLength(ToNumber(length))`: a number clamped at 0, a boolean as 0 or 1, a digit string as its value, an array through its single element. A symbol, a bigint or an array holding a symbol cannot be converted. |
| Snapshot.ArrayLikeLengthOfText | immutable/index.js:47-55 | Apart from booleans and bigints, which `ToNumber` converts directly, a `length` counts as the number its string conversion (`Util.ToText`) spells. This is the `ToPrimitive` route that arrays and objects take. |
| Snapshot.Edit | immutable/index.js:38-61 | The terminal edit keeps an array an array and an object an object. |
| Snapshot.Update | immutable/index.js:23-65 | The rebuilt level is a container of the same sort (array or not) as the target. |
| Snapshot.SetObjectField | immutable/index.js:39-42 | `set` on an object stores the payload under the key and leaves every other key as it was. |
| Snapshot.SetArrayIndex | immutable/index.js:39-42 | `set` on an array stores at the index, keeps the other elements and pads past the end with holes. |
| Snapshot.DeleteObjectField | immutable/index.js:43-46 | `delete` on an object removes exactly that key. |
| Snapshot.DeleteArrayIndex | immutable/index.js:43-46 | `delete` on an array leaves a hole and keeps the length and the other elements. |
| Snapshot.PushAppends | immutable/index.js:47-49 | `array:push` appends exactly the payload's elements. |
| Snapshot.PushArrayLike | immutable/index.js:47-49 | `array:push` succeeds exactly for an array, `undefined` or `null` payload, or an object whose `length` converts. An object payload appends its members `0` up to that length. |
| Snapshot.PopDropsLast | immutable/index.js:50-52 | `array:pop` drops exactly the last element. An empty array stays empty. |
| Snapshot.UnshiftPrepends | immutable/index.js:53-55 | `array:unshift` puts exactly the payload's elements in front. |
| Snapshot.UnshiftArrayLike | immutable/index.js:53-55 | `array:unshift` succeeds for the same payloads. An object payload's members `0` up to its converted `length` go in front. |
| Snapshot.ShiftDropsFirst | immutable/index.js:56-58 | `array:shift` drops exactly the first element. An empty array stays empty. |
| Snapshot.ArrayKindOnObject | immutable/index.js:47-58 | An array kind applied to an object level is a TypeError. |
| Snapshot.UnknownKindIsCopy | immutable/index.js:59-60 | An unknown kind leaves the copied level as it was. |
| Snapshot.SiblingsShared | immutable/index.js:33-35 | On a longer path, every key other than the first keeps its old value. |
| Snapshot.UpdateAt | immutable/index.js:23-65 | Updating at `q + [k]` applies the terminal edit to the subtree at `q` and puts it back in place. It fails exactly when that edit fails. |
| Snapshot.ReplaceFrame | immutable/index.js:33-35 | Structural sharing: any path that leaves the edited path reads the same in the new tree as in the old one. |
| Snapshot.AtReplace | immutable/index.js:33-35 | After putting a container at the end of a path, the path leads to it. |
| Snapshot.ReplaceTwice | immutable/index.js:33-35 | A second replacement at the same path overrides the first. |
| Snapshot.PushAt | immutable/index.js:47-49 | A deep `array:push` appends to the addressed array and changes nothing else. |
| Interceptor.Build | immutable/array.js:134-140 | A new interceptor sits at the given namespace, is valid, and has the shape of its factory. |
| Interceptor.BuildTracks | immutable/plainobject.js:33-39 | A new interceptor owns a child exactly for each array/plain-object field that `Object.keys` lists (no symbol-keyed one), at every depth, and each child's path is its parent's plus its key. |
| Interceptor.TryToProxyIt | immutable/array.js:111-121 | A child is registered at `namespace + [name]`, tracking the value, exactly when the value is an array or plain object. No other entry changes. |
| Interceptor.HookNames | immutable/array.js:168-180 | Both factories answer `_DESTROYPROXY_` and `_RESETNAMESPACE_` before the table. Only the array interceptor answers the replaced methods. |
| Interceptor.UnProxy | immutable/array.js:124-132 | Under a name the table `{}` inherits from `Object.prototype`, it is a TypeError. Otherwise the key leaves the table and the whole subtree of the child it held is destroyed. Nothing else changes, and a missing key changes nothing. |
| Interceptor.Destroy | immutable/array.js:145-155 | A destroyed interceptor is invalid and owns no children. Its shape and path are kept. |
| Interceptor.Teardown | immutable/array.js:145-155 | The interceptors `_DESTROYPROXY_` invalidates: the node itself and, through its calls on each child, everything the child's destruction invalidates. |
| Interceptor.TeardownReaches | immutable/plainobject.js:44-54 | Every interceptor a chain of `get`s can reach from a node is invalidated when the node is destroyed. |
| Interceptor.Retire | immutable/plainobject.js:23-31 | `unProxy` destroys the child's subtree under a present key and nothing under a missing one. |
| Interceptor.RetireReaches | immutable/plainobject.js:23-31 | Every interceptor reachable from the dropped child is among those `unProxy` destroys. |
| Interceptor.ResetNamespace | immutable/array.js:158-163 | Re-homing keeps the node's shape, validity and child keys. |
| Interceptor.ResetEstablishesPaths | immutable/plainobject.js:57-62 | After re-homing at `p`, the node is at `p` and every descendant is at its parent's path plus its key, whatever the paths were before. |
| Interceptor.ResetTracks | immutable/array.js:158-163 | Re-homing a node keeps it tracking the same value. |
| Interceptor.Get | immutable/plainobject.js:67-73 | A hook name gives the hook, even on a destroyed node. Otherwise `get` fails exactly on a destroyed node. A live one returns the registered child, else the `Object.prototype` member the table inherits under the name, else the raw field. |
| Interceptor.GetTracks | immutable/array.js:182 | On a tracking node, `get` succeeds. It returns a tracking child at path+key exactly for container fields under string keys, the inherited built-in exactly for an `Object.prototype` name holding no container, and otherwise the raw value (a symbol-keyed container included). |
| Interceptor.GetAfterDestroy | immutable/plainobject.js:44-54 | Every read through a destroyed interceptor is rejected, except of the hooks. |
| ObjectProxy.SetTrap | immutable/plainobject.js:76-101 | Writing an identical value to an own field is silent. Otherwise a destroyed node fails. A live one fails with a TypeError exactly under a name its table inherits from `Object.prototype` (the identity test sees own fields only; see Left out). On success it emits `set` at its path plus the key and destroys the subtree of the replaced child. |
| ObjectProxy.DeleteTrap | immutable/plainobject.js:104-116 | A destroyed node fails. A live one fails with a TypeError exactly under an inherited `Object.prototype` name. On success it emits `delete` at its path plus the key and destroys the subtree of the dropped child. |
| ObjectProxy.SetWrites | immutable/plainobject.js:92 | After `set`, the key reads as the value and every other key as before. |
| ObjectProxy.DeleteRemoves | immutable/plainobject.js:110 | After `deleteProperty`, the key is gone and every other key reads as before. |
| ObjectProxy.DropRetiresSubtree | immutable/plainobject.js:86 | A changing `set` or a `deleteProperty` under a key holding a child destroys every interceptor reachable from that child. |
| ObjectProxy.SetTracks | immutable/plainobject.js:85-95 | `set` succeeds under every name the table does not inherit, and preserves the tracking invariant. |
| ObjectProxy.DeleteTracks | immutable/plainobject.js:107-110 | `deleteProperty` succeeds under every name the table does not inherit, and preserves the tracking invariant. |
| ObjectProxy.SetThenGet | immutable/plainobject.js:76-101 | A later `get` of the key returns a child tracking the written container at path+key, or the written scalar itself. |
| ObjectProxy.DeleteThenGet | immutable/plainobject.js:104-116 | A later `get` of a deleted key returns `undefined`. |
| ObjectProxy.SetReplays | immutable/plainobject.js:92-98 | The emitted descriptor, applied by the snapshot builder, reproduces exactly the object the trap left. |
| ObjectProxy.DeleteReplays | immutable/plainobject.js:110-113 | Likewise for `deleteProperty`. |
| ObjectProxy.WritesAfterDestroy | immutable/plainobject.js:76-86 | After destruction, every write fails except a `set` of an identical value. |
| ArrayProxy.Truncate | immutable/array.js:200-208 | Shrinking `length` drops exactly the children at or past the new length. |
| ArrayProxy.CutOff | immutable/array.js:200-208 | A shrinking `length` destroys the whole subtree of every child at or past the new length. |
| ArrayProxy.SetTrap | immutable/array.js:186-223 | An identical value is silent. Otherwise: a destroyed node fails, an index write succeeds, and a `length` write succeeds exactly for a non-negative number. Success emits `set` at path+key and destroys the subtree of the replaced child and, for a shrinking `length`, of every child cut off. |
| ArrayProxy.DeleteTrap | immutable/array.js:226-238 | A destroyed node fails, deleting `length` is a TypeError, and deleting an index keeps the length, emits `delete` and destroys the subtree of the dropped child. |
| ArrayProxy.RegisterAll | immutable/array.js:26-28 | Registering the arguments adds a tracking child exactly for each container argument at its index and leaves the rest of the table alone. |
| ArrayProxy.ReplacedPush | immutable/array.js:18-34 | `push` fails exactly on a destroyed node. It emits `array:push` at path+[old length] with the arguments. |
| ArrayProxy.LastKey | immutable/array.js:38-47 | `pop` addresses the last index, or on an empty array the name `-1`. Neither is an inherited name. |
| ArrayProxy.ReplacedPop | immutable/array.js:36-50 | `pop` fails exactly on a destroyed node. It emits `array:pop` at path+[last index], or at `-1` for an empty array, and destroys the subtree of the last child. |
| ArrayProxy.ReplacedUnshift | immutable/array.js:52-79 | `unshift` (corrected re-keying) fails exactly on a destroyed node and emits `array:unshift` at path+[0]. |
| ArrayProxy.ReplacedShift | immutable/array.js:81-105 | `shift` (corrected re-keying) fails exactly on a destroyed node, emits `array:shift` at path+[0] and destroys the subtree of the child at index 0. |
| ArrayProxy.DropRetiresSubtree | immutable/array.js:124-132 | Every trap that drops the child under an index (a changing `set`, `deleteProperty`, `pop` of the last index, `shift` of index 0) destroys every interceptor reachable from it. |
| ArrayProxy.CutRetiresSubtree | immutable/array.js:198-208 | Shrinking `length` destroys every interceptor reachable from a child at or past the new length. |
| ArrayProxy.SetIndexTracks | immutable/array.js:195-217 | Writing an index preserves the tracking invariant. |
| ArrayProxy.SetLengthTracks | immutable/array.js:198-214 | A successful `length` write preserves the tracking invariant, including when it cuts children off. |
| ArrayProxy.DeleteIndexTracks | immutable/array.js:226-232 | Deleting an index preserves the tracking invariant. |
| ArrayProxy.PushTracks | immutable/array.js:18-34 | `push` preserves the tracking invariant. |
| ArrayProxy.PopTracks | immutable/array.js:36-50 | `pop` preserves the tracking invariant. |
| ArrayProxy.UnshiftTracks | immutable/array.js:52-79 | `unshift` with the corrected re-keying preserves the tracking invariant. Every child sits at its new index with the matching path. |
| ArrayProxy.ShiftTracks | immutable/array.js:81-105 | `shift` with the corrected re-keying preserves the tracking invariant. |
| ArrayProxy.SetIndexThenGet | immutable/array.js:186-223 | A later `get` of the index returns a tracking child of the written container, or the written scalar. |
| ArrayProxy.UnshiftThenGet | immutable/array.js:52-79 | After `unshift`, index `j` below the argument count reads the `j`-th argument. |
| ArrayProxy.ShiftThenGet | immutable/array.js:81-105 | After `shift`, index `j` reads what index `j + 1` held. |
| ArrayProxy.SetReplays | immutable/array.js:214-220 | The `set` descriptor, applied by the snapshot builder, reproduces exactly the array the trap left. |
| ArrayProxy.DeleteReplays | immutable/array.js:230-235 | Likewise for `deleteProperty`. |
| ArrayProxy.PushReplays | immutable/array.js:23-31 | Likewise for `push`. |
| ArrayProxy.PopReplays | immutable/array.js:41-47 | Likewise for `pop`, also on an empty array. |
| ArrayProxy.UnshiftReplays | immutable/array.js:57-76 | Likewise for `unshift`. |
| ArrayProxy.ShiftReplays | immutable/array.js:85-102 | Likewise for `shift`, also on an empty array. |
| ArrayProxy.WritesAfterDestroy | immutable/array.js:145-155 | After destruction, every trap and replaced method fails, except a `set` that changes nothing. |
| ArrayProxy.PushSets | immutable/array.js:23 | The native `push` run on the interceptor stores each argument through the `set` trap. The array gains exactly the arguments, and one `set` per argument is emitted at consecutive indexes from the old length. |
| ArrayProxy.PushAsWritten | immutable/array.js:18-34 | `push` as the program runs it fails exactly on a destroyed node. It appends the arguments and emits a `set` per argument, then `array:push` for all of them. |
| ArrayProxy.IndexesBelow | immutable/array.js:60 | The index keys of the table below the bound, each once, in ascending order. |
| ArrayProxy.UnshiftAsWritten | immutable/array.js:52-79 | The re-keying as written: in the array it produces the arguments followed by the old elements, and it emits `array:unshift`. |
| ArrayProxy.ShiftAsWritten | immutable/array.js:81-105 | The re-keying as written: emits `array:shift` and drops the first element. |
| ArrayProxy.UnshiftAsWrittenLeavesStaleChild | immutable/array.js:60-73 | With the native `unshift` applied to the raw array, `[{}].unshift(1)` leaves the moved child under index 0 as well. The table no longer tracks the array, and `get(0)` returns the object's interceptor instead of `1`. |
| ArrayProxy.ShiftAsWrittenLeavesStaleChild | immutable/array.js:88-99 | With the native `shift` applied to the raw array, `[{}, {}].shift()` leaves the moved child under index 1 as well, past the new end. The table no longer tracks the array. |
| ArrayProxy.UnshiftLoopLeavesStaleKey | immutable/array.js:60-69 | The re-keying loop of `unshift`, run on a table whose only entry is a child under index `i`, stores the child re-homed at `i + count` under that index and leaves index `i` pointing at it too. |
| ArrayProxy.ShiftLoopLeavesStaleKey | immutable/array.js:91-99 | The re-keying loop of `shift`, run on a table whose only entry is a child under index `i >= 1`, stores the child re-homed at `i - 1` under that index and leaves index `i` pointing at it too. |
| Instance.GetMethods | immutable/index.js:13-20 | The methods object holds only function members, each unchanged, under listed names. Every listed function member is present. |
| Instance.GetMethodsExactly | immutable/index.js:13-20 | A name is a method exactly when it is listed and its member is a function. |
| Instance.InheritedMember | immutable/plainobject.js:72 | What the child table `{}` inherits under an `Object.prototype` name is a function for every name but `__proto__`, which reads the prototype object itself. |
| Instance.ThroughRootIsGet | immutable/index.js:89-90 | What `getMethods` reads through the root interceptor is its `get` trap's answer: the hook, the inherited built-in (the prototype object itself under `__proto__`), the container field, or the own field, falling back to the inherited member. |
| Instance.Create | immutable/index.js:77-90 | The first snapshot is snapshot-safe. It has exactly the own and inherited keys other than symbols and `constructor` whose clone is defined. The methods are exactly the listed names that read as a function through the root interceptor, each holding what it reads. No listener is set and nothing has been notified. |
| Instance.CreateBindsBuiltin | immutable/index.js:90 | A listed `Object.prototype` name that is not an own container field is bound to the built-in the child table inherits, even if the class defines its own method under that name. `__proto__` reads the prototype object and gives no method. |
| Instance.CreateBindsMember | immutable/index.js:13-20 | Any other listed name whose own or inherited member is a function is bound to that member. |
| Instance.CreateStartsCoherent | immutable/index.js:79 | A detached instance, with no symbol-keyed, `constructor` or `undefined` field, whose inherited-only members are all methods starts with the snapshot equal to the live graph. |
| Instance.Wrap | immutable/index.js:73-90 | Given the instance's own names and its prototype chain, the method keys are exactly the own and inherited names other than `constructor` that read as a function through the root interceptor. The snapshot is the clone of the instance with its inherited members, which drops its symbol-keyed fields. |
| Instance.Change | immutable/index.js:82-85 | A live `change` succeeds exactly when the snapshot builder does. It then installs the rebuilt snapshot and notifies the listener with it. After `$destroy` it is a no-op. |
| Instance.Heard | immutable/index.js:84 | The initial no-op listener records nothing. |
| Instance.Changed | immutable/index.js:99-101 | `$changed` replaces only the listener. |
| Instance.Destroy | immutable/index.js:102-108 | `$destroy` succeeds exactly once; a second call is a TypeError. It leaves snapshot, live graph and notifications alone. |
| Instance.GetSnapshot | immutable/index.js:96-98 | `$getSnapshot` returns the snapshot, and fails exactly after `$destroy`. |
| Instance.GetMethodsOf | immutable/index.js:93-95 | `$getMethods` returns the methods, and `null` exactly after `$destroy`. |
| Instance.Commit | immutable/plainobject.js:91-98 | A committed trap replaces the subtree at the node's path in the live graph, whether or not `change` then throws, because the trap writes its target first. When `change` throws, the snapshot and the notifications stay as they were. It throws exactly when a live wrapper's snapshot rebuild fails. With no descriptor emitted nothing else changes. |
| Instance.CommitKeepsSnapshotLive | immutable/index.js:82-85 | When snapshot and live graph agree, a descriptor that replays the trap keeps them equal, and the listener receives that snapshot. |
| Instance.CommitAfterDestroy | immutable/index.js:102-104 | After `$destroy` a write still edits the live graph but leaves snapshot and notifications untouched. |
| Instance.ChangeAll | immutable/index.js:82-85 | A run of `change` calls keeps the live graph, the listener and the destroyed flag. After `$destroy` it is a no-op. Otherwise, run to the end, it notifies once per descriptor, if a listener is set. A throw ends the run. If the first call throws, the wrapper is left as it was. A later throw keeps the notifications already made, fewer than one per descriptor. |
| Instance.CommitAll | immutable/index.js:82-85 | Committing a run of traps replaces the subtree at the node's path, whether or not a `change` throws. With no descriptor or one it is `Commit`. |
| Instance.PushOneAsWritten | immutable/array.js:18-34 | `push(x)` as the program runs it appends `x` and emits `set` at the new index, then `array:push` of `[x]` at the same path. |
| Instance.ChangeSetAppends | immutable/index.js:39-42 | A `set` just past the end of an array in the snapshot appends the value there. |
| Instance.ChangePushAppends | immutable/index.js:47-49 | An `array:push` of `[x]` appends `x` to the addressed array in the snapshot. |
| Instance.CommitSetThenPush | immutable/index.js:82-85 | From a snapshot equal to the live graph, committing the append with its `set` and `array:push` leaves `x` once in the live array and twice in the snapshot's. |
| Instance.PushAsWrittenBreaksCoherence | immutable/array.js:23-31 | `push(x)` as the program runs it, committed from a snapshot equal to the live graph, leaves the live array with `x` once and the snapshot's with `x` twice, so the two differ. |
| Instance.Trap | immutable/index.js:82-89 | Every trap's descriptor addresses a key directly under the node's path. |
| Instance.TrapReplays | immutable/index.js:82-85 | For every trap, the emitted descriptor's edit turns the backing value into the one the trap left. |
| Instance.WriteKeepsSnapshotLive | immutable/index.js:77-89 | Any trap over the live graph, committed with a snapshot-safe payload, keeps the snapshot equal to the live graph. For the replaced array methods this is the corrected behaviour, with the native method applied to the raw array. |

## Left out

- ArrayProxy.ReplacedPush: applies the native `push` to the raw backing array and keeps only the method's own edit and descriptor. In the source, `Array.prototype.push.apply(this, …)` stores each argument through the interceptor's own `set` trap, which emits a `set` of its own first. That run is modelled separately (`ArrayProxy.PushAsWritten`), and it stores each argument twice in the snapshot (`Instance.PushAsWrittenBreaksCoherence`).
- ArrayProxy.ReplacedPop: applies the native `pop` to the raw backing array. In the source it runs through the interceptor's traps: on an array of length 2 or more it emits `delete`, then `set length`, then `array:pop`, which drops two elements from the snapshot. That run is not modelled.
- ArrayProxy.ReplacedUnshift: applies the native `unshift` to the raw backing array and re-keys the table as intended. In the source the native call re-enters `set` for every moved element, emitting descriptors and wrapping fresh interceptors around the interceptors it moves. That run is not modelled.
- ArrayProxy.ReplacedShift: applies the native `shift` to the raw backing array and re-keys the table as intended. In the source the native call re-enters `set` and `deleteProperty`, as for `unshift`. That run is not modelled.
- ArrayProxy.UnshiftAsWritten: runs the re-keying loop as written after a native `unshift` on the raw backing array, without the re-entrant traps. `ArrayProxy.UnshiftLoopLeavesStaleKey` covers the table the re-entrant run leaves.
- ArrayProxy.ShiftAsWritten: runs the re-keying loop as written after a native `shift` on the raw backing array, without the re-entrant traps. `ArrayProxy.ShiftLoopLeavesStaleKey` covers the table the re-entrant run leaves.
- Instance.WriteKeepsSnapshotLive: for the replaced array methods, it is stated for the corrected behaviour: the native method applied to the raw array, emitting one descriptor. As the program runs them it does not hold (see Findings).
- `console.warn` calls (unsupported object kinds, unknown change kinds, reads through a destroyed interceptor) have no observable effect and are left out.
- Object identity is not modelled. Two arrays or objects are never `===` (`Values.Same`), so setting an existing container again always writes. Proxies handed out by `get` are nodes, not the object the backing value holds. A destroyed interceptor is stood for by the node the trap retires (`Step.retired`). The model does not mark the nodes held elsewhere as invalid.
- `Function.prototype.bind` is not modelled. `getMethods` and `parseMapMethodToProps` store the member itself, or an opaque `bind` result supplied as a parameter. Calling a mapped state function is a parameter `invoke`.
- Instance.Create: inherited members (getters, prototype methods) are supplied as a map rather than computed by walking prototypes. The built-in functions the hooks and `Object.prototype` names read as are a parameter. The instance constructor `new DataClass(initValue)` is not modelled; its result is a parameter.
- Values.Lookup: built-in members of strings, arrays, functions and bigints (methods, a function's `name`) read as `undefined`. So do the `Object.prototype` members of a plain object, other than those the interceptors' child tables inherit (`Interceptor.ProtoName`). This reaches `Util.MethodOf`, which reads `contextMethods['toString']` as `undefined`, and `Util.FindInObject`, which reads `findInObject(state, 'valueOf')` as `undefined`, where the source returns the built-in. A string is a sequence of Unicode characters here, while JavaScript's `length` and `s[i]` count UTF-16 code units. So `"😀".length` is 1 here and 2 in JavaScript, and `s[i]` past an astral character reads a different unit. This reaches `Util.FindInObject` (`findInObject(state, 'title.length')`) and `Snapshot.Update` through a string level.
- Util.ToText: an object of another class converts as `[object Tag]`. A class with its own `toString` (a Date, say) converts differently, which is not modelled. A function's source text is a parameter.
- Snapshot.ShallowCopy: a non-plain object spreads the fields the model holds for it, which also include inherited ones, while the spread copies own enumerable fields only. Snapshot levels are always clones, so updates never meet such an object. A string spreads one field per Unicode character here, while `{..."😀"}` spreads one field per UTF-16 code unit: two fields, each holding a lone surrogate.
- Util.Clone and Instance.CreateStartsCoherent: an own data field named `__proto__`, as in `JSON.parse('{"__proto__":1}')`, is an ordinary field here, so such a value counts as `Detached` and clones to itself. In the source, `result[name] = clone(value)` goes through the `__proto__` setter, so the clone has no own field of that name. A primitive value is ignored there, and an object value becomes the clone's prototype.
- More generally, `__proto__` is an ordinary field name for the values themselves (`Values.Lookup`, `Snapshot.Put`), while in the program writing it on an object copy, or on the instance, sets the prototype. The interceptors' child tables do treat it as inherited (`Interceptor.ProtoName`), and reading it through the root interceptor gives `Object.prototype` (`Instance.InheritedMember`).
- ObjectProxy.SetTrap: the identity test looks at own fields only. The source tests `name in target`, which also finds inherited members. So `o.toString = o.toString` is silent in the source, but here it fails with a TypeError, because the child table inherits `toString`. Re-assigning an inherited method of the instance to itself through the root is silent in the source, but here it adds an own field and emits `set`.
- ObjectProxy.SetTrap and ObjectProxy.DeleteTrap take string names only. A write under a symbol (`proxy[s] = v`) is not modelled. In the source it registers a child the `Object.keys` walks of `_DESTROYPROXY_` and `_RESETNAMESPACE_` never visit.
- Util.ParseMapStateToProps: the object form of an `Other` mapping iterates all the members the model holds for it, inherited ones included. `Object.keys` gives own enumerable keys only. Mappings are plain objects or arrays in practice.
- Util.StatePropsOfObject: for an `Other` mapping, the same gap as `Util.ParseMapStateToProps`.
- Util.ParseMapMethodToProps: the object form of an `Other` mapping has the same gap as `Util.ParseMapStateToProps`.
- Snapshot.ArrayLikeLength: a string `length` counts only when it is a run of decimal digits. Other numeric spellings (`" 2"`, `"+2"`, `"2.5"`, `"1e1"`, `"0x2"`, `"Infinity"`) count as 0 here. An object with its own `valueOf` or `toString` (a Date, say) converts through it in the source and counts as 0 here. The clamp at 2^53 - 1 is not modelled.
- Snapshot.Arguments: a function payload is array-like to `apply` in the source, with its parameter count as `length`, but it is a TypeError here. `change` clones its payload, and a function clones to `undefined`, so the program never passes one.
- Snapshot.PushArrayLike: inherits the `Snapshot.ArrayLikeLength` and `Snapshot.Arguments` gaps.
- Snapshot.UnshiftArrayLike: inherits the `Snapshot.ArrayLikeLength` and `Snapshot.Arguments` gaps.
- Array holes and stored `undefined` are the same value `Undef`. `in` on an array is modelled as "index below the length".
- Named (non-index, non-`length`) and symbol properties on arrays are left out of the traps. `ArrayProp` is an index or `length` only.
- ArrayProxy.SetTrap: `length` is set only from a non-negative number. String or boolean coercion and the 2^32 - 1 index/length limit are not modelled. A RangeError is modelled as a failure with no effect. In the source, a negative length passes the `value < target.length` test first and unproxies every child, since every index is at least the value, before the assignment throws.
- NaN (`NaN !== NaN`) and floating point are not modelled; numbers are integers.
- The table re-keying `parseInt` of names is modelled directly on index keys, since array tables only ever hold indexes. Object.keys order is modelled as ascending index order (`IndexesBelow`), which is what JavaScript gives for integer keys.
- Util.Clone and Snapshot.ShallowCopy: object fields are a map, so the order of an object's fields is not modelled. In the source `clone` writes fields in `getAllKeys` order and `{...o}` keeps insertion order, which `Object.keys` and `JSON.stringify` of a snapshot then show. Integer-like keys come first in ascending order in JavaScript, and the model keeps the order of array elements.
- Instance.Commit: the wrapper's live graph is updated by replacing the subtree at the node's path, and a throwing `change` is returned as the outcome's fault next to the edited wrapper. Swapping the root interceptor tree itself is left to `Interceptor`, so the wrapper does not hold nodes.
- Instance.Change: requires a non-empty path. The traps always emit one, and `updateImmutable` on an empty path writes the key `undefined`, which no caller reaches.
- Instance.WriteKeepsSnapshotLive: stated for payloads that clone to themselves (`Detached`). For others, the snapshot holds the clone while the live graph holds the original, for instance a field set to a function or to `undefined`.
- `isProxyObject` and the React binding components are not part of this model.

## Findings

| source | as written | input that shows it | evidently intended | confidence | as-written member | corrected member |
|---|---|---|---|---|---|---|
| immutable/array.js:60-69 | `unshift` re-homes each child to `index + count` and stores it there, but never deletes the old key. The old key still points at the moved child. | `[5, {}].unshift(1)`: the native `unshift` re-enters `set`, which leaves only key 2 in the table. The loop stores that child, re-homed at `[3]`, under key 3 and leaves key 2 pointing at it too. | Every child moves to its new index only, and the old keys are vacated. | not executed; high | ArrayProxy.UnshiftLoopLeavesStaleKey | ArrayProxy.UnshiftTracks |
| immutable/array.js:88-99 | `shift` re-homes each child to `index - 1` and stores it there, but never deletes the old key. | `[{}, {}, {}].shift()`: after the native `shift` re-enters the traps and `unProxy(0)` runs, only key 1 is left. The loop stores that child, re-homed at `[0]`, under key 0 and leaves key 1 pointing at it too. | Every child moves down one index and the last old key is vacated. | not executed; high | ArrayProxy.ShiftLoopLeavesStaleKey | ArrayProxy.ShiftTracks |
| immutable/array.js:18-34 | `push` calls `Array.prototype.push` on the interceptor itself. Each argument is stored through the `set` trap, which emits `set`, and then the method emits `array:push` for the same arguments. | `[1].push(2)`: the live array is `[1, 2]` and the snapshot `[1, 2, 2]`. | `push` emits only `array:push`, so the snapshot gains the arguments once. | not executed; high | Instance.PushAsWrittenBreaksCoherence | Instance.WriteKeepsSnapshotLive |

The corrected `ReplacedPush`, `ReplacedUnshift` and `ReplacedShift` are
used by the rest of the model (`Instance.Trap`). Without re-entrance, the
re-keying loops alone also break the table
(`ArrayProxy.UnshiftAsWrittenLeavesStaleChild`,
`ArrayProxy.ShiftAsWrittenLeavesStaleChild`).

Where the behaviour of the code differs from its documented intent, the
model follows the code. `$destroy` does not invalidate the interceptors:
they still edit the live graph, while `change` becomes a no-op
(`Instance.CommitAfterDestroy`). Afterwards `$getSnapshot` fails,
`$getMethods` returns `null`, and a second `$destroy` fails. An unknown
change kind is only warned about and leaves the copied level unchanged.

=== FILE: arrayproxy.dfy ===
/**
  The array interceptor of immutable/array.js: its `set` and
  `deleteProperty` traps and the replaced methods `push`, `pop`, `unshift`
  and `shift`, as pure transitions from (node, backing array) to (node',
  backing array', emitted descriptor). Each replaced method is modelled
  against the raw backing array. Construction, `get`,
  `_RESETNAMESPACE_` and `_DESTROYPROXY_` are the shared ones of
  `Interceptor`.
 */
module ArrayProxy {
  import opened Wrappers
  import opened Values
  import opened Snapshot
  import opened Interceptor

  /** The array properties a trap can address: an index or `length`. */
  datatype ArrayProp = Index(i: nat) | Length

  /** The key a property is emitted and registered under. */
  function PropKey(p: ArrayProp): (k: Key)
    ensures k.Idx? <==> p.Index?
    ensures !ProtoName(k)
  {
    match p
    case Index(i) => Idx(i)
    case Length => Name("length")
  }

  /** The table without the children at or past index `len`, which a shrinking `length` cuts off. */
  function Truncate(t: map<Key, Node>, len: nat): (r: map<Key, Node>)
    ensures forall k :: k in r <==> k in t && !(k.Idx? && k.index >= len)
    ensures forall k :: k in r ==> r[k] == t[k]
  {
    map k | k in t && !(k.Idx? && k.index >= len) :: t[k]
  }

  /** The array already holds `value` under the property (`name in target && value === target[name]`). */
  predicate Identical(xs: seq<Value>, p: ArrayProp, value: Value) {
    match p
    case Index(i) => i < |xs| && Same(value, xs[i])
    case Length => Same(value, Num(|xs|))
  }

  /**
    The `set` trap. Writing a value identical (`===`) to the element at an
    existing index, or the current length to `length`, changes nothing and
    emits nothing, even on a destroyed interceptor. Otherwise a destroyed
    interceptor fails. On a live one, writing an index drops the child
    registered there, stores the value (padding with holes past the end)
    and registers a child for it when it is an array or plain object;
    writing `length` a non-negative number resizes the array and, when it
    shrinks, drops the children it cuts off; any other length is a
    RangeError. Both emit `set` at the node's path followed by the key.
   */
  function SetTrap(n: Node, backing: Value, p: ArrayProp, value: Value): (r: Result<Step, Fault>)
    requires backing.Arr?
    ensures Identical(backing.elems, p, value) ==> r == Success(Step(n, backing, None, {}))
    ensures !Identical(backing.elems, p, value) ==>
              (!n.valid ==> r == Failure(StaleProxy)) &&
              (n.valid && p.Index? ==> r.Success?) &&
              (n.valid && p.Length? ==> (r.Success? <==> value.Num? && value.n >= 0)) &&
              (r.Success? ==> r.value.emitted == Some(Descriptor(Set, n.path + [PropKey(p)], value)) &&
                              r.value.backing.Arr? && r.value.node.path == n.path && r.value.node.valid)
    ensures !Identical(backing.elems, p, value) && r.Success? ==>
              (p.Index? ==> r.value.retired == Retire(n.children, PropKey(p))) &&
              (p.Length? ==> r.value.retired == Retire(n.children, PropKey(p)) +
                               if value.n < |backing.elems| then CutOff(n.children, value.n) else {})
  {
    var xs := backing.elems;
    var k := PropKey(p);
    match p
    case Index(i) =>
      if i < |xs| && Same(value, xs[i]) then Success(Step(n, backing, None, {}))
      else if !n.valid then Failure(StaleProxy)
      else
        var u := UnProxy(n.children, k).value;
        var table := TryToProxyIt(value, k, n.path, u.table);
        Success(Step(Node(n.shape, n.path, table, true), Arr(SetIndex(xs, i, value)),
                     Some(Descriptor(Set, n.path + [k], value)), u.retired))
    case Length =>
      if Same(value, Num(|xs|)) then Success(Step(n, backing, None, {}))
      else if !n.valid then Failure(StaleProxy)
      else if !(value.Num? && value.n >= 0) then Failure(RangeError)
      else
        var u := UnProxy(n.children, k).value;
        var cut := value.n < |xs|;
        var table := if cut then Truncate(u.table, value.n) else u.table;
        Success(Step(Node(n.shape, n.path, table, true), Arr(Resize(xs, value.n)),
                     Some(Descriptor(Set, n.path + [k], value)),
                     u.retired + if cut then CutOff(n.children, value.n) else {}))
  }

  /**
    The `deleteProperty` trap: a destroyed interceptor fails; deleting
    `length` is a TypeError; deleting an index drops the child registered
    there, leaves a hole (the length is kept) and emits `delete` at the
    node's path followed by the index.
   */
  function DeleteTrap(n: Node, backing: Value, p: ArrayProp): (r: Result<Step, Fault>)
    requires backing.Arr?
    ensures !n.valid ==> r == Failure(StaleProxy)
    ensures n.valid ==> (r.Success? <==> p.Index?)
    ensures n.valid && p.Length? ==> r == Failure(TypeError)
    ensures r.Success? ==> r.value.emitted == Some(Descriptor(Delete, n.path + [PropKey(p)], Undef)) &&
                           r.value.backing.Arr? && |r.value.backing.elems| == |backing.elems| &&
                           r.value.node.path == n.path && r.value.node.valid &&
                           r.value.retired == Retire(n.children, PropKey(p))
  {
    var xs := backing.elems;
    if !n.valid then Failure(StaleProxy)
    else match p
      case Length => Failure(TypeError)
      case Index(i) =>
        var u := UnProxy(n.children, Idx(i)).value;
        Success(Step(Node(n.shape, n.path, u.table, true),
                     Arr(if i < |xs| then xs[i := Undef] else xs),
                     Some(Descriptor(Delete, n.path + [Idx(i)], Undef)), u.retired))
  }

  /**
    The interceptors a shrinking `length` destroys: the subtrees of the
    children at or past the new length. Dropping `length` from the table
    first leaves every index key in place.
   */
  function CutOff(t: map<Key, Node>, len: nat): (r: set<Node>)
    ensures forall k :: k in t && k.Idx? && k.index >= len ==> Teardown(t[k]) <= r
    ensures len >= 0 && (forall k :: k in t ==> !k.Idx?) ==> r == {}
  {
    set k, d | k in t && k.Idx? && k.index >= len && d in Teardown(t[k]) :: d
  }

  /** Whether `k` is the index of the `j`-th of `args`, counted from `base`, for a container argument. */
  predicate Registered(args: seq<Value>, base: nat, k: Key) {
    k.Idx? && base <= k.index < base + |args| && IsContainer(args[k.index - base])
  }

  /**
    `args.forEach((value, i) => tryToProxyIt(value, base + i, ...))`:
    registers a child for every array or plain-object argument at its
    index; every other entry of the table stays as it was.
   */
  function RegisterAll(args: seq<Value>, base: nat, ns: Path, t: map<Key, Node>): (r: map<Key, Node>)
    ensures forall k :: k in r <==> k in t || Registered(args, base, k)
    ensures forall k :: k in r && !Registered(args, base, k) ==> r[k] == t[k]
    ensures forall k :: Registered(args, base, k) ==>
              r[k].path == ns + [k] && Tracks(r[k], args[k.index - base])
    decreases |args|
  {
    if |args| == 0 then t
    else
      var r := RegisterAll(args[1..], base + 1, ns, TryToProxyIt(args[0], Idx(base), ns, t));
      assert forall k :: Registered(args, base, k) <==>
                         (k == Idx(base) && IsContainer(args[0])) || Registered(args[1..], base + 1, k);
      r
  }

  /**
    `push(...args)`: a destroyed interceptor fails; a live one appends the
    arguments, registers the container ones at `oldLength + i`, and emits
    `array:push` at the node's path followed by the old length, with the
    arguments as payload.
   */
  function ReplacedPush(n: Node, backing: Value, args: seq<Value>): (r: Result<Step, Fault>)
    requires backing.Arr?
    ensures r.Failure? <==> !n.valid
    ensures r.Success? ==> r.value.emitted == Some(Descriptor(Push, n.path + [Idx(|backing.elems|)], Arr(args))) &&
                           r.value.backing.Arr? && r.value.node.path == n.path && r.value.node.valid &&
                           r.value.retired == {}
  {
    var xs := backing.elems;
    if !n.valid then Failure(StaleProxy)
    else
      Success(Step(Node(n.shape, n.path, RegisterAll(args, |xs|, n.path, n.children), true), Arr(xs + args),
                   Some(Descriptor(Push, n.path + [Idx(|xs|)], Arr(args))), {}))
  }

  /**
    The key `pop` addresses: the last index, or for an empty array the
    name `"-1"` (`String(length - 1)`).
   */
  function LastKey(xs: seq<Value>): (k: Key)
    ensures |xs| > 0 ==> k == Idx(|xs| - 1)
    ensures |xs| == 0 ==> k == KeyOfName(IntToString(-1))
    ensures !ProtoName(k)
  {
    assert IntToString(-1) == "-1" && !IsDigit('-');
    if |xs| == 0 then Name("-1") else Idx(|xs| - 1)
  }

  /**
    `pop()`: a destroyed interceptor fails; a live one removes the last
    element, drops the child registered under its index, and emits
    `array:pop` at the node's path followed by that index (`-1` for an
    empty array).
   */
  function ReplacedPop(n: Node, backing: Value): (r: Result<Step, Fault>)
    requires backing.Arr?
    ensures r.Failure? <==> !n.valid
    ensures r.Success? ==> r.value.emitted == Some(Descriptor(Pop, n.path + [LastKey(backing.elems)], Undef)) &&
                           r.value.backing.Arr? && r.value.node.path == n.path && r.value.node.valid &&
                           r.value.retired == Retire(n.children, LastKey(backing.elems))
  {
    var xs := backing.elems;
    if !n.valid then Failure(StaleProxy)
    else
      var k := LastKey(xs);
      var u := UnProxy(n.children, k).value;
      Success(Step(Node(n.shape, n.path, u.table, true),
                   Arr(if |xs| == 0 then [] else xs[..|xs| - 1]),
                   Some(Descriptor(Pop, n.path + [k], Undef)), u.retired))
  }

  /**
    Every trap that drops the child under a key (`set` of a changed
    index, `deleteProperty`, `pop` of the last index, `shift` of index 0)
    destroys every interceptor a chain of `get`s could reach from it.
   */
  lemma DropRetiresSubtree(n: Node, backing: Value, i: nat, value: Value, p: Path)
    requires backing.Arr? && Idx(i) in n.children
    ensures var c := Reach(n.children[Idx(i)], p);
            var r := SetTrap(n, backing, Index(i), value);
            c.Some? && r.Success? && r.value.emitted.Some? ==> c.value in r.value.retired
    ensures var c := Reach(n.children[Idx(i)], p);
            var r := DeleteTrap(n, backing, Index(i));
            c.Some? && r.Success? ==> c.value in r.value.retired
    ensures var c := Reach(n.children[Idx(i)], p);
            var r := ReplacedPop(n, backing);
            c.Some? && r.Success? && i + 1 == |backing.elems| ==> c.value in r.value.retired
    ensures var c := Reach(n.children[Idx(i)], p);
            var r := ReplacedShift(n, backing);
            c.Some? && r.Success? && i == 0 ==> c.value in r.value.retired
  {
    RetireReaches(n.children, Idx(i), p);
  }

  /**
    Shrinking `length` destroys every interceptor a chain of `get`s could
    reach from a child at or past the new length.
   */
  lemma CutRetiresSubtree(n: Node, backing: Value, len: nat, i: nat, p: Path)
    requires backing.Arr? && Idx(i) in n.children && len <= i && len < |backing.elems|
    ensures var c := Reach(n.children[Idx(i)], p);
            var r := SetTrap(n, backing, Length, Num(len));
            c.Some? && r.Success? ==> c.value in r.value.retired
  {
    TeardownReaches(n.children[Idx(i)], p);
  }

  // ---------------------------------------------------------------------
  // `unshift` and `shift` re-key the table.
  // ---------------------------------------------------------------------

  /**
    The table after moving every child `count` places up and re-homing it
    at its new index: the old keys are dropped.
   */
  function ShiftedUp(t: map<Key, Node>, count: nat, ns: Path): (r: map<Key, Node>)
  {
    map k | k in t && k.Idx? :: Idx(k.index + count) := ResetNamespace(t[k], ns + [Idx(k.index + count)])
  }

  /**
    The table after moving every child but the first one place down and
    re-homing it at its new index: the old keys are dropped.
   */
  function ShiftedDown(t: map<Key, Node>, ns: Path): (r: map<Key, Node>)
  {
    map k | k in t && k.Idx? && k.index >= 1 :: Idx(k.index - 1) := ResetNamespace(t[k], ns + [Idx(k.index - 1)])
  }

  /** A key of the moved-up table is the image of a key of the old one. */
  lemma ShiftedUpKey(t: map<Key, Node>, count: nat, ns: Path, k: Key)
    requires k in ShiftedUp(t, count, ns)
    ensures k.Idx? && k.index >= count && Idx(k.index - count) in t
    ensures ShiftedUp(t, count, ns)[k] == ResetNamespace(t[Idx(k.index - count)], ns + [k])
  {
    var j := Idx(k.index - count);
    assert Idx(j.index + count) == k;
  }

  /** Every index child of the old table reappears `count` places up, re-homed. */
  lemma ShiftedUpIndex(t: map<Key, Node>, count: nat, ns: Path, j: nat)
    requires j >= count && Idx(j - count) in t
    ensures Idx(j) in ShiftedUp(t, count, ns)
    ensures ShiftedUp(t, count, ns)[Idx(j)] == ResetNamespace(t[Idx(j - count)], ns + [Idx(j)])
  {
    var k := Idx(j - count);
    assert Idx(k.index + count) == Idx(j);
  }

  /** A key of the moved-down table is the image of a key of the old one. */
  lemma ShiftedDownKey(t: map<Key, Node>, ns: Path, k: Key)
    requires k in ShiftedDown(t, ns)
    ensures k.Idx? && Idx(k.index + 1) in t
    ensures ShiftedDown(t, ns)[k] == ResetNamespace(t[Idx(k.index + 1)], ns + [k])
  {
    var j := Idx(k.index + 1);
    assert Idx(j.index - 1) == k;
  }

  /** Every index child but the first reappears one place down, re-homed. */
  lemma ShiftedDownIndex(t: map<Key, Node>, ns: Path, i: nat)
    requires Idx(i + 1) in t
    ensures Idx(i) in ShiftedDown(t, ns)
    ensures ShiftedDown(t, ns)[Idx(i)] == ResetNamespace(t[Idx(i + 1)], ns + [Idx(i)])
  {
    assert Idx(Idx(i + 1).index - 1) == Idx(i);
  }

  /**
    `unshift(...args)` with the re-keying the re-homing intends: a
    destroyed interceptor fails; a live one puts the arguments in front,
    moves every child up by the number of arguments under its new index
    only, registers the container arguments at their indexes, and emits
    `array:unshift` at the node's path followed by index 0.
   */
  function ReplacedUnshift(n: Node, backing: Value, args: seq<Value>): (r: Result<Step, Fault>)
    requires backing.Arr?
    ensures r.Failure? <==> !n.valid
    ensures r.Success? ==> r.value.emitted == Some(Descriptor(Unshift, n.path + [Idx(0)], Arr(args))) &&
                           r.value.backing.Arr? && r.value.node.path == n.path && r.value.node.valid &&
                           r.value.retired == {}
  {
    if !n.valid then Failure(StaleProxy)
    else
      var table := RegisterAll(args, 0, n.path, ShiftedUp(n.children, |args|, n.path));
      Success(Step(Node(n.shape, n.path, table, true), Arr(args + backing.elems),
                   Some(Descriptor(Unshift, n.path + [Idx(0)], Arr(args))), {}))
  }

  /**
    `shift()` with the re-keying the re-homing intends: a destroyed
    interceptor fails; a live one removes the first element, drops the
    child at index 0, moves every other child down by one under its new
    index only, and emits `array:shift` at the node's path followed by
    index 0.
   */
  function ReplacedShift(n: Node, backing: Value): (r: Result<Step, Fault>)
    requires backing.Arr?
    ensures r.Failure? <==> !n.valid
    ensures r.Success? ==> r.value.emitted == Some(Descriptor(Shift, n.path + [Idx(0)], Undef)) &&
                           r.value.backing.Arr? && r.value.node.path == n.path && r.value.node.valid &&
                           r.value.retired == Retire(n.children, Idx(0))
  {
    var xs := backing.elems;
    if !n.valid then Failure(StaleProxy)
    else
      var u := UnProxy(n.children, Idx(0)).value;
      var table := ShiftedDown(u.table, n.path);
      Success(Step(Node(n.shape, n.path, table, true), Arr(if |xs| == 0 then [] else xs[1..]),
                   Some(Descriptor(Shift, n.path + [Idx(0)], Undef)), u.retired))
  }

  // ---------------------------------------------------------------------
  // The array table after each trap.
  // ---------------------------------------------------------------------

  /** Writing an index and registering its child keeps an array table matching. */
  lemma ArrTableSetIndex(t: map<Key, Node>, xs: seq<Value>, i: nat, value: Value, ns: Path)
    requires ArrTable(t, xs)
    ensures ArrTable(TryToProxyIt(value, Idx(i), ns, UnProxy(t, Idx(i)).value.table), SetIndex(xs, i, value))
  {
    var ys := SetIndex(xs, i, value);
    var r := TryToProxyIt(value, Idx(i), ns, UnProxy(t, Idx(i)).value.table);
    forall j | 0 <= j < |ys| && IsContainer(ys[j])
      ensures Idx(j) in r
    {
      if j != i {
        assert j < |xs| && ys[j] == xs[j];
      }
    }
  }

  /** Resizing through `length`, and cutting off the children past a shorter length, keeps an array table matching. */
  lemma ArrTableResize(t: map<Key, Node>, xs: seq<Value>, len: nat)
    requires ArrTable(t, xs)
    ensures var t0 := UnProxy(t, Name("length")).value.table;
            ArrTable(if len < |xs| then Truncate(t0, len) else t0, Resize(xs, len))
  {
    var ys := Resize(xs, len);
    var t0 := UnProxy(t, Name("length")).value.table;
    assert t0 == t;
    var r := if len < |xs| then Truncate(t0, len) else t0;
    forall j | 0 <= j < |ys| && IsContainer(ys[j])
      ensures Idx(j) in r
    {
      assert j < |xs| && ys[j] == xs[j];
    }
  }

  /** Punching a hole at an index and dropping its child keeps an array table matching. */
  lemma ArrTableHole(t: map<Key, Node>, xs: seq<Value>, i: nat)
    requires ArrTable(t, xs)
    ensures ArrTable(UnProxy(t, Idx(i)).value.table, if i < |xs| then xs[i := Undef] else xs)
  {
  }

  /** Appending arguments and registering the container ones keeps an array table matching. */
  lemma ArrTablePush(t: map<Key, Node>, xs: seq<Value>, args: seq<Value>, ns: Path)
    requires ArrTable(t, xs)
    ensures ArrTable(RegisterAll(args, |xs|, ns, t), xs + args)
  {
    var ys := xs + args;
    var r := RegisterAll(args, |xs|, ns, t);
    forall k | k in r
      ensures k.Idx? && k.index < |ys| && IsContainer(ys[k.index])
    {
      if !Registered(args, |xs|, k) {
        assert k in t;
      }
    }
    forall j | 0 <= j < |ys| && IsContainer(ys[j])
      ensures Idx(j) in r
    {
      if j >= |xs| {
        assert Registered(args, |xs|, Idx(j));
      } else {
        assert ys[j] == xs[j];
      }
    }
  }

  /** Removing the last element and dropping its child keeps an array table matching. */
  lemma ArrTablePop(t: map<Key, Node>, xs: seq<Value>)
    requires ArrTable(t, xs)
    ensures ArrTable(UnProxy(t, LastKey(xs)).value.table, if |xs| == 0 then [] else xs[..|xs| - 1])
  {
    var ys := if |xs| == 0 then [] else xs[..|xs| - 1];
    var r := UnProxy(t, LastKey(xs)).value.table;
    if |xs| > 0 {
      forall k | k in r
        ensures k.Idx? && k.index < |ys| && IsContainer(ys[k.index])
      {
        assert k in t && k != Idx(|xs| - 1);
      }
      forall j | 0 <= j < |ys| && IsContainer(ys[j])
        ensures Idx(j) in r
      {
        assert ys[j] == xs[j];
      }
    } else {
      assert r == t;
    }
  }

  /** Registering arguments never drops an entry already in the table. */
  lemma RegisterAllKeeps(args: seq<Value>, base: nat, ns: Path, t: map<Key, Node>, k: Key)
    requires k in t
    ensures k in RegisterAll(args, base, ns, t)
  {
  }

  /**
    A key of the table after `unshift`, either registered for an argument
    or moved up from a container element of the old array, is an index of
    a container element of the new array.
   */
  lemma UnshiftedKey(xs: seq<Value>, args: seq<Value>, k: Key)
    requires Registered(args, 0, k) ||
             (k.Idx? && |args| <= k.index < |args| + |xs| && IsContainer(xs[k.index - |args|]))
    ensures k.Idx? && k.index < |args + xs| && IsContainer((args + xs)[k.index])
  {
    var ys := args + xs;
    if Registered(args, 0, k) {
      assert ys[k.index] == args[k.index];
    } else {
      assert ys[k.index] == xs[k.index - |args|];
    }
  }

  /** A key of the moved-up table is an index of a container element, `count` places up. */
  lemma MovedUpKey(t: map<Key, Node>, xs: seq<Value>, count: nat, ns: Path, k: Key)
    requires KeysOfContainers(t, xs) && k in ShiftedUp(t, count, ns)
    ensures k.Idx? && count <= k.index < count + |xs| && IsContainer(xs[k.index - count])
  {
    ShiftedUpKey(t, count, ns, k);
  }

  /** Every container element of the new array has its index in the table after `unshift`. */
  lemma UnshiftedIndex(t: map<Key, Node>, xs: seq<Value>, args: seq<Value>, ns: Path, j: nat)
    requires ContainersKeyed(t, xs)
    requires j < |args + xs| && IsContainer((args + xs)[j])
    ensures Idx(j) in RegisterAll(args, 0, ns, ShiftedUp(t, |args|, ns))
  {
    if j < |args| {
      assert Registered(args, 0, Idx(j));
    } else {
      assert (args + xs)[j] == xs[j - |args|];
      ShiftedUpIndex(t, |args|, ns, j);
      RegisterAllKeeps(args, 0, ns, ShiftedUp(t, |args|, ns), Idx(j));
    }
  }

  /** Prepending arguments, moving the children up and registering the container arguments keeps an array table matching. */
  lemma ArrTableUnshift(t: map<Key, Node>, xs: seq<Value>, args: seq<Value>, ns: Path)
    requires ArrTable(t, xs)
    ensures ArrTable(RegisterAll(args, 0, ns, ShiftedUp(t, |args|, ns)), args + xs)
  {
    UnshiftedKeysOf(t, xs, args, ns);
    UnshiftedIndexes(t, xs, args, ns);
  }

  /** Every key of the table after `unshift` is an index of a container element of the new array. */
  lemma UnshiftedKeysOf(t: map<Key, Node>, xs: seq<Value>, args: seq<Value>, ns: Path)
    requires KeysOfContainers(t, xs)
    ensures KeysOfContainers(RegisterAll(args, 0, ns, ShiftedUp(t, |args|, ns)), args + xs)
  {
    forall k | k in RegisterAll(args, 0, ns, ShiftedUp(t, |args|, ns))
      ensures k.Idx? && k.index < |args + xs| && IsContainer((args + xs)[k.index])
    {
      UnshiftedKeyOf(t, xs, args, ns, k);
    }
  }

  /** One key of the table after `unshift`: registered for an argument, or moved up. */
  lemma UnshiftedKeyOf(t: map<Key, Node>, xs: seq<Value>, args: seq<Value>, ns: Path, k: Key)
    requires KeysOfContainers(t, xs) && k in RegisterAll(args, 0, ns, ShiftedUp(t, |args|, ns))
    ensures k.Idx? && k.index < |args + xs| && IsContainer((args + xs)[k.index])
  {
    if !Registered(args, 0, k) {
      MovedUpKey(t, xs, |args|, ns, k);
    }
    UnshiftedKey(xs, args, k);
  }

  /** Every container element of the new array has its index in the table after `unshift`. */
  lemma UnshiftedIndexes(t: map<Key, Node>, xs: seq<Value>, args: seq<Value>, ns: Path)
    requires ContainersKeyed(t, xs)
    ensures ContainersKeyed(RegisterAll(args, 0, ns, ShiftedUp(t, |args|, ns)), args + xs)
  {
    forall j | 0 <= j < |args + xs| && IsContainer((args + xs)[j])
      ensures Idx(j) in RegisterAll(args, 0, ns, ShiftedUp(t, |args|, ns))
    {
      UnshiftedIndex(t, xs, args, ns, j);
    }
  }

  /** Removing the first element, dropping its child and moving the others down keeps an array table matching. */
  lemma ArrTableShift(t: map<Key, Node>, xs: seq<Value>, ns: Path)
    requires ArrTable(t, xs)
    ensures ArrTable(ShiftedDown(UnProxy(t, Idx(0)).value.table, ns), if |xs| == 0 then [] else xs[1..])
  {
    if |xs| == 0 {
      assert t == map[];
      assert ShiftedDown(UnProxy(t, Idx(0)).value.table, ns) == map[];
    } else {
      ShiftedKeysOf(t, xs, ns);
      ShiftedIndexesOf(t, xs, ns);
    }
  }

  /** Every key of the table after `shift` is an index of a container element of the rest of the array. */
  lemma ShiftedKeysOf(t: map<Key, Node>, xs: seq<Value>, ns: Path)
    requires KeysOfContainers(t, xs) && |xs| > 0
    ensures KeysOfContainers(ShiftedDown(UnProxy(t, Idx(0)).value.table, ns), xs[1..])
  {
    forall k | k in ShiftedDown(UnProxy(t, Idx(0)).value.table, ns)
      ensures k.Idx? && k.index < |xs[1..]| && IsContainer(xs[1..][k.index])
    {
      ShiftedKey(t, xs, ns, k);
    }
  }

  /** Every container element of the rest of the array has its index in the table after `shift`. */
  lemma ShiftedIndexesOf(t: map<Key, Node>, xs: seq<Value>, ns: Path)
    requires ContainersKeyed(t, xs) && |xs| > 0
    ensures ContainersKeyed(ShiftedDown(UnProxy(t, Idx(0)).value.table, ns), xs[1..])
  {
    forall j | 0 <= j < |xs[1..]| && IsContainer(xs[1..][j])
      ensures Idx(j) in ShiftedDown(UnProxy(t, Idx(0)).value.table, ns)
    {
      ShiftedIndex(t, xs, ns, j);
    }
  }

  /** A key of the table after `shift` is an index of a container element of the rest of the array. */
  lemma ShiftedKey(t: map<Key, Node>, xs: seq<Value>, ns: Path, k: Key)
    requires KeysOfContainers(t, xs) && |xs| > 0
    requires k in ShiftedDown(UnProxy(t, Idx(0)).value.table, ns)
    ensures k.Idx? && k.index < |xs| - 1 && IsContainer(xs[1..][k.index])
  {
    var t0 := UnProxy(t, Idx(0)).value.table;
    ShiftedDownKey(t0, ns, k);
    var j := Idx(k.index + 1);
    assert j in t0 && j != Idx(0);
    assert j in t;
    assert IsContainer(xs[j.index]);
    assert xs[1..][k.index] == xs[j.index];
  }

  /** Every container element of the rest of the array has its index in the table after `shift`. */
  lemma ShiftedIndex(t: map<Key, Node>, xs: seq<Value>, ns: Path, j: nat)
    requires ContainersKeyed(t, xs) && j + 1 < |xs| && IsContainer(xs[1..][j])
    ensures Idx(j) in ShiftedDown(UnProxy(t, Idx(0)).value.table, ns)
  {
    assert xs[1..][j] == xs[j + 1];
    ShiftedDownIndex(UnProxy(t, Idx(0)).value.table, ns, j);
  }

  // ---------------------------------------------------------------------
  // The tracking invariant survives every trap.
  // ---------------------------------------------------------------------

  /** After a `set` of an index, the node still tracks its array at every depth. */
  lemma SetIndexTracks(n: Node, backing: Value, i: nat, value: Value)
    requires backing.Arr? && Tracks(n, backing)
    ensures SetTrap(n, backing, Index(i), value).Success?
    ensures var s := SetTrap(n, backing, Index(i), value).value; Tracks(s.node, s.backing)
  {
    var xs := backing.elems;
    if !(i < |xs| && Same(value, xs[i])) {
      var s := SetTrap(n, backing, Index(i), value).value;
      ArrTableSetIndex(n.children, xs, i, value, n.path);
      assert TableMatches(s.node, s.backing);
      forall k | k in s.node.children
        ensures Kept(n, backing, s.node, s.backing, k) ||
                (s.node.children[k].path == s.node.path + [k] && Tracks(s.node.children[k], FieldAt(s.backing, k)))
      {
        if k != Idx(i) {
          assert s.backing.elems[k.index] == xs[k.index];
        }
      }
      TracksRebuilt(n, backing, s.node, s.backing);
    }
  }

  /** After a successful `set` of `length`, the node still tracks its array at every depth. */
  lemma SetLengthTracks(n: Node, backing: Value, value: Value)
    requires backing.Arr? && Tracks(n, backing)
    ensures var r := SetTrap(n, backing, Length, value);
            r.Success? ==> Tracks(r.value.node, r.value.backing)
  {
    var xs := backing.elems;
    var r := SetTrap(n, backing, Length, value);
    if r.Success? && !Same(value, Num(|xs|)) {
      var s := r.value;
      ArrTableResize(n.children, xs, value.n);
      assert TableMatches(s.node, s.backing);
      forall k | k in s.node.children
        ensures Kept(n, backing, s.node, s.backing, k)
      {
        assert s.backing.elems[k.index] == xs[k.index];
      }
      TracksRebuilt(n, backing, s.node, s.backing);
    }
  }

  /** After a `deleteProperty` of an index, the node still tracks its array at every depth. */
  lemma DeleteIndexTracks(n: Node, backing: Value, i: nat)
    requires backing.Arr? && Tracks(n, backing)
    ensures DeleteTrap(n, backing, Index(i)).Success?
    ensures var s := DeleteTrap(n, backing, Index(i)).value; Tracks(s.node, s.backing)
  {
    var xs := backing.elems;
    var s := DeleteTrap(n, backing, Index(i)).value;
    ArrTableHole(n.children, xs, i);
    assert TableMatches(s.node, s.backing);
    forall k | k in s.node.children
      ensures Kept(n, backing, s.node, s.backing, k)
    {
      assert s.backing.elems[k.index] == xs[k.index];
    }
    TracksRebuilt(n, backing, s.node, s.backing);
  }

  /** After `push`, the node still tracks its array at every depth. */
  lemma PushTracks(n: Node, backing: Value, args: seq<Value>)
    requires backing.Arr? && Tracks(n, backing)
    ensures ReplacedPush(n, backing, args).Success?
    ensures var s := ReplacedPush(n, backing, args).value; Tracks(s.node, s.backing)
  {
    var xs := backing.elems;
    var s := ReplacedPush(n, backing, args).value;
    ArrTablePush(n.children, xs, args, n.path);
    assert TableMatches(s.node, s.backing);
    forall k | k in s.node.children
      ensures Kept(n, backing, s.node, s.backing, k) ||
              (s.node.children[k].path == s.node.path + [k] && Tracks(s.node.children[k], FieldAt(s.backing, k)))
    {
      if Registered(args, |xs|, k) {
        assert FieldAt(s.backing, k) == args[k.index - |xs|];
      } else {
        assert s.backing.elems[k.index] == xs[k.index];
      }
    }
    TracksRebuilt(n, backing, s.node, s.backing);
  }

  /** After `pop`, the node still tracks its array at every depth. */
  lemma PopTracks(n: Node, backing: Value)
    requires backing.Arr? && Tracks(n, backing)
    ensures ReplacedPop(n, backing).Success?
    ensures var s := ReplacedPop(n, backing).value; Tracks(s.node, s.backing)
  {
    var xs := backing.elems;
    var s := ReplacedPop(n, backing).value;
    ArrTablePop(n.children, xs);
    assert TableMatches(s.node, s.backing);
    forall k | k in s.node.children
      ensures Kept(n, backing, s.node, s.backing, k)
    {
      assert s.backing.elems[k.index] == xs[k.index];
    }
    TracksRebuilt(n, backing, s.node, s.backing);
  }

  /** A child re-homed from key `from` to key `k` tracks the field it tracked before. */
  lemma MovedChildTracks(n: Node, backing: Value, from: Key, k: Key)
    requires Tracks(n, backing) && from in n.children
    ensures ResetNamespace(n.children[from], n.path + [k]).path == n.path + [k]
    ensures Tracks(ResetNamespace(n.children[from], n.path + [k]), FieldAt(backing, from))
  {
    TracksChild(n, backing, from);
    ResetTracks(n.children[from], FieldAt(backing, from), n.path + [k]);
  }

  /** The child moved up to `k` by `unshift` tracks the element now at `k`. */
  lemma UnshiftedChildTracks(n: Node, backing: Value, args: seq<Value>, k: Key)
    requires backing.Arr? && Tracks(n, backing)
    requires k in ShiftedUp(n.children, |args|, n.path)
    ensures ShiftedUp(n.children, |args|, n.path)[k].path == n.path + [k]
    ensures Tracks(ShiftedUp(n.children, |args|, n.path)[k], FieldAt(Arr(args + backing.elems), k))
  {
    var xs := backing.elems;
    ShiftedUpKey(n.children, |args|, n.path, k);
    var from := Idx(k.index - |args|);
    FieldAtPrepended(args, xs, k.index);
    MovedChildTracks(n, backing, from, k);
  }

  /** Past the prepended arguments, the longer array holds the old elements. */
  lemma FieldAtPrepended(args: seq<Value>, xs: seq<Value>, i: nat)
    requires |args| <= i
    ensures FieldAt(Arr(args + xs), Idx(i)) == FieldAt(Arr(xs), Idx(i - |args|))
  {
    if i < |args + xs| {
      assert (args + xs)[i] == xs[i - |args|];
    }
  }

  /** After `unshift`, the node still tracks its array at every depth. */
  lemma UnshiftTracks(n: Node, backing: Value, args: seq<Value>)
    requires backing.Arr? && Tracks(n, backing)
    ensures ReplacedUnshift(n, backing, args).Success?
    ensures var s := ReplacedUnshift(n, backing, args).value; Tracks(s.node, s.backing)
  {
    var xs := backing.elems;
    var s := ReplacedUnshift(n, backing, args).value;
    var up := ShiftedUp(n.children, |args|, n.path);
    ArrTableUnshift(n.children, xs, args, n.path);
    assert TableMatches(s.node, s.backing);
    forall k | k in s.node.children
      ensures s.node.children[k].path == s.node.path + [k] && Tracks(s.node.children[k], FieldAt(s.backing, k))
    {
      if Registered(args, 0, k) {
        assert FieldAt(s.backing, k) == args[k.index];
      } else {
        UnshiftedChildTracks(n, backing, args, k);
      }
    }
    TracksIntro(s.node, s.backing);
  }

  /** After `shift`, index `i` holds what index `i + 1` held. */
  lemma FieldAtShifted(xs: seq<Value>, i: nat)
    ensures FieldAt(Arr(if |xs| == 0 then [] else xs[1..]), Idx(i)) == FieldAt(Arr(xs), Idx(i + 1))
  {
  }

  /** The child moved down to `k` by `shift` tracks the element now at `k`. */
  lemma ShiftedChildTracks(n: Node, backing: Value, k: Key)
    requires backing.Arr? && Tracks(n, backing)
    requires k in ShiftedDown(UnProxy(n.children, Idx(0)).value.table, n.path)
    ensures ShiftedDown(UnProxy(n.children, Idx(0)).value.table, n.path)[k].path == n.path + [k]
    ensures Tracks(ShiftedDown(UnProxy(n.children, Idx(0)).value.table, n.path)[k],
                   FieldAt(Arr(if |backing.elems| == 0 then [] else backing.elems[1..]), k))
  {
    var xs := backing.elems;
    var t0 := UnProxy(n.children, Idx(0)).value.table;
    ShiftedDownKey(t0, n.path, k);
    var from := Idx(k.index + 1);
    assert from != Idx(0);
    assert from in n.children && t0[from] == n.children[from];
    var moved := ResetNamespace(n.children[from], n.path + [k]);
    assert ShiftedDown(t0, n.path)[k] == moved;
    FieldAtShifted(xs, k.index);
    assert FieldAt(Arr(if |xs| == 0 then [] else xs[1..]), k) == FieldAt(backing, from);
    MovedChildTracks(n, backing, from, k);
  }

  /** After `shift`, the node still tracks its array at every depth. */
  lemma ShiftTracks(n: Node, backing: Value)
    requires backing.Arr? && Tracks(n, backing)
    ensures ReplacedShift(n, backing).Success?
    ensures var s := ReplacedShift(n, backing).value; Tracks(s.node, s.backing)
  {
    var xs := backing.elems;
    var s := ReplacedShift(n, backing).value;
    ArrTableShift(n.children, xs, n.path);
    assert TableMatches(s.node, s.backing);
    forall k | k in s.node.children
      ensures s.node.children[k].path == s.node.path + [k] && Tracks(s.node.children[k], FieldAt(s.backing, k))
    {
      ShiftedChildTracks(n, backing, k);
    }
    TracksIntro(s.node, s.backing);
  }

  // ---------------------------------------------------------------------
  // A later `get` sees the write.
  // ---------------------------------------------------------------------

  /**
    Reading an index back after a `set` of it yields the written value:
    an interceptor tracking it when it is an array or plain object, the
    raw value otherwise.
   */
  lemma SetIndexThenGet(n: Node, backing: Value, i: nat, value: Value)
    requires backing.Arr? && Tracks(n, backing)
    ensures var s := SetTrap(n, backing, Index(i), value).value;
            var g := Get(s.node, s.backing, Idx(i));
            g.Success? &&
            (IsContainer(value) ==> g.value.Child? && Tracks(g.value.child, value) &&
                                    g.value.child.path == n.path + [Idx(i)]) &&
            (!IsContainer(value) ==> g.value == Field(value))
  {
    SetIndexTracks(n, backing, i, value);
    var s := SetTrap(n, backing, Index(i), value).value;
    GetTracks(s.node, s.backing, Idx(i));
  }

  /**
    After `unshift`, each of the first `|args|` indexes reads as the
    argument put there, never as a child left over from before.
   */
  lemma UnshiftThenGet(n: Node, backing: Value, args: seq<Value>, j: nat)
    requires backing.Arr? && Tracks(n, backing) && j < |args|
    ensures var s := ReplacedUnshift(n, backing, args).value;
            var g := Get(s.node, s.backing, Idx(j));
            g.Success? &&
            (IsContainer(args[j]) ==> g.value.Child? && Tracks(g.value.child, args[j])) &&
            (!IsContainer(args[j]) ==> g.value == Field(args[j]))
  {
    UnshiftTracks(n, backing, args);
    var s := ReplacedUnshift(n, backing, args).value;
    assert s.backing.elems[j] == args[j];
    GetTracks(s.node, s.backing, Idx(j));
  }

  /**
    After `shift`, each index reads as the element one place further up
    before the call.
   */
  lemma ShiftThenGet(n: Node, backing: Value, j: nat)
    requires backing.Arr? && Tracks(n, backing) && j + 1 < |backing.elems|
    ensures var s := ReplacedShift(n, backing).value;
            var x := backing.elems[j + 1];
            var g := Get(s.node, s.backing, Idx(j));
            g.Success? &&
            (IsContainer(x) ==> g.value.Child? && Tracks(g.value.child, x)) &&
            (!IsContainer(x) ==> g.value == Field(x))
  {
    ShiftTracks(n, backing);
    var s := ReplacedShift(n, backing).value;
    assert s.backing.elems[j] == backing.elems[j + 1];
    GetTracks(s.node, s.backing, Idx(j));
  }

  // ---------------------------------------------------------------------
  // The emitted descriptor replays the trap on the snapshot.
  // ---------------------------------------------------------------------

  /**
    The terminal edit `updateImmutable` applies for the descriptor a `set`
    emits turns the array the trap saw into exactly the array it left.
   */
  lemma SetReplays(n: Node, backing: Value, p: ArrayProp, value: Value)
    requires backing.Arr?
    ensures var r := SetTrap(n, backing, p, value);
            r.Success? && r.value.emitted.Some? ==>
              var d := r.value.emitted.value;
              d.path == n.path + [PropKey(p)] &&
              Edit(d.kind, backing, PropKey(p), d.payload) == Success(r.value.backing)
  {
  }

  /** Likewise for the descriptor a `deleteProperty` emits. */
  lemma DeleteReplays(n: Node, backing: Value, p: ArrayProp)
    requires backing.Arr?
    ensures var r := DeleteTrap(n, backing, p);
            r.Success? ==>
              var d := r.value.emitted.value;
              d.path == n.path + [PropKey(p)] &&
              Edit(d.kind, backing, PropKey(p), d.payload) == Success(r.value.backing)
  {
  }

  /** Likewise for `push`: the payload's elements are appended. */
  lemma PushReplays(n: Node, backing: Value, args: seq<Value>)
    requires backing.Arr?
    ensures var r := ReplacedPush(n, backing, args);
            r.Success? ==>
              var d := r.value.emitted.value;
              Edit(d.kind, backing, d.path[|d.path| - 1], d.payload) == Success(r.value.backing)
  {
  }

  /** Likewise for `pop`, including on an empty array. */
  lemma PopReplays(n: Node, backing: Value)
    requires backing.Arr?
    ensures var r := ReplacedPop(n, backing);
            r.Success? ==>
              var d := r.value.emitted.value;
              Edit(d.kind, backing, d.path[|d.path| - 1], d.payload) == Success(r.value.backing)
  {
  }

  /** Likewise for `unshift`: the payload's elements are prepended. */
  lemma UnshiftReplays(n: Node, backing: Value, args: seq<Value>)
    requires backing.Arr?
    ensures var r := ReplacedUnshift(n, backing, args);
            r.Success? ==>
              var d := r.value.emitted.value;
              Edit(d.kind, backing, d.path[|d.path| - 1], d.payload) == Success(r.value.backing)
  {
  }

  /** Likewise for `shift`, including on an empty array. */
  lemma ShiftReplays(n: Node, backing: Value)
    requires backing.Arr?
    ensures var r := ReplacedShift(n, backing);
            r.Success? ==>
              var d := r.value.emitted.value;
              Edit(d.kind, backing, d.path[|d.path| - 1], d.payload) == Success(r.value.backing)
  {
  }

  /** Every write through a destroyed interceptor fails, except a `set` that changes nothing. */
  lemma WritesAfterDestroy(n: Node, backing: Value, p: ArrayProp, value: Value, args: seq<Value>)
    requires backing.Arr?
    ensures DeleteTrap(Destroy(n), backing, p) == Failure(StaleProxy)
    ensures !Identical(backing.elems, p, value) ==> SetTrap(Destroy(n), backing, p, value) == Failure(StaleProxy)
    ensures ReplacedPush(Destroy(n), backing, args) == Failure(StaleProxy)
    ensures ReplacedPop(Destroy(n), backing) == Failure(StaleProxy)
    ensures ReplacedUnshift(Destroy(n), backing, args) == Failure(StaleProxy)
    ensures ReplacedShift(Destroy(n), backing) == Failure(StaleProxy)
  {
  }

  // ---------------------------------------------------------------------
  // `push` as the program runs it: re-entering the `set` trap.
  // ---------------------------------------------------------------------

  /** What a run of traps leaves: the node, the backing value, and the descriptors emitted, in order. */
  datatype Run = Run(node: Node, backing: Value, emitted: seq<Descriptor>)

  /** The descriptor a step emitted, as a sequence. */
  function Emitted(s: Step): (r: seq<Descriptor>)
    ensures |r| <= 1 && (r == [] <==> s.emitted.None?)
  {
    if s.emitted.Some? then [s.emitted.value] else []
  }

  /** Writing just past the end appends. */
  lemma SetIndexAppends(xs: seq<Value>, x: Value)
    ensures SetIndex(xs, |xs|, x) == xs + [x]
  {
    assert Holes(0) == [];
  }

  /** The `set` descriptors of storing `args` one by one from index `base` of the array at `ns`. */
  function SetTrace(ns: Path, base: nat, args: seq<Value>): (r: seq<Descriptor>)
    ensures |r| == |args|
    ensures forall i :: 0 <= i < |args| ==> r[i] == Descriptor(Set, ns + [Idx(base + i)], args[i])
    decreases |args|
  {
    if |args| == 0 then []
    else
      var rest := SetTrace(ns, base + 1, args[1..]);
      assert forall i :: 1 <= i < |args| ==> rest[i - 1] == Descriptor(Set, ns + [Idx(base + i)], args[i]);
      [Descriptor(Set, ns + [Idx(base)], args[0])] + rest
  }

  /** Appending the first argument and then the rest appends them all. */
  lemma AppendFirst(xs: seq<Value>, args: seq<Value>)
    requires |args| > 0
    ensures xs + [args[0]] + args[1..] == xs + args
  {
    assert args == [args[0]] + args[1..];
  }

  /** One store of `push`: the `set` trap at index `length`, which appends and always emits. */
  function AppendOne(n: Node, backing: Value, x: Value): (r: Step)
    requires backing.Arr? && n.valid
    ensures r.backing == Arr(backing.elems + [x])
    ensures r.node.path == n.path && r.node.valid
    ensures Emitted(r) == [Descriptor(Set, n.path + [Idx(|backing.elems|)], x)]
  {
    SetIndexAppends(backing.elems, x);
    SetTrap(n, backing, Index(|backing.elems|), x).value
  }

  /**
    The stores `Array.prototype.push` makes when called on the interceptor
    itself: one `set` trap per argument, each at the length the previous
    stores left, each emitting `set`.
   */
  function PushSets(n: Node, backing: Value, args: seq<Value>): (r: Run)
    requires backing.Arr? && n.valid
    ensures r.backing == Arr(backing.elems + args)
    ensures r.node.path == n.path && r.node.valid
    ensures r.emitted == SetTrace(n.path, |backing.elems|, args)
    decreases |args|
  {
    if |args| == 0 then
      assert backing.elems + args == backing.elems;
      Run(n, backing, [])
    else
      var xs := backing.elems;
      var s := AppendOne(n, backing, args[0]);
      var rest := PushSets(s.node, s.backing, args[1..]);
      AppendFirst(xs, args);
      Run(rest.node, rest.backing, Emitted(s) + rest.emitted)
  }

  /** The closing `length` write of `Array.prototype.push`: a no-op when it restates the length. */
  function WriteLength(n: Node, backing: Value, len: nat): (r: Result<Step, Fault>)
    requires backing.Arr?
    ensures len == |backing.elems| ==> r == Success(Step(n, backing, None, {}))
  {
    SetTrap(n, backing, Length, Num(len))
  }

  /** The node with the container arguments registered from index `base` on, over the table `t`. */
  function Registering(n: Node, args: seq<Value>, base: nat, t: map<Key, Node>): (r: Node)
    ensures r.path == n.path && r.valid
    ensures forall k :: Registered(args, base, k) ==> k in r.children && r.children[k].path == n.path + [k]
  {
    Node(n.shape, n.path, RegisterAll(args, base, n.path, t), true)
  }

  /**
    `push(...args)` as the program runs it: `this` is the interceptor, so
    `Array.prototype.push` stores each argument through the `set` trap
    (each emitting `set`) and then writes the new `length`, which the
    stores already gave the array, so that `set` is skipped; only then
    does the replaced method register the container arguments and emit
    `array:push`. A destroyed interceptor fails reading `length`.
   */
  function PushAsWritten(n: Node, backing: Value, args: seq<Value>): (r: Result<Run, Fault>)
    requires backing.Arr?
    ensures r.Failure? <==> !n.valid
    ensures r.Success? ==> r.value.backing == Arr(backing.elems + args)
    ensures r.Success? ==>
              r.value.emitted == SetTrace(n.path, |backing.elems|, args) +
                                 [Descriptor(Push, n.path + [Idx(|backing.elems|)], Arr(args))]
  {
    var len := |backing.elems|;
    if !n.valid then Failure(StaleProxy)
    else
      var run := PushSets(n, backing, args);
      var last := WriteLength(run.node, run.backing, len + |args|).value;
      assert Emitted(last) == [];
      Success(Run(Registering(n, args, len, last.node.children), last.backing,
                  run.emitted + Emitted(last) + [Descriptor(Push, n.path + [Idx(len)], Arr(args))]))
  }

  // ---------------------------------------------------------------------
  // The re-keying of `unshift` and `shift` as written.
  // ---------------------------------------------------------------------

  /**
    The indexes below `bound` that hold a child, ascending: the order
    `Object.keys` lists the integer keys of a table. Bounded by the old
    length, this lists every key only of a table that tracks its array
    (there every key is an index below the length); the re-keying below
    is applied to tracking tables only.
   */
  function IndexesBelow(t: map<Key, Node>, bound: nat): (r: seq<nat>)
    ensures forall j :: 0 <= j < |r| ==> r[j] < bound && Idx(r[j]) in t
    ensures forall i :: 0 <= i < bound && Idx(i) in t ==> i in r
    ensures forall j, j' :: 0 <= j < j' < |r| ==> r[j] < r[j']
  {
    if bound == 0 then []
    else IndexesBelow(t, bound - 1) + (if Idx(bound - 1) in t then [bound - 1] else [])
  }

  /** The indexes in the reverse order. */
  function Reversed(s: seq<nat>): (r: seq<nat>)
    ensures |r| == |s| && forall j :: 0 <= j < |s| ==> r[j] == s[|s| - 1 - j]
  {
    if s == [] then [] else Reversed(s[1..]) + [s[0]]
  }

  /**
    The loop body of the re-keying, run over `order`: the child under
    each index is re-homed in place at its index plus `delta` (`delta` is
    the argument count for `unshift`, -1 for `shift`) and stored under
    that index too. Nothing is deleted, so the old index keeps pointing at
    the same, re-homed, child until another move overwrites it. A negative
    target index is not an array index and is skipped.
   */
  function MoveEach(t: map<Key, Node>, order: seq<nat>, delta: int, ns: Path): map<Key, Node>
    decreases |order|
  {
    if order == [] then t
    else
      var i := order[0];
      var t' :=
        if Idx(i) in t && i + delta >= 0 then
          var moved := ResetNamespace(t[Idx(i)], ns + [Idx(i + delta)]);
          t[Idx(i) := moved][Idx(i + delta) := moved]
        else t;
      MoveEach(t', order[1..], delta, ns)
  }

  /**
    `unshift(...args)` as written: like `ReplacedUnshift`, but with the
    table `UnshiftTableAsWritten` leaves, and a non-container argument
    does not clear an entry left under its index.
   */
  function UnshiftAsWritten(n: Node, backing: Value, args: seq<Value>): (r: Result<Step, Fault>)
    requires backing.Arr?
    ensures r.Failure? <==> !n.valid
    ensures r.Success? ==> r.value.emitted == Some(Descriptor(Unshift, n.path + [Idx(0)], Arr(args))) &&
                           r.value.backing == Arr(args + backing.elems)
  {
    if !n.valid then Failure(StaleProxy)
    else
      var t := n.children;
      var moved := MoveEach(t, Reversed(IndexesBelow(t, |backing.elems|)), |args|, n.path);
      Success(Step(Node(n.shape, n.path, RegisterAll(args, 0, n.path, moved), true), Arr(args + backing.elems),
                   Some(Descriptor(Unshift, n.path + [Idx(0)], Arr(args))), {}))
  }

  /** `shift()` as written: like `ReplacedShift`, but re-keying with `MoveEach` in ascending order. */
  function ShiftAsWritten(n: Node, backing: Value): (r: Result<Step, Fault>)
    requires backing.Arr?
    ensures r.Failure? <==> !n.valid
    ensures r.Success? ==> r.value.emitted == Some(Descriptor(Shift, n.path + [Idx(0)], Undef)) &&
                           r.value.backing == Arr(if |backing.elems| == 0 then [] else backing.elems[1..])
  {
    var xs := backing.elems;
    if !n.valid then Failure(StaleProxy)
    else
      var u := UnProxy(n.children, Idx(0)).value;
      var moved := MoveEach(u.table, IndexesBelow(u.table, |xs|), -1, n.path);
      Success(Step(Node(n.shape, n.path, moved, true), Arr(if |xs| == 0 then [] else xs[1..]),
                   Some(Descriptor(Shift, n.path + [Idx(0)], Undef)), u.retired))
  }

  /** Registering a single scalar argument leaves the table as it is. */
  lemma RegisterScalar(x: Value, base: nat, ns: Path, t: map<Key, Node>)
    requires !IsContainer(x)
    ensures RegisterAll([x], base, ns, t) == t
  {
    assert [x][1..] == [];
  }

  /** One step of the re-keying loop. */
  lemma MoveOne(t: map<Key, Node>, i: nat, delta: int, ns: Path)
    requires Idx(i) in t && i + delta >= 0
    ensures var moved := ResetNamespace(t[Idx(i)], ns + [Idx(i + delta)]);
            MoveEach(t, [i], delta, ns) == t[Idx(i) := moved][Idx(i + delta) := moved]
  {
    assert [i][1..] == [];
  }

  /**
    `unshift(x)` of a scalar on a one-element array whose element is an
    array or plain object (`[{}]`, say), as written, leaves index 0
    registered to the moved child, now homed at index 1: the node no
    longer tracks its array, and reading index 0 hands out that child
    instead of the scalar the array now holds there (`UnshiftThenGet`
    shows `ReplacedUnshift` reads the scalar).
   */
  lemma UnshiftAsWrittenLeavesStaleChild(n: Node, v: Value, x: Value)
    requires v.Arr? && Tracks(n, v) && |v.elems| == 1 && IsContainer(v.elems[0]) && !IsContainer(x)
    ensures var s := UnshiftAsWritten(n, v, [x]).value;
            s.backing.elems[0] == x &&
            Idx(0) in s.node.children && s.node.children[Idx(0)].path == n.path + [Idx(1)] &&
            !Tracks(s.node, s.backing) &&
            Get(s.node, s.backing, Idx(0)) == Success(Child(s.node.children[Idx(0)]))
  {
    assert Idx(0) in n.children;
    UnshiftOneTable(n, v, x);
    var s := UnshiftAsWritten(n, v, [x]).value;
    assert (n.path + [Idx(1)])[|n.path|] != (n.path + [Idx(0)])[|n.path|];
  }

  /** The table `unshift(x)` of a scalar leaves, as written, on a one-element array with a child. */
  lemma UnshiftOneTable(n: Node, v: Value, x: Value)
    requires v.Arr? && n.valid && |v.elems| == 1 && Idx(0) in n.children && !IsContainer(x)
    ensures var moved := ResetNamespace(n.children[Idx(0)], n.path + [Idx(1)]);
            UnshiftAsWritten(n, v, [x]).value.node.children == n.children[Idx(0) := moved][Idx(1) := moved]
  {
    var t := n.children;
    var order := Reversed(IndexesBelow(t, |v.elems|));
    assert order == [0] by {
      assert IndexesBelow(t, 0) == [];
      assert IndexesBelow(t, 1) == [0];
      assert [0][1..] == [];
    }
    var moved := ResetNamespace(t[Idx(0)], n.path + [Idx(1)]);
    var m := MoveEach(t, order, |[x]|, n.path);
    assert m == t[Idx(0) := moved][Idx(1) := moved] by {
      MoveOne(t, 0, 1, n.path);
    }
    RegisterScalar(x, 0, n.path, m);
    assert UnshiftAsWritten(n, v, [x]).value.node.children == RegisterAll([x], 0, n.path, m);
  }

  /**
    `shift()` on a two-element array whose second element is an array or
    plain object (`[{}, {}]`, say), as written, leaves index 1 registered
    past the end of the one-element array, to the child now homed at
    index 0: the node no longer tracks its array (`ShiftTracks` shows
    `ReplacedShift` keeps it tracked).
   */
  lemma ShiftAsWrittenLeavesStaleChild(n: Node, v: Value)
    requires v.Arr? && Tracks(n, v) && |v.elems| == 2 && IsContainer(v.elems[1])
    ensures var s := ShiftAsWritten(n, v).value;
            |s.backing.elems| == 1 &&
            Idx(1) in s.node.children && s.node.children[Idx(1)].path == n.path + [Idx(0)] &&
            !Tracks(s.node, s.backing)
  {
    assert Idx(1) in n.children;
    ShiftTwoTable(n, v);
    var s := ShiftAsWritten(n, v).value;
    assert !ArrTable(s.node.children, s.backing.elems);
  }

  /** The table `shift()` leaves, as written, on a two-element array with a child at index 1. */
  lemma ShiftTwoTable(n: Node, v: Value)
    requires v.Arr? && n.valid && |v.elems| == 2 && Idx(1) in n.children
    ensures var moved := ResetNamespace(n.children[Idx(1)], n.path + [Idx(0)]);
            ShiftAsWritten(n, v).value.node.children == n.children[Idx(1) := moved][Idx(0) := moved]
  {
    var t0 := UnProxy(n.children, Idx(0)).value.table;
    var moved := ResetNamespace(n.children[Idx(1)], n.path + [Idx(0)]);
    assert t0 == n.children - {Idx(0)};
    assert IndexesBelow(t0, 2) == [1] by {
      assert IndexesBelow(t0, 0) == [];
      assert IndexesBelow(t0, 1) == [];
    }
    MoveOne(t0, 1, -1, n.path);
    OverwriteRemoved(n.children, Idx(0), Idx(1), moved);
  }

  /** A table with a single index entry lists that index alone. */
  lemma {:induction false} IndexesOfSingle(c: Node, i: nat, bound: nat)
    requires i < bound
    ensures IndexesBelow(map[Idx(i) := c], bound) == [i]
  {
    var t := map[Idx(i) := c];
    if bound == i + 1 {
      IndexesBelowSingle(c, i, i);
      assert IndexesBelow(t, bound) == [] + [i];
    } else {
      IndexesOfSingle(c, i, bound - 1);
      assert Idx(bound - 1) !in t;
      assert IndexesBelow(t, bound) == [i] + [];
    }
  }

  /** Below its index, a table with a single index entry lists nothing. */
  lemma {:induction false} IndexesBelowSingle(c: Node, i: nat, bound: nat)
    requires bound <= i
    ensures IndexesBelow(map[Idx(i) := c], bound) == []
  {
    if bound > 0 {
      IndexesBelowSingle(c, i, bound - 1);
    }
  }

  /**
    The re-keying loop of `unshift` as written, run on a table whose only
    entry is a child under index `i`: the child is re-homed at
    `i + count` and stored there, and index `i` keeps pointing at it.
    When the program runs `[5, {}].unshift(1)`, the native `unshift`
    re-enters the `set` trap, and the loop then starts from exactly such
    a table, with index 2 only. So index 2 is left holding the child
    re-homed at index 3, past the end of the three-element array.
   */
  lemma UnshiftLoopLeavesStaleKey(c: Node, i: nat, count: nat, bound: nat, ns: Path)
    requires i < bound && count > 0
    ensures var m := MoveEach(map[Idx(i) := c], Reversed(IndexesBelow(map[Idx(i) := c], bound)), count, ns);
            Idx(i) in m && Idx(i + count) in m && m[Idx(i)] == m[Idx(i + count)] &&
            m[Idx(i)].path == ns + [Idx(i + count)]
  {
    var t := map[Idx(i) := c];
    IndexesOfSingle(c, i, bound);
    assert Reversed([i]) == [i];
    MoveOne(t, i, count, ns);
  }

  /**
    The re-keying loop of `shift` as written, run on a table whose only
    entry is a child under index `i >= 1`: the child is re-homed at
    `i - 1` and stored there, and index `i` keeps pointing at it. When the
    program runs `[{}, {}, {}].shift()`, the native `shift` re-enters the
    `set` and `deleteProperty` traps, `unProxy(0)` follows, and the loop
    then starts from exactly such a table, with index 1 only. So index 1
    is left holding the child re-homed at index 0.
   */
  lemma ShiftLoopLeavesStaleKey(c: Node, i: nat, bound: nat, ns: Path)
    requires 1 <= i < bound
    ensures var m := MoveEach(map[Idx(i) := c], IndexesBelow(map[Idx(i) := c], bound), -1, ns);
            Idx(i) in m && Idx(i - 1) in m && m[Idx(i)] == m[Idx(i - 1)] &&
            m[Idx(i)].path == ns + [Idx(i - 1)]
  {
    var t := map[Idx(i) := c];
    IndexesOfSingle(c, i, bound);
    MoveOne(t, i, -1, ns);
  }

  /** Overwriting a removed key makes the removal invisible. */
  lemma OverwriteRemoved(t: map<Key, Node>, a: Key, b: Key, x: Node)
    ensures (t - {a})[b := x][a := x] == t[b := x][a := x]
  {
  }
}

=== FILE: instance.dfy ===
/**
  The wrapper `wrapDataClass` builds around one data-class instance
  (immutable/index.js): the snapshot it keeps next to the live object
  graph, the bound methods it hands out, the change listener, and the
  `$destroy` teardown. The interceptor tree itself is `Interceptor`'s;
  here a write is the trap's edit of the live graph followed by the
  `change` call its descriptor makes.
 */
module Instance {
  import opened Wrappers
  import opened Values
  import opened Util
  import opened Snapshot
  import opened Interceptor
  import ObjectProxy
  import ArrayProxy

  // ---------------------------------------------------------------------
  // getMethods
  // ---------------------------------------------------------------------

  /** What `target[name]` reads on the wrapped instance: an own field, else an inherited member. */
  function Member(members: map<Key, Value>, k: Key): Value {
    if k in members then members[k] else Undef
  }

  /** The keys of the listed names. */
  function ListedKeys(names: seq<string>): set<Key> {
    set i | 0 <= i < |names| :: KeyOfName(names[i])
  }

  /**
    `getMethods(target, names)`: folds the names into an object holding,
    under each name whose read through `target` is a function, that
    function bound to the target. `read` is the property read on the
    target. Binding is not modelled: the entry is the function read.
   */
  function GetMethods(read: Key -> Value, names: seq<string>): (r: map<Key, Value>)
    ensures forall k :: k in r ==> read(k).Fn? && r[k] == read(k)
    ensures forall i :: 0 <= i < |names| && read(KeyOfName(names[i])).Fn? ==> KeyOfName(names[i]) in r
    ensures r.Keys <= ListedKeys(names)
    decreases |names|
  {
    if |names| == 0 then map[]
    else
      var init := names[..|names| - 1];
      var r := GetMethods(read, init);
      var k := KeyOfName(names[|names| - 1]);
      assert ListedKeys(init) <= ListedKeys(names) by {
        forall k' | k' in ListedKeys(init) ensures k' in ListedKeys(names) {
          var i :| 0 <= i < |init| && KeyOfName(init[i]) == k';
          assert names[i] == init[i];
        }
      }
      assert k in ListedKeys(names);
      if read(k).Fn? then r[k := read(k)] else r
  }

  /** A name is a method key exactly when it is listed and reads as a function. */
  lemma {:induction false} GetMethodsExactly(read: Key -> Value, names: seq<string>, s: string)
    ensures KeyOfName(s) in GetMethods(read, names) <==> s in names && read(KeyOfName(s)).Fn?
  {
    var k := KeyOfName(s);
    var r := GetMethods(read, names);
    if k in r {
      assert k in ListedKeys(names);
      var i :| 0 <= i < |names| && KeyOfName(names[i]) == k;
      KeyRoundTrip(names[i], k);
      KeyRoundTrip(s, k);
      assert names[i] == s;
    }
    if s in names && read(k).Fn? {
      var i :| 0 <= i < |names| && names[i] == s;
    }
  }

  /**
    `Object.prototype` itself, which `{}.__proto__` reads: a plain object,
    never a function. Its own built-in members are not modelled.
   */
  const ObjectPrototype: Value := Obj(map[])

  /**
    What the child table `{}` inherits under a name of `Object.prototype`:
    the built-in function `builtin` gives for it, except under `__proto__`,
    which reads the prototype object itself.
   */
  function InheritedMember(builtin: string -> nat, name: string): (v: Value)
    ensures v.Fn? <==> name != "__proto__"
  {
    if name == "__proto__" then ObjectPrototype else Fn(builtin(name))
  }

  /**
    What `proxyedInstance[name]` reads on the root interceptor over the
    instance: the function of a hook; the child interceptor of an own array
    or plain-object field under a string key (stood for by the field, never
    a function); under a name of `Object.prototype` the child table `{}` has
    no own entry for, the member it inherits; else the instance's own or
    inherited member. `builtin` gives the function each hook and built-in
    name reads as.
   */
  function ThroughRoot(instance: Value, inherited: map<Key, Value>, builtin: string -> nat, k: Key): Value
    requires instance.Obj?
  {
    if IsHook(ObjectShape, k) then Fn(builtin(k.name))
    else if k in instance.fields && StringKey(k) && IsContainer(instance.fields[k]) then instance.fields[k]
    else if ProtoName(k) then InheritedMember(builtin, k.name)
    else Member(inherited + instance.fields, k)
  }

  /** `ThroughRoot` is what the `get` trap of the interceptor built over the instance returns. */
  lemma ThroughRootIsGet(instance: Value, inherited: map<Key, Value>, builtin: string -> nat, k: Key)
    requires instance.Obj?
    ensures var r := Get(Build(instance, []), instance, k);
            var v := ThroughRoot(instance, inherited, builtin, k);
            r.Success? &&
            (r.value.Hook? ==> v == Fn(builtin(r.value.name))) &&
            (r.value.Inherited? ==> v == InheritedMember(builtin, r.value.name)) &&
            (r.value.Child? ==> IsContainer(v) && v == Lookup(instance, k).value) &&
            (r.value.Field? ==> v == if k in instance.fields then r.value.value else Member(inherited, k))
  {
    BuildTracks(instance, []);
    GetTracks(Build(instance, []), instance, k);
  }

  // ---------------------------------------------------------------------
  // The wrapper's state.
  // ---------------------------------------------------------------------

  /** The `onChange` callback: the initial no-op, or a callback set by `$changed`. */
  datatype Listener = Silent | Callback(id: nat)

  /** One call of a change callback, with the snapshot it was given. */
  datatype Notice = Notice(listener: nat, snapshot: Value)

  /**
    The wrapper: the snapshot (`dataProps.immutable`), the live object
    graph the root interceptor wraps, the bound methods, the current
    listener, every notification made so far, and whether `$destroy` ran.
   */
  datatype Wrapper = Wrapper(snapshot: Value, live: Value, methods: map<Key, Value>,
                             listener: Listener, notices: seq<Notice>, destroyed: bool)

  /**
    The wrapper around a fresh instance. The snapshot is the clone of the
    instance read through all its names, inherited ones included and
    symbol-keyed fields left out (`clone` walks `getAllKeys`); the methods
    are those of `names` that read as a function through the root
    interceptor; no listener is set yet.
   */
  function Create(instance: Value, inherited: map<Key, Value>, names: seq<string>, builtin: string -> nat): (w: Wrapper)
    requires instance.Obj?
    ensures w.live == instance && !w.destroyed && w.listener == Silent && w.notices == []
    ensures w.snapshot.Obj? && Detached(w.snapshot)
    ensures forall k :: k in w.snapshot.fields <==>
              k in inherited + instance.fields && StringKey(k) && k != ConstructorKey &&
              Clone((inherited + instance.fields)[k]) != Undef
    ensures forall s :: KeyOfName(s) in w.methods <==>
              s in names && ThroughRoot(instance, inherited, builtin, KeyOfName(s)).Fn?
    ensures forall k :: k in w.methods ==> w.methods[k] == ThroughRoot(instance, inherited, builtin, k)
  {
    var members := inherited + instance.fields;
    var read := k => ThroughRoot(instance, inherited, builtin, k);
    forall s ensures KeyOfName(s) in GetMethods(read, names) <==> s in names && read(KeyOfName(s)).Fn? {
      GetMethodsExactly(read, names, s);
    }
    forall k ensures k in Clone(Obj(members)).fields <==>
                     k in members && StringKey(k) && k != ConstructorKey && Clone(members[k]) != Undef {
      CloneObject(members, k);
    }
    Wrapper(Clone(Obj(members)), instance, GetMethods(read, names), Silent, [], false)
  }

  /**
    A listed name of `Object.prototype` (`toString`, `valueOf`, ...) that
    is not an own array or plain-object field is bound to the built-in the
    child table inherits, even when the class defines its own method under
    that name; `__proto__` reads the prototype object, so it gives no
    method at all.
   */
  lemma CreateBindsBuiltin(instance: Value, inherited: map<Key, Value>, names: seq<string>,
                           builtin: string -> nat, s: string)
    requires instance.Obj? && s in names && ProtoName(KeyOfName(s))
    requires !(KeyOfName(s) in instance.fields && IsContainer(instance.fields[KeyOfName(s)]))
    ensures var w := Create(instance, inherited, names, builtin);
            s == "__proto__" ==> KeyOfName(s) !in w.methods
    ensures var w := Create(instance, inherited, names, builtin);
            s != "__proto__" ==> KeyOfName(s) in w.methods && w.methods[KeyOfName(s)] == Fn(builtin(s))
  {
    var k := KeyOfName(s);
    assert !IsHook(ObjectShape, k) by {
      assert k.name in TableProtoNames;
    }
  }

  /** Any other listed name is bound to the instance's own or inherited member when that is a function. */
  lemma CreateBindsMember(instance: Value, inherited: map<Key, Value>, names: seq<string>,
                          builtin: string -> nat, s: string)
    requires instance.Obj? && s in names && !IsHook(ObjectShape, KeyOfName(s)) && !ProtoName(KeyOfName(s))
    requires Member(inherited + instance.fields, KeyOfName(s)).Fn?
    ensures var w := Create(instance, inherited, names, builtin);
            KeyOfName(s) in w.methods && w.methods[KeyOfName(s)] == Member(inherited + instance.fields, KeyOfName(s))
  {
  }

  /** One key of a detached instance's clone: its own fields come through unchanged, its inherited methods are dropped. */
  lemma CloneKeepsField(fields: map<Key, Value>, inherited: map<Key, Value>, k: Key)
    requires Detached(Obj(fields))
    requires k in inherited && k !in fields ==> inherited[k].Fn?
    ensures var c := Clone(Obj(inherited + fields));
            (k in c.fields <==> k in fields) && (k in fields ==> c.fields[k] == fields[k])
  {
    CloneObject(inherited + fields, k);
  }

  /**
    A fresh wrapper starts with the snapshot equal to the live instance
    when the instance holds only snapshot values and every member it only
    inherits is a method (which `clone` drops).
   */
  lemma CreateStartsCoherent(instance: Value, inherited: map<Key, Value>, names: seq<string>, builtin: string -> nat)
    requires instance.Obj? && Detached(instance)
    requires forall k :: k in inherited && k !in instance.fields ==> inherited[k].Fn?
    ensures var w := Create(instance, inherited, names, builtin);
            w.snapshot == w.live
  {
    CloneDetachedInstance(instance.fields, inherited);
  }

  /** The clone of a detached instance with only methods inherited is the instance. */
  lemma CloneDetachedInstance(fields: map<Key, Value>, inherited: map<Key, Value>)
    requires Detached(Obj(fields))
    requires forall k :: k in inherited && k !in fields ==> inherited[k].Fn?
    ensures Clone(Obj(inherited + fields)) == Obj(fields)
  {
    var c := Clone(Obj(inherited + fields));
    forall k ensures k in c.fields <==> k in fields {
      CloneKeepsField(fields, inherited, k);
    }
    forall k | k in fields ensures c.fields[k] == fields[k] {
      CloneKeepsField(fields, inherited, k);
    }
    assert c.fields == fields;
  }

  /**
    `wrapDataClass(DataClass)(initValue)` once the instance exists: lists
    its names with `getAllKeys` (own names, then those of each prototype
    before `Object.prototype`, without `constructor`) and builds the
    wrapper over them. `ownNames` are the names of the instance's own
    fields and `inherited` holds the members of exactly the names the
    prototypes list.
   */
  method Wrap(instance: Value, ownNames: seq<string>, protos: seq<ProtoLevel>, inherited: map<Key, Value>,
              builtin: string -> nat)
    returns (w: Wrapper)
    requires instance.Obj?
    requires forall s :: s in ownNames <==> KeyOfName(s) in instance.fields
    requires forall s :: KeyOfName(s) in inherited <==> s in InheritedNames(protos)
    ensures w.live == instance && !w.destroyed && w.listener == Silent && w.notices == []
    ensures w.snapshot == Clone(Obj(inherited + instance.fields))
    ensures forall s :: KeyOfName(s) in w.methods <==>
              KeyOfName(s) in inherited + instance.fields && s != "constructor" &&
              ThroughRoot(instance, inherited, builtin, KeyOfName(s)).Fn?
    ensures forall k :: k in w.methods ==> w.methods[k] == ThroughRoot(instance, inherited, builtin, k)
  {
    var names := GetAllKeys(ownNames, protos);
    w := Create(instance, inherited, names, builtin);
  }

  /**
    `dataProps.change(kind, path, payload)`: rebuilds the snapshot with the
    clone of the payload and hands the new snapshot to the listener. Once
    the wrapper is destroyed `change` is a no-op. A failing rebuild throws
    before the listener runs.
   */
  function Change(w: Wrapper, d: Descriptor): (r: Result<Wrapper, Fault>)
    requires |d.path| > 0
    ensures w.destroyed ==> r == Success(w)
    ensures !w.destroyed ==>
              (r.Success? <==> Update(d.kind, w.snapshot, d.path, Clone(d.payload)).Success?)
    ensures r.Success? && !w.destroyed ==>
              var s := Update(d.kind, w.snapshot, d.path, Clone(d.payload)).value;
              r.value == w.(snapshot := s, notices := w.notices + Heard(w.listener, s))
  {
    if w.destroyed then Success(w)
    else
      var s :- Update(d.kind, w.snapshot, d.path, Clone(d.payload));
      Success(w.(snapshot := s, notices := w.notices + Heard(w.listener, s)))
  }

  /** The notification `onChange(snapshot)` makes: none for the initial no-op. */
  function Heard(l: Listener, s: Value): (r: seq<Notice>)
    ensures l.Silent? <==> r == []
  {
    match l
    case Silent => []
    case Callback(id) => [Notice(id, s)]
  }

  /** `$changed(callback)`: later changes notify this callback instead. */
  function Changed(w: Wrapper, id: nat): (r: Wrapper)
    ensures r.listener == Callback(id) && r.snapshot == w.snapshot && r.live == w.live &&
            r.notices == w.notices && r.destroyed == w.destroyed && r.methods == w.methods
  {
    w.(listener := Callback(id))
  }

  /**
    `$destroy()`: turns `change` into a no-op and drops the wrapper's
    references. A second call reads `change` off the dropped reference and
    throws a TypeError.
   */
  function Destroy(w: Wrapper): (r: Result<Wrapper, Fault>)
    ensures w.destroyed <==> r == Failure(TypeError)
    ensures r.Success? ==> r.value.destroyed && r.value.snapshot == w.snapshot && r.value.live == w.live &&
                           r.value.notices == w.notices
  {
    if w.destroyed then Failure(TypeError)
    else Success(w.(destroyed := true, methods := map[], listener := Silent))
  }

  /** `$getSnapshot()`: the snapshot; after `$destroy` it reads through a dropped reference. */
  function GetSnapshot(w: Wrapper): (r: Result<Value, Fault>)
    ensures w.destroyed <==> r.Failure?
    ensures r.Success? ==> r.value == w.snapshot
  {
    if w.destroyed then Failure(TypeError) else Success(w.snapshot)
  }

  /** `$getMethods()`: the bound methods; `null` after `$destroy`. */
  function GetMethodsOf(w: Wrapper): (r: Option<map<Key, Value>>)
    ensures w.destroyed <==> r.None?
    ensures r.Some? ==> r.value == w.methods
  {
    if w.destroyed then None else Some(w.methods)
  }

  // ---------------------------------------------------------------------
  // A write: the trap's edit of the live graph, then `change`.
  // ---------------------------------------------------------------------

  /**
    The wrapper after a write, and the error `change` threw, if any. The
    traps edit their target before they call `change`, so the live edit
    stays whether or not `change` throws.
   */
  datatype Outcome = Outcome(wrapper: Wrapper, fault: Option<Fault>)

  /**
    Commits one trap: the subtree at `q`, where the trap's node sits, is
    replaced by the backing value the trap left, and the emitted
    descriptor, if any, goes to `change`. When `change` throws, the live
    graph keeps the edit while the snapshot and the notifications stay as
    they were. A write through an interceptor kept from before `$destroy`
    still edits the live graph.
   */
  function Commit(w: Wrapper, q: Path, backing: Value, emitted: Option<Descriptor>): (r: Outcome)
    requires ContainerAt(w.live, q)
    requires emitted.Some? ==> |emitted.value.path| > 0
    ensures r.wrapper.live == Replace(w.live, q, backing) && r.wrapper.destroyed == w.destroyed
    ensures emitted.None? ==> r.fault.None? && r.wrapper == w.(live := Replace(w.live, q, backing))
    ensures r.fault.Some? ==> emitted.Some? && !w.destroyed &&
                              r.wrapper == w.(live := Replace(w.live, q, backing))
    ensures emitted.Some? && !w.destroyed ==>
              (r.fault.None? <==> Update(emitted.value.kind, w.snapshot, emitted.value.path,
                                         Clone(emitted.value.payload)).Success?)
  {
    var w' := w.(live := Replace(w.live, q, backing));
    match emitted
    case None => Outcome(w', None)
    case Some(d) =>
      match Change(w', d)
      case Success(w'') => Outcome(w'', None)
      case Failure(e) => Outcome(w', Some(e))
  }

  /**
    The snapshot stays equal to the live graph across every write whose
    payload clones to itself: when they agree before, the descriptor the
    trap emits rebuilds the snapshot into exactly the graph the trap left,
    and the listener is handed that snapshot.
   */
  lemma CommitKeepsSnapshotLive(w: Wrapper, q: Path, k: Key, backing: Value, d: Descriptor)
    requires !w.destroyed && w.snapshot == w.live && ContainerAt(w.live, q)
    requires d.path == q + [k] && Detached(d.payload)
    requires Edit(d.kind, At(w.live, q), k, d.payload) == Success(backing)
    ensures var r := Commit(w, q, backing, Some(d));
            r.fault.None? && r.wrapper.snapshot == r.wrapper.live &&
            r.wrapper.notices == w.notices + Heard(w.listener, r.wrapper.live)
  {
    UpdateAt(d.kind, w.snapshot, q, k, d.payload);
  }

  /** After `$destroy` a write still edits the live graph but leaves the snapshot and the notifications alone. */
  lemma CommitAfterDestroy(w: Wrapper, q: Path, backing: Value, emitted: Option<Descriptor>)
    requires w.destroyed && ContainerAt(w.live, q)
    requires emitted.Some? ==> |emitted.value.path| > 0
    ensures var r := Commit(w, q, backing, emitted);
            r.fault.None? && r.wrapper.live == Replace(w.live, q, backing) &&
            r.wrapper.snapshot == w.snapshot && r.wrapper.notices == w.notices
  {
  }

  /**
    `change` called once per descriptor, in order; the first failing
    rebuild throws and ends the run, keeping the snapshots the earlier
    calls installed.
   */
  function ChangeAll(w: Wrapper, ds: seq<Descriptor>): (r: Outcome)
    requires forall i :: 0 <= i < |ds| ==> |ds[i].path| > 0
    ensures w.destroyed ==> r == Outcome(w, None)
    ensures r.wrapper.live == w.live && r.wrapper.destroyed == w.destroyed &&
            r.wrapper.listener == w.listener
    ensures r.fault.None? && !w.destroyed ==>
              |r.wrapper.notices| == |w.notices| + (if w.listener.Silent? then 0 else |ds|)
    ensures r.fault.Some? ==>
              !w.destroyed && |w.notices| <= |r.wrapper.notices| < |w.notices| + |ds|
    ensures |ds| > 0 && Change(w, ds[0]).Failure? ==> r == Outcome(w, Some(Change(w, ds[0]).error))
    decreases |ds|
  {
    if |ds| == 0 then Outcome(w, None)
    else
      match Change(w, ds[0])
      case Failure(e) => Outcome(w, Some(e))
      case Success(w1) => ChangeAll(w1, ds[1..])
  }

  /**
    Commits a run of traps over the node at `q`: the subtree there is
    replaced by the backing value the run left, and every descriptor it
    emitted goes to `change` in turn. With one descriptor or none this is
    `Commit`.
   */
  function CommitAll(w: Wrapper, q: Path, backing: Value, ds: seq<Descriptor>): (r: Outcome)
    requires ContainerAt(w.live, q)
    requires forall i :: 0 <= i < |ds| ==> |ds[i].path| > 0
    ensures r.wrapper.live == Replace(w.live, q, backing) && r.wrapper.destroyed == w.destroyed
    ensures |ds| == 0 ==> r == Commit(w, q, backing, None)
    ensures |ds| == 1 ==> r == Commit(w, q, backing, Some(ds[0]))
  {
    var w' := w.(live := Replace(w.live, q, backing));
    assert |ds| == 1 && Change(w', ds[0]).Success? ==>
             ds[1..] == [] && ChangeAll(w', ds) == Outcome(Change(w', ds[0]).value, None);
    ChangeAll(w', ds)
  }

  /** The run `push(x)` makes on a live interceptor: `x` appended, a `set` at the new index, then `array:push`. */
  lemma PushOneAsWritten(n: Node, backing: Value, x: Value)
    requires backing.Arr? && n.valid
    ensures var r := ArrayProxy.PushAsWritten(n, backing, [x]);
            var k := Idx(|backing.elems|);
            r.Success? && r.value.backing == Arr(backing.elems + [x]) &&
            r.value.emitted == [Descriptor(Set, n.path + [k], x), Descriptor(Push, n.path + [k], Arr([x]))]
  {
    var r := ArrayProxy.PushAsWritten(n, backing, [x]);
    assert ArrayProxy.SetTrace(n.path, |backing.elems|, [x]) == [Descriptor(Set, n.path + [Idx(|backing.elems|)], x)];
  }

  /** A `set` at index `|xs|` of the array at `q` appends to that array in the snapshot. */
  lemma ChangeSetAppends(w: Wrapper, q: Path, x: Value)
    requires !w.destroyed && ContainerAt(w.snapshot, q) && At(w.snapshot, q).Arr? && Detached(x)
    ensures var xs := At(w.snapshot, q).elems;
            var r := Change(w, Descriptor(Set, q + [Idx(|xs|)], x));
            r.Success? && r.value.snapshot == Replace(w.snapshot, q, Arr(xs + [x])) &&
            r.value.live == w.live && !r.value.destroyed
  {
    var xs := At(w.snapshot, q).elems;
    UpdateAt(Set, w.snapshot, q, Idx(|xs|), x);
    ArrayProxy.SetIndexAppends(xs, x);
  }

  /** An `array:push` of `[x]` at the array at `q` appends `x` to that array in the snapshot. */
  lemma ChangePushAppends(w: Wrapper, q: Path, k: Key, x: Value)
    requires !w.destroyed && ContainerAt(w.snapshot, q) && At(w.snapshot, q).Arr? && Detached(x)
    ensures var r := Change(w, Descriptor(Push, q + [k], Arr([x])));
            r.Success? && r.value.snapshot == Replace(w.snapshot, q, Arr(At(w.snapshot, q).elems + [x])) &&
            r.value.live == w.live && !r.value.destroyed
  {
    assert Clone(Arr([x])) == Arr([x]);
    PushAt(w.snapshot, q, k, [x]);
  }

  /** Two changes in a row, both succeeding. */
  lemma ChangeAllTwo(w: Wrapper, ds: seq<Descriptor>)
    requires |ds| == 2 && |ds[0].path| > 0 && |ds[1].path| > 0
    requires Change(w, ds[0]).Success? && Change(Change(w, ds[0]).value, ds[1]).Success?
    ensures ChangeAll(w, ds) == Outcome(Change(Change(w, ds[0]).value, ds[1]).value, None)
  {
    var w1 := Change(w, ds[0]).value;
    var rest := ds[1..];
    assert rest[0] == ds[1] && rest[1..] == [];
    assert ChangeAll(w1, rest) == ChangeAll(Change(w1, ds[1]).value, rest[1..]);
    assert ChangeAll(w, ds) == ChangeAll(w1, rest);
  }

  /**
    Committing `x` appended to the array at `q`, then a `set` at the new
    index and an `array:push` of `[x]`, from a snapshot equal to the live
    graph: the live array has `x` once, the snapshot's twice.
   */
  lemma CommitSetThenPush(w: Wrapper, q: Path, x: Value)
    requires !w.destroyed && w.snapshot == w.live
    requires ContainerAt(w.live, q) && At(w.live, q).Arr? && Detached(x)
    ensures var xs := At(w.live, q).elems;
            var k := Idx(|xs|);
            var c := CommitAll(w, q, Arr(xs + [x]), [Descriptor(Set, q + [k], x), Descriptor(Push, q + [k], Arr([x]))]);
            c.fault.None? &&
            c.wrapper.live == Replace(w.live, q, Arr(xs + [x])) &&
            c.wrapper.snapshot == Replace(w.live, q, Arr(xs + [x, x]))
  {
    var xs := At(w.live, q).elems;
    var k := Idx(|xs|);
    var ds := [Descriptor(Set, q + [k], x), Descriptor(Push, q + [k], Arr([x]))];
    var w0 := w.(live := Replace(w.live, q, Arr(xs + [x])));
    ChangeSetAppends(w0, q, x);
    var w1 := Change(w0, ds[0]).value;
    AtReplace(w.live, q, Arr(xs + [x]));
    ChangePushAppends(w1, q, k, x);
    assert xs + [x] + [x] == xs + [x, x];
    ReplaceTwice(w.live, q, Arr(xs + [x]), Arr(xs + [x, x]));
    ChangeAllTwo(w0, ds);
  }

  /**
    `push(x)` called on an array interceptor as the program runs it:
    `Array.prototype.push` stores `x` through the interceptor's own `set`
    trap, which emits `set` at the new index, and the replaced method then
    emits `array:push` for the same argument. Starting from a snapshot equal
    to the live graph, the live array gains `x` once and the snapshot twice.
   */
  lemma PushAsWrittenBreaksCoherence(w: Wrapper, n: Node, x: Value)
    requires !w.destroyed && w.snapshot == w.live && n.valid
    requires ContainerAt(w.live, n.path) && At(w.live, n.path).Arr? && Detached(x)
    ensures var xs := At(w.live, n.path).elems;
            var r := ArrayProxy.PushAsWritten(n, At(w.live, n.path), [x]);
            r.Success? &&
            var c := CommitAll(w, n.path, r.value.backing, r.value.emitted);
            c.fault.None? &&
            c.wrapper.live == Replace(w.live, n.path, Arr(xs + [x])) &&
            c.wrapper.snapshot == Replace(w.live, n.path, Arr(xs + [x, x])) &&
            c.wrapper.snapshot != c.wrapper.live
  {
    var xs := At(w.live, n.path).elems;
    PushOneAsWritten(n, At(w.live, n.path), x);
    CommitSetThenPush(w, n.path, x);
    AtReplace(w.live, n.path, Arr(xs + [x]));
    AtReplace(w.live, n.path, Arr(xs + [x, x]));
  }

  // ---------------------------------------------------------------------
  // Every trap keeps the snapshot equal to the live graph.
  // ---------------------------------------------------------------------

  /** One write through an interceptor: a trap of the object or of the array interceptor. */
  datatype Write =
    | ObjectSet(name: string, value: Value)
    | ObjectDelete(name: string)
    | ArraySet(prop: ArrayProxy.ArrayProp, value: Value)
    | ArrayDelete(prop: ArrayProxy.ArrayProp)
    | ArrayPush(args: seq<Value>)
    | ArrayPop
    | ArrayUnshift(args: seq<Value>)
    | ArrayShift

  /** The write is one the interceptor over this backing value offers. */
  predicate Fits(op: Write, backing: Value) {
    if op.ObjectSet? || op.ObjectDelete? then backing.Obj? else backing.Arr?
  }

  /** Every value the write stores clones to itself. */
  predicate PayloadDetached(op: Write) {
    match op
    case ObjectSet(_, value) => Detached(value)
    case ArraySet(_, value) => Detached(value)
    case ArrayPush(args) => forall i :: 0 <= i < |args| ==> Detached(args[i])
    case ArrayUnshift(args) => forall i :: 0 <= i < |args| ==> Detached(args[i])
    case _ => true
  }

  /** The trap a write runs on a node and its backing value. */
  function Trap(n: Node, backing: Value, op: Write): (r: Result<Step, Fault>)
    requires Fits(op, backing)
    ensures r.Success? && r.value.emitted.Some? ==>
              |r.value.emitted.value.path| == |n.path| + 1 &&
              r.value.emitted.value.path[..|n.path|] == n.path
  {
    match op
    case ObjectSet(name, value) => ObjectProxy.SetTrap(n, backing, name, value)
    case ObjectDelete(name) => ObjectProxy.DeleteTrap(n, backing, name)
    case ArraySet(p, value) => ArrayProxy.SetTrap(n, backing, p, value)
    case ArrayDelete(p) => ArrayProxy.DeleteTrap(n, backing, p)
    case ArrayPush(args) => ArrayProxy.ReplacedPush(n, backing, args)
    case ArrayPop => ArrayProxy.ReplacedPop(n, backing)
    case ArrayUnshift(args) => ArrayProxy.ReplacedUnshift(n, backing, args)
    case ArrayShift => ArrayProxy.ReplacedShift(n, backing)
  }

  /** The emitted descriptor replays the trap: its terminal edit turns the backing value into the one the trap left. */
  lemma TrapReplays(n: Node, backing: Value, op: Write)
    requires Fits(op, backing)
    ensures var r := Trap(n, backing, op);
            r.Success? && r.value.emitted.Some? ==>
              var d := r.value.emitted.value;
              d.path == n.path + [d.path[|n.path|]] &&
              Edit(d.kind, backing, d.path[|n.path|], d.payload) == Success(r.value.backing)
  {
    match op
    case ObjectSet(name, value) => ObjectProxy.SetReplays(n, backing, name, value);
    case ObjectDelete(name) => ObjectProxy.DeleteReplays(n, backing, name);
    case ArraySet(p, value) => ArrayProxy.SetReplays(n, backing, p, value);
    case ArrayDelete(p) => ArrayProxy.DeleteReplays(n, backing, p);
    case ArrayPush(args) => ArrayProxy.PushReplays(n, backing, args);
    case ArrayPop => ArrayProxy.PopReplays(n, backing);
    case ArrayUnshift(args) => ArrayProxy.UnshiftReplays(n, backing, args);
    case ArrayShift => ArrayProxy.ShiftReplays(n, backing);
  }

  /**
    A write through the interceptor sitting at `q` over the live graph,
    committed, keeps a snapshot that equalled the live graph equal to it,
    whatever the trap. This holds for the replaced methods as modelled
    here, running against the raw backing array; as the program runs them
    they store through the interceptor itself, whose `set` traps emit
    descriptors of their own before the method's, and the snapshot drifts
    (`PushAsWrittenBreaksCoherence`).
   */
  lemma WriteKeepsSnapshotLive(w: Wrapper, n: Node, op: Write)
    requires !w.destroyed && w.snapshot == w.live && ContainerAt(w.live, n.path)
    requires Fits(op, At(w.live, n.path)) && PayloadDetached(op)
    ensures var r := Trap(n, At(w.live, n.path), op);
            r.Success? ==>
              var c := Commit(w, n.path, r.value.backing, r.value.emitted);
              c.fault.None? && c.wrapper.snapshot == c.wrapper.live
  {
    var backing := At(w.live, n.path);
    var r := Trap(n, backing, op);
    if r.Success? {
      TrapReplays(n, backing, op);
      match r.value.emitted
      case None =>
        assert r.value.backing == backing;
        ReplaceAt(w.live, n.path);
      case Some(d) =>
        var k := d.path[|n.path|];
        assert Detached(d.payload);
        CommitKeepsSnapshotLive(w, n.path, k, r.value.backing, d);
    }
  }
}

=== FILE: interceptor.dfy ===
/**
  The bookkeeping both interceptor factories share (immutable/array.js and
  immutable/plainobject.js): an interceptor node with its namespace path,
  its table of child interceptors and its validity flag, and the helpers
  `tryToProxyIt`, `unProxy`, `_DESTROYPROXY_`, `_RESETNAMESPACE_` and the
  `get` trap. A node does not hold its backing value: every operation takes
  the value the node wraps as an argument and returns the new one.
 */
module Interceptor {
  import opened Wrappers
  import opened Values
  import opened Snapshot

  /** Which factory built the node. */
  datatype Shape = ArrayShape | ObjectShape

  /**
    One interceptor: its namespace path, the child interceptors it owns
    (only for children that are arrays or plain objects) and whether it
    has been destroyed.
   */
  datatype Node = Node(shape: Shape, path: Path, children: map<Key, Node>, valid: bool)

  /**
    A trap's outcome: the node and backing value after it, the descriptor
    it emitted, if any, and every interceptor the trap destroyed (as it
    was before; each now behaves as `Destroy` of itself).
   */
  datatype Step = Step(node: Node, backing: Value, emitted: Option<Descriptor>, retired: set<Node>)

  /**
    What the `get` trap returns: a child interceptor, the raw field, one of
    the functions the interceptor itself supplies (a hook), or the member
    of `Object.prototype` the child table inherits under that name.
   */
  datatype Read = Child(child: Node) | Field(value: Value) | Hook(name: string) | Inherited(name: string)

  /**
    The names under which the child table, a plain `{}`, finds a member of
    `Object.prototype` when it has no own entry.
   */
  const TableProtoNames: set<string> :=
    {"constructor", "hasOwnProperty", "isPrototypeOf", "propertyIsEnumerable", "toLocaleString",
     "toString", "valueOf", "__defineGetter__", "__defineSetter__", "__lookupGetter__",
     "__lookupSetter__", "__proto__"}

  /** Every one of those names is at least seven characters long, which settles most keys without a lookup. */
  predicate ProtoName(k: Key) {
    k.Name? && |k.name| >= 7 && k.name in TableProtoNames
  }

  /** `table[name]` finds an inherited `Object.prototype` member rather than a child. */
  predicate Inherits(table: map<Key, Node>, k: Key) {
    ProtoName(k) && k !in table
  }

  /**
    The names the `get` trap answers before looking at the table: the two
    internal hooks, and on an array the four replaced methods.
   */
  function HookNames(shape: Shape): (r: set<string>)
    ensures "_DESTROYPROXY_" in r && "_RESETNAMESPACE_" in r
    ensures shape == ArrayShape <==> "push" in r
  {
    if shape == ArrayShape then {"_DESTROYPROXY_", "_RESETNAMESPACE_", "push", "pop", "unshift", "shift"}
    else {"_DESTROYPROXY_", "_RESETNAMESPACE_"}
  }

  predicate IsHook(shape: Shape, k: Key) {
    k.Name? && k.name in HookNames(shape)
  }

  /** The field a child key names in a container; `undefined` when absent. */
  function FieldAt(v: Value, k: Key): Value
    requires IsContainer(v)
  {
    match v
    case Arr(xs) => if k.Idx? && k.index < |xs| then xs[k.index] else Undef
    case Obj(m) => if k in m then m[k] else Undef
  }

  /** An array table owns a child exactly for each array or plain-object element, under its index. */
  predicate ArrTable(t: map<Key, Node>, xs: seq<Value>) {
    KeysOfContainers(t, xs) && ContainersKeyed(t, xs)
  }

  /** Every key of the table is the index of an array or plain-object element. */
  predicate KeysOfContainers(t: map<Key, Node>, xs: seq<Value>) {
    forall k :: k in t ==> k.Idx? && k.index < |xs| && IsContainer(xs[k.index])
  }

  /** Every array or plain-object element has its index in the table. */
  predicate ContainersKeyed(t: map<Key, Node>, xs: seq<Value>) {
    forall i :: 0 <= i < |xs| && IsContainer(xs[i]) ==> Idx(i) in t
  }

  /**
    An object table owns a child exactly for each array or plain-object
    field under a string key, which `Object.keys` lists; a symbol-keyed
    field is never wrapped.
   */
  predicate ObjTable(t: map<Key, Node>, m: map<Key, Value>) {
    && (forall k :: k in t ==> StringKey(k) && k in m && IsContainer(m[k]))
    && (forall k :: k in m && StringKey(k) && IsContainer(m[k]) ==> k in t)
  }

  /**
    The table of one node agrees with the value it wraps: the node is
    valid, has the factory's shape, and owns a child exactly for each array
    or plain-object field.
   */
  predicate TableMatches(n: Node, v: Value) {
    n.valid &&
    match v
    case Arr(xs) => n.shape == ArrayShape && ArrTable(n.children, xs)
    case Obj(m) => n.shape == ObjectShape && ObjTable(n.children, m)
    case _ => false
  }

  /**
    The coherence invariant between a live node and the value it wraps:
    its table matches the value, every child's path is the node's path
    followed by the child's key, and every child tracks its field.
   */
  predicate Tracks(n: Node, v: Value)
    decreases n
  {
    && TableMatches(n, v)
    && forall k :: k in n.children ==>
         n.children[k].path == n.path + [k] && Tracks(n.children[k], FieldAt(v, k))
  }

  /** The namespace invariant alone: `path(child) == path(parent) + [key]` throughout the tree. */
  predicate PathsConsistent(n: Node)
    decreases n
  {
    forall k :: k in n.children ==> n.children[k].path == n.path + [k] && PathsConsistent(n.children[k])
  }

  lemma {:induction false} TracksPathsConsistent(n: Node, v: Value)
    requires Tracks(n, v)
    ensures PathsConsistent(n)
    decreases n
  {
    forall k | k in n.children
      ensures PathsConsistent(n.children[k])
    {
      TracksPathsConsistent(n.children[k], FieldAt(v, k));
    }
  }

  /**
    The factories `immutable(target, dataProps, namespaceList)`: an array
    registers a child for each container element under its index; a plain
    object registers one for each container field `Object.keys` lists,
    under its name, which leaves out symbol-keyed fields.
   */
  function Build(v: Value, ns: Path): (n: Node)
    requires IsContainer(v)
    ensures n.path == ns && n.valid
    ensures n.shape == (if v.Arr? then ArrayShape else ObjectShape)
    decreases v, 1
  {
    match v
    case Arr(xs) => Node(ArrayShape, ns, ElementChildren(xs, ns, v), true)
    case Obj(m) => Node(ObjectShape, ns, FieldChildren(m, ns, v), true)
  }

  /** The children an array interceptor registers at construction: one per container element. */
  function ElementChildren(xs: seq<Value>, ns: Path, ghost parent: Value): (t: map<Key, Node>)
    requires forall i :: 0 <= i < |xs| ==> xs[i] < parent
    ensures forall k :: k in t <==> k.Idx? && k.index < |xs| && IsContainer(xs[k.index])
    ensures forall k :: k in t ==> t[k] == Build(xs[k.index], ns + [k])
    decreases parent, 0
  {
    var t := map i | 0 <= i < |xs| && IsContainer(xs[i]) :: Idx(i) := Build(xs[i], ns + [Idx(i)]);
    assert forall k :: k in t ==> exists i :: 0 <= i < |xs| && IsContainer(xs[i]) && Idx(i) == k;
    assert forall i :: 0 <= i < |xs| && IsContainer(xs[i]) ==> Idx(i) in t && t[Idx(i)] == Build(xs[i], ns + [Idx(i)]);
    t
  }

  /** The children an object interceptor registers at construction: one per string-keyed container field. */
  function FieldChildren(m: map<Key, Value>, ns: Path, ghost parent: Value): (t: map<Key, Node>)
    requires forall k :: k in m ==> m[k] < parent
    ensures forall k :: k in t <==> k in m && StringKey(k) && IsContainer(m[k])
    ensures forall k :: k in t ==> t[k] == Build(m[k], ns + [k])
    decreases parent, 0
  {
    map k | k in m && StringKey(k) && IsContainer(m[k]) :: Build(m[k], ns + [k])
  }

  /** A freshly built interceptor tracks the value it wraps, at every depth. */
  lemma {:induction false} BuildTracks(v: Value, ns: Path)
    requires IsContainer(v)
    ensures Tracks(Build(v, ns), v)
    decreases v
  {
    var n := Build(v, ns);
    forall k | k in n.children
      ensures Tracks(n.children[k], FieldAt(v, k))
    {
      BuildTracks(FieldAt(v, k), ns + [k]);
    }
  }

  /**
    `tryToProxyIt(value, name, ...)`: registers a new child interceptor at
    `ns + [name]` exactly when the value is an array or plain object;
    anything else (an unsupported object only triggers a warning) leaves
    the table as it was.
   */
  function TryToProxyIt(value: Value, k: Key, ns: Path, table: map<Key, Node>): (r: map<Key, Node>)
    ensures k in r <==> k in table || IsContainer(value)
    ensures IsContainer(value) ==> r[k].path == ns + [k] && Tracks(r[k], value)
    ensures !IsContainer(value) ==> r == table
    ensures forall k' :: k' != k ==> (k' in r <==> k' in table) && (k' in table ==> r[k'] == table[k'])
  {
    match Classify(value)
    case Sequence =>
      BuildTracks(value, ns + [k]);
      table[k := Build(value, ns + [k])]
    case KeyedMap =>
      BuildTracks(value, ns + [k]);
      table[k := Build(value, ns + [k])]
    case _ => table
  }

  /**
    One node after its own `_DESTROYPROXY_`: invalid, with its table
    dropped. The recursive calls the source makes on each child are
    `Teardown`'s.
   */
  function Destroy(n: Node): (r: Node)
    ensures !r.valid && r.children == map[]
    ensures r.shape == n.shape && r.path == n.path
  {
    Node(n.shape, n.path, map[], false)
  }

  /**
    The interceptors `_DESTROYPROXY_` on `n` invalidates: `n` itself and,
    through the call it makes on every child in its table, each of their
    subtrees.
   */
  function Teardown(n: Node): (r: set<Node>)
    ensures n in r
    ensures forall k :: k in n.children ==> Teardown(n.children[k]) <= r
    decreases n
  {
    {n} + set k, d | k in n.children && d in Teardown(n.children[k]) :: d
  }

  /** The interceptor a chain of `get`s along `p` hands out from `n`, following child tables only. */
  function Reach(n: Node, p: Path): Option<Node>
    decreases |p|
  {
    if |p| == 0 then Some(n)
    else if p[0] in n.children then Reach(n.children[p[0]], p[1..])
    else None
  }

  /** Every interceptor reachable from `n` is invalidated when `n` is destroyed. */
  lemma {:induction false} TeardownReaches(n: Node, p: Path)
    ensures Reach(n, p).Some? ==> Reach(n, p).value in Teardown(n)
    decreases |p|
  {
    if |p| > 0 && p[0] in n.children {
      TeardownReaches(n.children[p[0]], p[1..]);
    }
  }

  /** The interceptors `unProxy` destroys for a key: the subtree of the child under it, if any. */
  function Retire(table: map<Key, Node>, k: Key): (r: set<Node>)
    ensures k in table ==> table[k] in r
    ensures k !in table ==> r == {}
  {
    if k in table then Teardown(table[k]) else {}
  }

  /**
    Every interceptor a chain of `get`s can reach from the child dropped
    under `k` is among those `unProxy` destroys, so `GetAfterDestroy` and
    the `WritesAfterDestroy` lemmas apply to each of them.
   */
  lemma RetireReaches(table: map<Key, Node>, k: Key, p: Path)
    requires k in table
    ensures Reach(table[k], p).Some? ==> Reach(table[k], p).value in Retire(table, k)
  {
    TeardownReaches(table[k], p);
  }

  /** The result of `unProxy`: the table without the key, and the interceptors it destroyed. */
  datatype Unproxied = Unproxied(table: map<Key, Node>, retired: set<Node>)

  /**
    `unProxy(table, name)`: a missing key changes nothing; a present one is
    removed and its interceptor destroyed, with all of its descendants.
    When the name finds an `Object.prototype` member instead, calling its
    missing `_DESTROYPROXY_` is a TypeError.
   */
  function UnProxy(table: map<Key, Node>, k: Key): (r: Result<Unproxied, Fault>)
    ensures r.Failure? <==> Inherits(table, k)
    ensures r.Failure? ==> r == Failure(TypeError)
    ensures r.Success? ==> k !in r.value.table
    ensures r.Success? ==>
              forall k' :: k' != k ==>
                (k' in r.value.table <==> k' in table) && (k' in table ==> r.value.table[k'] == table[k'])
    ensures r.Success? && k in table ==> r.value.retired == Teardown(table[k])
    ensures r.Success? && k !in table ==> r.value.table == table && r.value.retired == {}
  {
    if Inherits(table, k) then Failure(TypeError)
    else if k in table then Success(Unproxied(table - {k}, Teardown(table[k])))
    else Success(Unproxied(table, {}))
  }

  /**
    `_RESETNAMESPACE_(p)`: the node takes path `p` and each child, in turn,
    the path `p + [key]`.
   */
  function ResetNamespace(n: Node, p: Path): (r: Node)
    ensures r.path == p && r.shape == n.shape && r.valid == n.valid
    ensures r.children.Keys == n.children.Keys
    decreases n
  {
    Node(n.shape, p, map k | k in n.children :: ResetNamespace(n.children[k], p + [k]), n.valid)
  }

  /**
    Whatever the paths were before, `_RESETNAMESPACE_(p)` leaves the node at
    `p` and every descendant at its parent's path followed by its key.
   */
  lemma {:induction false} ResetEstablishesPaths(n: Node, p: Path)
    ensures ResetNamespace(n, p).path == p
    ensures PathsConsistent(ResetNamespace(n, p))
    decreases n
  {
    var r := ResetNamespace(n, p);
    forall k | k in r.children
      ensures r.children[k].path == r.path + [k] && PathsConsistent(r.children[k])
    {
      assert r.children[k] == ResetNamespace(n.children[k], p + [k]);
      ResetEstablishesPaths(n.children[k], p + [k]);
    }
  }

  /** Re-homing a tracking node keeps it tracking the same value. */
  lemma {:induction false} ResetTracks(n: Node, v: Value, p: Path)
    requires Tracks(n, v)
    ensures Tracks(ResetNamespace(n, p), v)
    decreases n, 2
  {
    var r := ResetNamespace(n, p);
    TableMatchesSameKeys(n, r, v);
    ResetChildrenTrack(n, v, p);
    TracksIntro(r, v);
  }

  lemma {:induction false} ResetChildrenTrack(n: Node, v: Value, p: Path)
    requires Tracks(n, v)
    ensures var r := ResetNamespace(n, p);
            forall k :: k in r.children ==> r.children[k].path == r.path + [k] && Tracks(r.children[k], FieldAt(v, k))
    decreases n, 1
  {
    var r := ResetNamespace(n, p);
    forall k | k in r.children
      ensures r.children[k].path == r.path + [k] && Tracks(r.children[k], FieldAt(v, k))
    {
      ResetChildTracks(n, v, p, k);
    }
  }

  lemma {:induction false} ResetChildTracks(n: Node, v: Value, p: Path, k: Key)
    requires Tracks(n, v) && k in n.children
    ensures k in ResetNamespace(n, p).children
    ensures ResetNamespace(n, p).children[k].path == p + [k]
    ensures Tracks(ResetNamespace(n, p).children[k], FieldAt(v, k))
    decreases n, 0
  {
    ResetChild(n, p, k);
    TracksChild(n, v, k);
    ResetTracks(n.children[k], FieldAt(v, k), p + [k]);
  }

  lemma ResetChild(n: Node, p: Path, k: Key)
    requires k in n.children
    ensures k in ResetNamespace(n, p).children
    ensures ResetNamespace(n, p).children[k] == ResetNamespace(n.children[k], p + [k])
  {
  }

  lemma TracksChild(n: Node, v: Value, k: Key)
    requires Tracks(n, v) && k in n.children
    ensures n.children[k].path == n.path + [k]
    ensures Tracks(n.children[k], FieldAt(v, k))
  {
  }

  lemma TracksIntro(n: Node, v: Value)
    requires TableMatches(n, v)
    requires forall k :: k in n.children ==> n.children[k].path == n.path + [k] && Tracks(n.children[k], FieldAt(v, k))
    ensures Tracks(n, v)
  {
  }

  /** The child under `k` is the same node, over the same field, before and after an edit. */
  predicate Kept(n: Node, v: Value, n': Node, v': Value, k: Key)
    requires IsContainer(v) && IsContainer(v')
  {
    k in n.children && k in n'.children && n'.children[k] == n.children[k] && FieldAt(v', k) == FieldAt(v, k)
  }

  /**
    A node rebuilt by an edit tracks the edited value when its table
    matches it and every child is either kept from a tracking node or
    itself tracks its field.
   */
  lemma TracksRebuilt(n: Node, v: Value, n': Node, v': Value)
    requires IsContainer(v) && IsContainer(v')
    requires Tracks(n, v) && TableMatches(n', v') && n'.path == n.path
    requires forall k :: k in n'.children ==>
               Kept(n, v, n', v', k) ||
               (n'.children[k].path == n'.path + [k] && Tracks(n'.children[k], FieldAt(v', k)))
    ensures Tracks(n', v')
  {
    forall k | k in n'.children
      ensures n'.children[k].path == n'.path + [k] && Tracks(n'.children[k], FieldAt(v', k))
    {
      if Kept(n, v, n', v', k) {
        TracksChild(n, v, k);
      }
    }
    TracksIntro(n', v');
  }

  /** Whether a table matches depends only on the node's flag, shape and keys. */
  lemma TableMatchesSameKeys(n: Node, n': Node, v: Value)
    requires TableMatches(n, v)
    requires n'.valid == n.valid && n'.shape == n.shape && n'.children.Keys == n.children.Keys
    ensures TableMatches(n', v)
  {
    assert forall k :: k in n'.children <==> k in n.children;
  }

  /**
    The `get` trap: a hook name gives the hook, even on a destroyed node.
    Otherwise a destroyed node fails on its dropped table; a live one
    gives the child registered under the key, else the `Object.prototype`
    member the table inherits under it, else the raw field.
   */
  function Get(n: Node, backing: Value, k: Key): (r: Result<Read, Fault>)
    requires IsContainer(backing)
    ensures IsHook(n.shape, k) ==> r == Success(Hook(k.name))
    ensures !IsHook(n.shape, k) ==> (r.Failure? <==> !n.valid)
    ensures !IsHook(n.shape, k) && n.valid ==>
              (k in n.children ==> r == Success(Child(n.children[k]))) &&
              (Inherits(n.children, k) ==> r == Success(Inherited(k.name))) &&
              (k !in n.children && !ProtoName(k) ==> r == Success(Field(Lookup(backing, k).value)))
  {
    if IsHook(n.shape, k) then Success(Hook(k.name))
    else if !n.valid then Failure(StaleProxy)
    else if k in n.children then Success(Child(n.children[k]))
    else if ProtoName(k) then Success(Inherited(k.name))
    else Success(Field(Lookup(backing, k).value))
  }

  /**
    On a tracking node, `get` hands out a tracking child interceptor for
    every array or plain-object field under a string key and the raw value
    for every other, a symbol-keyed container included.
   */
  lemma GetTracks(n: Node, backing: Value, k: Key)
    requires Tracks(n, backing)
    ensures var r := Get(n, backing, k);
            r.Success? && (IsHook(n.shape, k) <==> r.value.Hook?) &&
            (!IsHook(n.shape, k) ==>
               (IsContainer(Lookup(backing, k).value) && StringKey(k) <==> r.value.Child?) &&
               (r.value.Inherited? <==> !IsContainer(Lookup(backing, k).value) && ProtoName(k))) &&
            (r.value.Child? ==> Tracks(r.value.child, Lookup(backing, k).value) &&
                                r.value.child.path == n.path + [k]) &&
            (r.value.Field? ==> r.value.value == Lookup(backing, k).value)
  {
    if k in n.children {
      TracksChild(n, backing, k);
    }
  }

  /** Every access through a destroyed interceptor is rejected, except for the hooks. */
  lemma GetAfterDestroy(n: Node, backing: Value, k: Key)
    requires IsContainer(backing)
    ensures !IsHook(n.shape, k) ==> Get(Destroy(n), backing, k) == Failure(StaleProxy)
  {
  }
}

=== FILE: objectproxy.dfy ===
/**
  The plain-object interceptor of immutable/plainobject.js: its `set` and
  `deleteProperty` traps as pure transitions from (node, backing object)
  to (node', backing object', emitted descriptor). Construction, `get`,
  `_RESETNAMESPACE_` and `_DESTROYPROXY_` are the shared ones of
  `Interceptor`.
 */
module ObjectProxy {
  import opened Wrappers
  import opened Values
  import opened Snapshot
  import opened Interceptor

  /**
    The `set` trap. Writing a value identical (`===`) to the one an own
    field already holds changes nothing and emits nothing, even on a
    destroyed interceptor. Otherwise a destroyed interceptor fails; a live
    one drops the child registered under the name (destroying its
    subtree), stores the value, registers a child for it when it is an
    array or plain object, and emits `set` at its path followed by the
    name. A name under which the child table inherits an
    `Object.prototype` member makes the drop fail with a TypeError before
    anything is stored.
   */
  function SetTrap(n: Node, backing: Value, name: string, value: Value): (r: Result<Step, Fault>)
    requires backing.Obj?
    ensures var k := KeyOfName(name);
            k in backing.fields && Same(value, backing.fields[k]) ==> r == Success(Step(n, backing, None, {}))
    ensures var k := KeyOfName(name);
            !(k in backing.fields && Same(value, backing.fields[k])) ==>
              (!n.valid ==> r == Failure(StaleProxy)) &&
              (n.valid ==> (r.Failure? <==> Inherits(n.children, k))) &&
              (n.valid && Inherits(n.children, k) ==> r == Failure(TypeError)) &&
              (r.Success? ==> r.value.emitted == Some(Descriptor(Set, n.path + [k], value)) &&
                              r.value.node.path == n.path && r.value.node.valid &&
                              r.value.retired == Retire(n.children, k))
  {
    var k := KeyOfName(name);
    var m := backing.fields;
    if k in m && Same(value, m[k]) then Success(Step(n, backing, None, {}))
    else if !n.valid then Failure(StaleProxy)
    else
      var u :- UnProxy(n.children, k);
      var table := TryToProxyIt(value, k, n.path, u.table);
      Success(Step(Node(n.shape, n.path, table, true), Obj(m[k := value]),
                   Some(Descriptor(Set, n.path + [k], value)), u.retired))
  }

  /**
    The `deleteProperty` trap: a destroyed interceptor fails; a live one
    drops the child registered under the name (destroying its subtree),
    removes the field and emits `delete` at its path followed by the
    name, whether or not the field existed. As for `set`, a name the child
    table inherits makes the drop fail with a TypeError.
   */
  function DeleteTrap(n: Node, backing: Value, name: string): (r: Result<Step, Fault>)
    requires backing.Obj?
    ensures !n.valid ==> r == Failure(StaleProxy)
    ensures n.valid ==> (r.Failure? <==> Inherits(n.children, KeyOfName(name)))
    ensures n.valid && Inherits(n.children, KeyOfName(name)) ==> r == Failure(TypeError)
    ensures r.Success? ==> r.value.emitted == Some(Descriptor(Delete, n.path + [KeyOfName(name)], Undef)) &&
                           r.value.node.path == n.path && r.value.node.valid &&
                           r.value.retired == Retire(n.children, KeyOfName(name))
  {
    if !n.valid then Failure(StaleProxy)
    else
      var k := KeyOfName(name);
      var u :- UnProxy(n.children, k);
      Success(Step(Node(n.shape, n.path, u.table, true), Obj(backing.fields - {k}),
                   Some(Descriptor(Delete, n.path + [k], Undef)), u.retired))
  }

  // ---------------------------------------------------------------------
  // The backing object after each trap.
  // ---------------------------------------------------------------------

  /**
    After a `set`, the name reads back as the written value and every
    other property reads as before.
   */
  lemma SetWrites(n: Node, backing: Value, name: string, value: Value, k': Key)
    requires backing.Obj? && SetTrap(n, backing, name, value).Success?
    ensures var b := SetTrap(n, backing, name, value).value.backing;
            b.Obj? &&
            Lookup(b, KeyOfName(name)) == Some(value) &&
            (k' != KeyOfName(name) ==> Lookup(b, k') == Lookup(backing, k'))
  {
  }

  /**
    After a `deleteProperty`, the name is no longer an own property and
    every other property reads as before.
   */
  lemma DeleteRemoves(n: Node, backing: Value, name: string, k': Key)
    requires backing.Obj? && DeleteTrap(n, backing, name).Success?
    ensures var b := DeleteTrap(n, backing, name).value.backing;
            b.Obj? && KeyOfName(name) !in b.fields && Lookup(b, KeyOfName(name)) == Some(Undef) &&
            (k' != KeyOfName(name) ==> Lookup(b, k') == Lookup(backing, k'))
  {
  }

  /**
    A `set` that changes the field, or a `deleteProperty`, under a name
    with a registered child destroys every interceptor a chain of `get`s
    could reach from that child.
   */
  lemma DropRetiresSubtree(n: Node, backing: Value, name: string, value: Value, p: Path)
    requires backing.Obj? && KeyOfName(name) in n.children
    ensures var c := Reach(n.children[KeyOfName(name)], p);
            var r := SetTrap(n, backing, name, value);
            c.Some? && r.Success? && r.value.emitted.Some? ==> c.value in r.value.retired
    ensures var c := Reach(n.children[KeyOfName(name)], p);
            var r := DeleteTrap(n, backing, name);
            c.Some? && r.Success? ==> c.value in r.value.retired
  {
    RetireReaches(n.children, KeyOfName(name), p);
  }

  // ---------------------------------------------------------------------
  // The tracking invariant survives both traps.
  // ---------------------------------------------------------------------

  /** Dropping a field and its child keeps an object table matching. */
  lemma ObjTableRemove(t: map<Key, Node>, m: map<Key, Value>, k: Key)
    requires ObjTable(t, m) && !Inherits(t, k)
    ensures ObjTable(UnProxy(t, k).value.table, m - {k})
  {
  }

  /** Storing a field and registering its child keeps an object table matching. */
  lemma ObjTablePut(t: map<Key, Node>, m: map<Key, Value>, k: Key, value: Value, ns: Path)
    requires ObjTable(t, m) && !Inherits(t, k) && StringKey(k)
    ensures ObjTable(TryToProxyIt(value, k, ns, UnProxy(t, k).value.table), m[k := value])
  {
    ObjTableRemove(t, m, k);
  }

  /**
    On a tracking node a `set` fails only under a name the table inherits,
    and afterwards the node still tracks its object at every depth.
   */
  lemma SetTracks(n: Node, backing: Value, name: string, value: Value)
    requires backing.Obj? && Tracks(n, backing)
    ensures !Inherits(n.children, KeyOfName(name)) ==> SetTrap(n, backing, name, value).Success?
    ensures var r := SetTrap(n, backing, name, value); r.Success? ==> Tracks(r.value.node, r.value.backing)
  {
    var k := KeyOfName(name);
    var m := backing.fields;
    if !(k in m && Same(value, m[k])) && !Inherits(n.children, k) {
      var s := SetTrap(n, backing, name, value).value;
      ObjTablePut(n.children, m, k, value, n.path);
      assert TableMatches(s.node, s.backing);
      forall k' | k' in s.node.children
        ensures Kept(n, backing, s.node, s.backing, k') ||
                (s.node.children[k'].path == s.node.path + [k'] && Tracks(s.node.children[k'], FieldAt(s.backing, k')))
      {
        SetChildTracks(n, backing, name, value, k');
      }
      TracksRebuilt(n, backing, s.node, s.backing);
    }
  }

  /** One child after a `set`: the one registered for the written value tracks it; every other is kept. */
  lemma SetChildTracks(n: Node, backing: Value, name: string, value: Value, k': Key)
    requires backing.Obj? && Tracks(n, backing)
    requires SetTrap(n, backing, name, value).Success?
    requires k' in SetTrap(n, backing, name, value).value.node.children
    ensures var s := SetTrap(n, backing, name, value).value;
            Kept(n, backing, s.node, s.backing, k') ||
            (s.node.children[k'].path == s.node.path + [k'] && Tracks(s.node.children[k'], FieldAt(s.backing, k')))
  {
  }

  /**
    On a tracking node a `deleteProperty` fails only under a name the
    table inherits, and afterwards the node still tracks its object at
    every depth.
   */
  lemma DeleteTracks(n: Node, backing: Value, name: string)
    requires backing.Obj? && Tracks(n, backing)
    ensures !Inherits(n.children, KeyOfName(name)) ==> DeleteTrap(n, backing, name).Success?
    ensures var r := DeleteTrap(n, backing, name); r.Success? ==> Tracks(r.value.node, r.value.backing)
  {
    if Inherits(n.children, KeyOfName(name)) {
      return;
    }
    var s := DeleteTrap(n, backing, name).value;
    ObjTableRemove(n.children, backing.fields, KeyOfName(name));
    assert TableMatches(s.node, s.backing);
    assert forall k' :: k' in s.node.children ==> Kept(n, backing, s.node, s.backing, k');
    TracksRebuilt(n, backing, s.node, s.backing);
  }

  // ---------------------------------------------------------------------
  // A later `get` sees the write.
  // ---------------------------------------------------------------------

  /**
    Reading a non-hook name back after a successful `set` yields the
    written value: an interceptor tracking it when it is an array or plain
    object, the raw value otherwise, except that a scalar stored under a
    name the table inherits reads as the `Object.prototype` member.
   */
  lemma SetThenGet(n: Node, backing: Value, name: string, value: Value)
    requires backing.Obj? && Tracks(n, backing)
    ensures var r := SetTrap(n, backing, name, value);
            var k := KeyOfName(name);
            r.Success? && !IsHook(n.shape, k) ==>
              var g := Get(r.value.node, r.value.backing, k);
              g.Success? &&
              (IsContainer(value) ==> g.value.Child? && Tracks(g.value.child, value) &&
                                      g.value.child.path == n.path + [k]) &&
              (!IsContainer(value) ==> g.value == if ProtoName(k) then Inherited(name) else Field(value))
  {
    SetTracks(n, backing, name, value);
    var r := SetTrap(n, backing, name, value);
    if r.Success? {
      var s := r.value;
      GetTracks(s.node, s.backing, KeyOfName(name));
      if IsContainer(value) {
        TracksPathsConsistent(s.node, s.backing);
      }
    }
  }

  /**
    Reading a non-hook name back after a successful `deleteProperty`
    yields `undefined`, or the `Object.prototype` member the table
    inherits under it.
   */
  lemma DeleteThenGet(n: Node, backing: Value, name: string)
    requires backing.Obj? && Tracks(n, backing)
    ensures var r := DeleteTrap(n, backing, name);
            var k := KeyOfName(name);
            r.Success? && !IsHook(n.shape, k) ==>
              Get(r.value.node, r.value.backing, k) ==
                Success(if ProtoName(k) then Inherited(name) else Field(Undef))
  {
    DeleteTracks(n, backing, name);
  }

  // ---------------------------------------------------------------------
  // The emitted descriptor replays the trap on the snapshot.
  // ---------------------------------------------------------------------

  /**
    The terminal edit `updateImmutable` applies for the descriptor a `set`
    emits turns the object the trap saw into exactly the object it left.
   */
  lemma SetReplays(n: Node, backing: Value, name: string, value: Value)
    requires backing.Obj?
    ensures var r := SetTrap(n, backing, name, value);
            r.Success? && r.value.emitted.Some? ==>
              var d := r.value.emitted.value;
              d.path == n.path + [KeyOfName(name)] &&
              Edit(d.kind, backing, KeyOfName(name), d.payload) == Success(r.value.backing)
  {
  }

  /** Likewise for the descriptor a `deleteProperty` emits. */
  lemma DeleteReplays(n: Node, backing: Value, name: string)
    requires backing.Obj?
    ensures var r := DeleteTrap(n, backing, name);
            r.Success? ==>
              var d := r.value.emitted.value;
              d.path == n.path + [KeyOfName(name)] &&
              Edit(d.kind, backing, KeyOfName(name), d.payload) == Success(r.value.backing)
  {
  }

  /** Every write through a destroyed interceptor fails, except a `set` of an identical value. */
  lemma WritesAfterDestroy(n: Node, backing: Value, name: string, value: Value)
    requires backing.Obj?
    ensures DeleteTrap(Destroy(n), backing, name) == Failure(StaleProxy)
    ensures var k := KeyOfName(name);
            !(k in backing.fields && Same(value, backing.fields[k])) ==>
              SetTrap(Destroy(n), backing, name, value) == Failure(StaleProxy)
  {
  }
}

=== FILE: snapshot.dfy ===
/**
  The snapshot builder of immutable/index.js (`updateImmutable`): applies
  one mutation descriptor to the previous snapshot by copying every level
  on the path and editing the last one, leaving the previous snapshot and
  every subtree off the path as they were.
 */
module Snapshot {
  import opened Wrappers
  import opened Values
  import Util

  /** The mutation kinds an interceptor emits, plus any other name. */
  datatype Method = Set | Delete | Push | Pop | Unshift | Shift | Unknown(name: string)

  /** `dataProps.change(kind, path, payload)`: one committed edit. */
  datatype Descriptor = Descriptor(kind: Method, path: Path, payload: Value)

  /**
    The copy made of each level: `target.slice()` for an array, `{ ...target }`
    otherwise. Spreading a non-plain object copies its fields; spreading a
    string gives one field per character, under its index; spreading any
    other primitive gives an empty object.
   */
  function ShallowCopy(v: Value): (r: Value)
    ensures IsContainer(r)
    ensures IsContainer(v) ==> r == v
    ensures r.Arr? <==> v.Arr?
    ensures v.Str? ==> forall k :: k in r.fields <==> k.Idx? && k.index < |v.s|
    ensures v.Str? ==> forall k :: k in r.fields ==> Lookup(v, k) == Some(r.fields[k])
    ensures !(IsContainer(v) || v.Other? || v.Str?) ==> r == Obj(map[])
  {
    match v
    case Arr(_) => v
    case Obj(_) => v
    case Other(_, m) => Obj(m)
    case Str(chars) => Obj(map i | 0 <= i < |chars| :: Idx(i) := Str([chars[i]]))
    case _ => Obj(map[])
  }

  function Holes(n: nat): (r: seq<Value>)
    ensures |r| == n
    ensures forall j :: 0 <= j < n ==> r[j] == Undef
  {
    seq(n, _ => Undef)
  }

  /** `arr[i] = x`: past the end, the gap fills with holes. */
  function SetIndex(xs: seq<Value>, i: nat, x: Value): (ys: seq<Value>)
    ensures |ys| == if i < |xs| then |xs| else i + 1
    ensures ys[i] == x
    ensures forall j :: 0 <= j < |xs| && j != i ==> ys[j] == xs[j]
    ensures forall j :: |xs| <= j < |ys| && j != i ==> ys[j] == Undef
  {
    if i < |xs| then xs[i := x] else xs + Holes(i - |xs|) + [x]
  }

  /** `arr.length = n`: truncates, or extends with holes. */
  function Resize(xs: seq<Value>, n: nat): (ys: seq<Value>)
    ensures |ys| == n
    ensures forall j :: 0 <= j < n && j < |xs| ==> ys[j] == xs[j]
    ensures forall j :: |xs| <= j < n ==> ys[j] == Undef
  {
    if n <= |xs| then xs[..n] else xs + Holes(n - |xs|)
  }

  /**
    `result[propName] = x` on a copied level. Named and symbol properties
    other than `length` have no place in an `Arr` and leave it as it is; a length that
    is not a non-negative number is a RangeError.
   */
  function Put(c: Value, k: Key, x: Value): (r: Result<Value, Fault>)
    requires IsContainer(c)
    ensures r.Success? ==> (r.value.Arr? <==> c.Arr?)
    ensures c.Obj? ==> r == Success(Obj(c.fields[k := x]))
  {
    match c
    case Arr(xs) =>
      (match k
       case Idx(i) => Success(Arr(SetIndex(xs, i, x)))
       case Name(s) =>
         if s != "length" then Success(c)
         else if x.Num? && x.n >= 0 then Success(Arr(Resize(xs, x.n)))
         else Failure(RangeError)
       case SymbolKey(_) => Success(c))
    case Obj(m) => Success(Obj(m[k := x]))
  }

  /**
    `delete result[propName]` on a copied level: an array keeps its length
    and gets a hole; deleting an array's `length` is a TypeError in strict
    code.
   */
  function Remove(c: Value, k: Key): (r: Result<Value, Fault>)
    requires IsContainer(c)
    ensures r.Success? ==> (r.value.Arr? <==> c.Arr?)
    ensures c.Arr? && r.Success? ==> |r.value.elems| == |c.elems|
  {
    match c
    case Arr(xs) =>
      (match k
       case Idx(i) => Success(Arr(if i < |xs| then xs[i := Undef] else xs))
       case Name(s) => if s == "length" then Failure(TypeError) else Success(c)
       case SymbolKey(_) => Success(c))
    case Obj(m) => Success(Obj(m - {k}))
  }

  /**
    `ToNumber` of a text as a length: a run of decimal digits (leading
    zeros allowed, the empty text giving 0) is its value; any other text
    is NaN or negative, which `ToLength` makes 0.
   */
  function TextLength(s: string): nat {
    if AllDigits(s) then ParseNat(s) else 0
  }

  /**
    `ToLength(ToNumber(len))` for an array-like's `length`: a number
    clamped at 0, a boolean as 0 or 1, `undefined` and `null` as 0, a
    string by the number it spells. An array converts through its
    `join(",")`, so only a single element can spell a number; any other
    object converts through `[object Tag]` or its source text, which is
    NaN, so 0. A symbol or a bigint cannot be converted to a number, nor
    an array holding a symbol: None, a TypeError.
   */
  function ArrayLikeLength(len: Value): (r: Option<nat>)
    ensures r.None? <==> len.Sym? || len.Big? || HoldsSymbol(len)
    ensures len.Num? ==> r == Some(if len.n > 0 then len.n else 0)
    ensures len.Bool? ==> r == Some(if len.b then 1 else 0)
    ensures len.Str? ==> r == Some(TextLength(len.s))
    ensures len.Undef? || len.Null? || len.Obj? || len.Other? || len.Fn? ==> r == Some(0)
    decreases len
  {
    match len
    case Undef => Some(0)
    case Null => Some(0)
    case Bool(b) => Some(if b then 1 else 0)
    case Num(x) => Some(if x > 0 then x else 0)
    case Str(s) => Some(TextLength(s))
    case Sym(_) => None
    case Big(_) => None
    case Arr(xs) =>
      if HoldsSymbol(len) then None
      else if |xs| != 1 then Some(0)
      else
        (match xs[0]
         case Num(x) => Some(if x > 0 then x else 0)
         case Big(x) => Some(if x > 0 then x else 0)
         case Str(s) => Some(TextLength(s))
         case Arr(_) => ArrayLikeLength(xs[0])
         case _ => Some(0))
    case _ => Some(0)
  }

  /**
    The argument list `Function.prototype.apply` makes of the payload: an
    array's elements, nothing for `undefined`/`null`, for any other object
    its members `0` up to its `length` (an array-like), and a TypeError for
    a primitive or a `length` that cannot be converted.
   */
  function Arguments(v: Value): (r: Option<seq<Value>>)
    ensures v.Arr? ==> r == Some(v.elems)
    ensures r.None? <==> !(v.Arr? || v.Obj? || v.Other? || v.Undef? || v.Null?) ||
                         ((v.Obj? || v.Other?) && ArrayLikeLength(Lookup(v, Name("length")).value).None?)
    ensures v.Undef? || v.Null? ==> r == Some([])
    ensures (v.Obj? || v.Other?) && r.Some? ==>
              |r.value| == ArrayLikeLength(Lookup(v, Name("length")).value).value &&
              forall i :: 0 <= i < |r.value| ==> r.value[i] == Lookup(v, Idx(i)).value
  {
    match v
    case Arr(xs) => Some(xs)
    case Undef => Some([])
    case Null => Some([])
    case Obj(_) => ArrayLike(v)
    case Other(_, _) => ArrayLike(v)
    case _ => None
  }

  function ArrayLike(v: Value): (r: Option<seq<Value>>)
    requires v.Obj? || v.Other?
  {
    var n :- ArrayLikeLength(Lookup(v, Name("length")).value);
    Some(seq(n, i requires 0 <= i => Lookup(v, Idx(i)).value))
  }

  /**
    Apart from a boolean or a bigint, which `ToNumber` converts directly,
    a `length` counts as the number its string conversion spells: this is
    the `ToPrimitive` route through `String` that objects and arrays take.
    A function's source text is assumed never to spell a number.
   */
  lemma {:induction false} ArrayLikeLengthOfText(len: Value, fnText: nat -> string)
    requires !(len.Bool? || len.Big?) && !HoldsSymbol(len)
    requires forall id :: TextLength(fnText(id)) == 0
    ensures Util.ToText(len, fnText).Some?
    ensures ArrayLikeLength(len) == Some(TextLength(Util.ToText(len, fnText).value))
    decreases len
  {
    match len
    case Num(x) => IntTextLength(x);
    case Str(_) =>
    case Undef => NonDigitLead("undefined");
    case Null => NonDigitLead("null");
    case Obj(_) => NonDigitLead("[object Object]");
    case Other(tag, _) => NonDigitLead("[object " + tag + "]");
    case Fn(_) =>
    case Arr(xs) =>
      if |xs| >= 2 {
        JoinHasComma(xs, fnText, len);
      } else if |xs| == 1 {
        var x := xs[0];
        assert !HoldsSymbol(x);
        assert Util.JoinTexts(xs, fnText, len) == (if x.Undef? || x.Null? then Some("") else Util.ToText(x, fnText));
        match x
        case Num(n) => IntTextLength(n);
        case Big(n) => IntTextLength(n);
        case Bool(b) => NonDigitLead(if b then "true" else "false");
        case Obj(_) => NonDigitLead("[object Object]");
        case Other(tag, _) => NonDigitLead("[object " + tag + "]");
        case Arr(_) => ArrayLikeLengthOfText(x, fnText);
        case _ =>
      }
  }

  /** A text that does not start with a digit spells no number. */
  lemma NonDigitLead(s: string)
    requires |s| > 0 && !IsDigit(s[0])
    ensures TextLength(s) == 0
  {
  }

  /** The text of a number spells it back, and a negative one counts as 0. */
  lemma IntTextLength(n: int)
    ensures TextLength(IntToString(n)) == if n > 0 then n else 0
  {
    if n >= 0 {
      ParseNatToString(n);
    } else {
      NonDigitLead(IntToString(n));
    }
  }

  /** The `join` of two or more elements holds a comma, so it spells no number. */
  lemma JoinHasComma(xs: seq<Value>, fnText: nat -> string, parent: Value)
    requires |xs| >= 2 && (forall i :: 0 <= i < |xs| ==> xs[i] < parent)
    requires Util.JoinTexts(xs, fnText, parent).Some?
    ensures TextLength(Util.JoinTexts(xs, fnText, parent).value) == 0
  {
    var head := if xs[0].Undef? || xs[0].Null? then "" else Util.ToText(xs[0], fnText).value;
    var t := Util.JoinTexts(xs, fnText, parent).value;
    assert t[|head|] == ',';
  }

  /**
    The terminal edit, applied to the copy of the last level. The four
    array kinds ignore the key and edit the copy itself; calling an array
    method on an object copy is a TypeError. An unknown kind is only
    warned about and leaves the copy as it is.
   */
  function Edit(kind: Method, c: Value, k: Key, payload: Value): (r: Result<Value, Fault>)
    requires IsContainer(c)
    ensures r.Success? ==> (r.value.Arr? <==> c.Arr?)
  {
    match kind
    case Set => Put(c, k, payload)
    case Delete => Remove(c, k)
    case Push =>
      if !c.Arr? then Failure(TypeError)
      else
        var args :- Need(Arguments(payload), TypeError);
        Success(Arr(c.elems + args))
    case Pop =>
      if !c.Arr? then Failure(TypeError)
      else Success(Arr(if |c.elems| == 0 then [] else c.elems[..|c.elems| - 1]))
    case Unshift =>
      if !c.Arr? then Failure(TypeError)
      else
        var args :- Need(Arguments(payload), TypeError);
        Success(Arr(args + c.elems))
    case Shift =>
      if !c.Arr? then Failure(TypeError)
      else Success(Arr(if |c.elems| == 0 then [] else c.elems[1..]))
    case Unknown(_) => Success(c)
  }

  /**
    `updateImmutable(kind, target, path, payload)`: copies the level,
    rebuilds only the child named by the first key when the path goes on,
    and applies the edit at the last level. Reading through `undefined` or
    `null` on the way is a TypeError.
   */
  function Update(kind: Method, target: Value, path: Path, payload: Value): (r: Result<Value, Fault>)
    requires |path| > 0
    ensures r.Success? ==> IsContainer(r.value) && (r.value.Arr? <==> target.Arr?)
    decreases |path|
  {
    var copy := ShallowCopy(target);
    if |path| > 1 then
      var inner :- Need(Lookup(target, path[0]), TypeError);
      var child :- Update(kind, inner, path[1..], payload);
      Put(copy, path[0], child)
    else
      Edit(kind, copy, path[0], payload)
  }

  // ---------------------------------------------------------------------
  // The edit at a one-key path.
  // ---------------------------------------------------------------------

  /** `set` at `[k]` on an object: `k` holds the payload, every other key is as before. */
  lemma SetObjectField(m: map<Key, Value>, k: Key, x: Value)
    ensures Update(Set, Obj(m), [k], x).Success?
    ensures var r := Update(Set, Obj(m), [k], x).value;
            r.Obj? && k in r.fields && r.fields[k] == x &&
            forall s :: s != k ==>
              (s in r.fields <==> s in m) && (s in m ==> r.fields[s] == m[s])
  {
  }

  /**
    `set` at `[i]` on an array: index `i` holds the payload, every other
    element is as before, and writing past the end pads with holes.
   */
  lemma SetArrayIndex(xs: seq<Value>, i: nat, x: Value)
    ensures Update(Set, Arr(xs), [Idx(i)], x).Success?
    ensures var r := Update(Set, Arr(xs), [Idx(i)], x).value;
            r.Arr? && |r.elems| == (if i < |xs| then |xs| else i + 1) && r.elems[i] == x &&
            (forall j :: 0 <= j < |xs| && j != i ==> r.elems[j] == xs[j]) &&
            (forall j :: |xs| <= j < i ==> r.elems[j] == Undef)
  {
  }

  /** `delete` at `[k]` on an object removes `k` and keeps every other key. */
  lemma DeleteObjectField(m: map<Key, Value>, k: Key)
    ensures Update(Delete, Obj(m), [k], Undef).Success?
    ensures var r := Update(Delete, Obj(m), [k], Undef).value;
            r.Obj? && k !in r.fields &&
            forall s :: s != k ==>
              (s in r.fields <==> s in m) && (s in m ==> r.fields[s] == m[s])
  {
  }

  /** `delete` at `[i]` on an array leaves a hole: same length, only index `i` cleared. */
  lemma DeleteArrayIndex(xs: seq<Value>, i: nat)
    ensures Update(Delete, Arr(xs), [Idx(i)], Undef).Success?
    ensures var r := Update(Delete, Arr(xs), [Idx(i)], Undef).value;
            r.Arr? && |r.elems| == |xs| &&
            (i < |xs| ==> r.elems[i] == Undef) &&
            forall j :: 0 <= j < |xs| && j != i ==> r.elems[j] == xs[j]
  {
  }

  /** `array:push` appends the payload: the length grows by exactly its length and the old prefix stays. */
  lemma PushAppends(xs: seq<Value>, k: Key, args: seq<Value>)
    ensures Update(Push, Arr(xs), [k], Arr(args)).Success?
    ensures var r := Update(Push, Arr(xs), [k], Arr(args)).value;
            r.Arr? && |r.elems| == |xs| + |args| && r.elems[..|xs|] == xs && r.elems[|xs|..] == args
  {
  }

  /** `array:pop` drops exactly the last element; an empty array stays empty. */
  lemma PopDropsLast(xs: seq<Value>, k: Key)
    ensures Update(Pop, Arr(xs), [k], Undef).Success?
    ensures var r := Update(Pop, Arr(xs), [k], Undef).value;
            r.Arr? && (|xs| == 0 ==> r.elems == []) &&
            (|xs| > 0 ==> r.elems + [xs[|xs| - 1]] == xs)
  {
  }

  /** `array:shift` drops exactly the first element; an empty array stays empty. */
  lemma ShiftDropsFirst(xs: seq<Value>, k: Key)
    ensures Update(Shift, Arr(xs), [k], Undef).Success?
    ensures var r := Update(Shift, Arr(xs), [k], Undef).value;
            r.Arr? && (|xs| == 0 ==> r.elems == []) &&
            (|xs| > 0 ==> [xs[0]] + r.elems == xs)
  {
  }

  /** `array:unshift` puts the payload in front of the old elements. */
  lemma UnshiftPrepends(xs: seq<Value>, k: Key, args: seq<Value>)
    ensures Update(Unshift, Arr(xs), [k], Arr(args)).Success?
    ensures var r := Update(Unshift, Arr(xs), [k], Arr(args)).value;
            r.Arr? && |r.elems| == |args| + |xs| && r.elems[..|args|] == args && r.elems[|args|..] == xs
  {
  }

  /**
    `array:push` spreads its payload the way `apply` does: it succeeds
    exactly for an array, `undefined`, `null` or an object whose `length`
    converts to a number, and an object payload appends its members `0` up
    to that length.
   */
  lemma PushArrayLike(xs: seq<Value>, k: Key, payload: Value)
    ensures Update(Push, Arr(xs), [k], payload).Success? <==>
              payload.Arr? || payload.Undef? || payload.Null? ||
              ((payload.Obj? || payload.Other?) && ArrayLikeLength(Lookup(payload, Name("length")).value).Some?)
    ensures (payload.Obj? || payload.Other?) && Update(Push, Arr(xs), [k], payload).Success? ==>
              var r := Update(Push, Arr(xs), [k], payload).value;
              var n := ArrayLikeLength(Lookup(payload, Name("length")).value).value;
              r.Arr? && |r.elems| == |xs| + n && r.elems[..|xs|] == xs &&
              forall i :: 0 <= i < n ==> r.elems[|xs| + i] == Lookup(payload, Idx(i)).value
  {
  }

  /** `array:unshift` spreads its payload likewise and puts it in front. */
  lemma UnshiftArrayLike(xs: seq<Value>, k: Key, payload: Value)
    ensures Update(Unshift, Arr(xs), [k], payload).Success? <==>
              payload.Arr? || payload.Undef? || payload.Null? ||
              ((payload.Obj? || payload.Other?) && ArrayLikeLength(Lookup(payload, Name("length")).value).Some?)
    ensures (payload.Obj? || payload.Other?) && Update(Unshift, Arr(xs), [k], payload).Success? ==>
              var r := Update(Unshift, Arr(xs), [k], payload).value;
              var n := ArrayLikeLength(Lookup(payload, Name("length")).value).value;
              r.Arr? && |r.elems| == n + |xs| && r.elems[n..] == xs &&
              forall i :: 0 <= i < n ==> r.elems[i] == Lookup(payload, Idx(i)).value
  {
  }

  /** The array kinds on an object level raise a TypeError. */
  lemma ArrayKindOnObject(kind: Method, m: map<Key, Value>, k: Key, x: Value)
    requires kind.Push? || kind.Pop? || kind.Unshift? || kind.Shift?
    ensures Update(kind, Obj(m), [k], x) == Failure(TypeError)
  {
  }

  /** An unknown kind applies no edit: the result equals the (copied) level. */
  lemma UnknownKindIsCopy(name: string, t: Value, path: Path, x: Value)
    requires |path| == 1
    ensures Update(Unknown(name), t, path, x) == Success(ShallowCopy(t))
    ensures IsContainer(t) ==> Update(Unknown(name), t, path, x) == Success(t)
  {
  }

  // ---------------------------------------------------------------------
  // Longer paths: only the spine is rebuilt.
  // ---------------------------------------------------------------------

  /**
    For a path longer than one key, the result is the copy of the level
    with only the child under the first key recomputed: every other object
    key and every other array index keeps its old value.
   */
  lemma SiblingsShared(kind: Method, t: Value, path: Path, x: Value)
    requires |path| > 1 && IsContainer(t)
    requires Update(kind, t, path, x).Success?
    ensures var r := Update(kind, t, path, x).value;
            (t.Obj? ==> r.Obj? && forall s :: s != path[0] ==>
                          (s in r.fields <==> s in t.fields) && (s in t.fields ==> r.fields[s] == t.fields[s])) &&
            (t.Arr? ==> r.Arr? && |r.elems| >= |t.elems| &&
                          forall j :: 0 <= j < |t.elems| && Idx(j) != path[0] ==> r.elems[j] == t.elems[j])
  {
  }

  /** The path leads through arrays and plain objects, over existing keys, to an array or plain object. */
  predicate ContainerAt(t: Value, q: Path)
    decreases |q|
  {
    if |q| == 0 then IsContainer(t)
    else match t
      case Arr(xs) => q[0].Idx? && q[0].index < |xs| && ContainerAt(xs[q[0].index], q[1..])
      case Obj(m) => q[0] in m && ContainerAt(m[q[0]], q[1..])
      case _ => false
  }

  /** The subtree at the end of the path. */
  function At(t: Value, q: Path): (r: Value)
    requires ContainerAt(t, q)
    ensures IsContainer(r)
    decreases |q|
  {
    if |q| == 0 then t
    else match t
      case Arr(xs) => At(xs[q[0].index], q[1..])
      case Obj(m) => At(m[q[0]], q[1..])
  }

  /** The tree with the subtree at the end of the path replaced by `e`. */
  function Replace(t: Value, q: Path, e: Value): (r: Value)
    requires ContainerAt(t, q)
    decreases |q|
  {
    if |q| == 0 then e
    else match t
      case Arr(xs) => Arr(xs[q[0].index := Replace(xs[q[0].index], q[1..], e)])
      case Obj(m) => Obj(m[q[0] := Replace(m[q[0]], q[1..], e)])
  }

  /** The subtree `At` finds is the one the successive property reads reach. */
  lemma {:induction false} AtIsWalk(t: Value, q: Path)
    requires ContainerAt(t, q)
    ensures Walk(t, q) == Some(At(t, q))
    decreases |q|
  {
    if |q| > 0 {
      match t
      case Arr(xs) => AtIsWalk(xs[q[0].index], q[1..]);
      case Obj(m) => AtIsWalk(m[q[0]], q[1..]);
    }
  }

  /** Putting back the subtree a path reaches gives the same tree. */
  lemma {:induction false} ReplaceAt(t: Value, q: Path)
    requires ContainerAt(t, q)
    ensures Replace(t, q, At(t, q)) == t
    decreases |q|
  {
    if |q| > 0 {
      match t
      case Arr(xs) =>
        ReplaceAt(xs[q[0].index], q[1..]);
        assert xs[q[0].index := xs[q[0].index]] == xs;
      case Obj(m) =>
        ReplaceAt(m[q[0]], q[1..]);
        assert m[q[0] := m[q[0]]] == m;
    }
  }

  /**
    The snapshot builder rebuilds exactly the spine: updating at `q + [k]`
    applies the terminal edit to the subtree at `q` and puts the edited
    subtree back in its place, and fails exactly when that edit fails.
   */
  lemma {:induction false} UpdateAt(kind: Method, t: Value, q: Path, k: Key, x: Value)
    requires ContainerAt(t, q)
    ensures Update(kind, t, q + [k], x) ==
            (match Edit(kind, At(t, q), k, x)
             case Failure(f) => Failure(f)
             case Success(e) => Success(Replace(t, q, e)))
    decreases |q|
  {
    if |q| == 0 {
      assert q + [k] == [k];
    } else {
      var p := q + [k];
      assert p[0] == q[0] && p[1..] == q[1..] + [k];
      match t
      case Arr(xs) =>
        UpdateAt(kind, xs[q[0].index], q[1..], k, x);
      case Obj(m) =>
        UpdateAt(kind, m[q[0]], q[1..], k, x);
    }
  }

  /**
    Structural sharing: reading any path that leaves the edited path at
    some key finds the same value in the new tree as in the old one.
   */
  lemma {:induction false} ReplaceFrame(t: Value, q: Path, e: Value, q': Path, j: nat)
    requires ContainerAt(t, q)
    requires j < |q| && j < |q'| && q[..j] == q'[..j] && q[j] != q'[j]
    ensures Walk(Replace(t, q, e), q') == Walk(t, q')
    decreases j
  {
    assert q[0] == q[..j + 1][0] && q'[0] == q'[..j + 1][0];
    if j == 0 {
      assert Lookup(Replace(t, q, e), q'[0]) == Lookup(t, q'[0]);
    } else {
      assert q[0] == q[..j][0] == q'[..j][0] == q'[0];
      assert q[1..][..j - 1] == q[..j][1..] && q'[1..][..j - 1] == q'[..j][1..];
      match t
      case Arr(xs) =>
        ReplaceFrame(xs[q[0].index], q[1..], e, q'[1..], j - 1);
      case Obj(m) =>
        ReplaceFrame(m[q[0]], q[1..], e, q'[1..], j - 1);
    }
  }

  /** Putting an array or plain object at the end of a path leaves the path leading to it. */
  lemma {:induction false} AtReplace(t: Value, q: Path, e: Value)
    requires ContainerAt(t, q) && IsContainer(e)
    ensures ContainerAt(Replace(t, q, e), q) && At(Replace(t, q, e), q) == e
    decreases |q|
  {
    if |q| > 0 {
      match t
      case Arr(xs) => AtReplace(xs[q[0].index], q[1..], e);
      case Obj(m) => AtReplace(m[q[0]], q[1..], e);
    }
  }

  /** A second replacement at the same path overrides the first. */
  lemma {:induction false} ReplaceTwice(t: Value, q: Path, e: Value, e': Value)
    requires ContainerAt(t, q) && IsContainer(e)
    ensures ContainerAt(Replace(t, q, e), q) && Replace(Replace(t, q, e), q, e') == Replace(t, q, e')
    decreases |q|
  {
    AtReplace(t, q, e);
    if |q| > 0 {
      match t
      case Arr(xs) =>
        var i := q[0].index;
        ReplaceTwice(xs[i], q[1..], e, e');
        var inner := Replace(xs[i], q[1..], e);
        assert xs[i := inner][i := Replace(inner, q[1..], e')] == xs[i := Replace(xs[i], q[1..], e')];
      case Obj(m) =>
        var k := q[0];
        ReplaceTwice(m[k], q[1..], e, e');
        var inner := Replace(m[k], q[1..], e);
        assert m[k := inner][k := Replace(inner, q[1..], e')] == m[k := Replace(m[k], q[1..], e')];
    }
  }

  /** `array:push` deep in the tree: the addressed array gets the payload appended, nothing else changes. */
  lemma PushAt(t: Value, q: Path, k: Key, args: seq<Value>)
    requires ContainerAt(t, q) && At(t, q).Arr?
    ensures Update(Push, t, q + [k], Arr(args)) == Success(Replace(t, q, Arr(At(t, q).elems + args)))
  {
    UpdateAt(Push, t, q, k, Arr(args));
  }
}

=== FILE: util.dfy ===
/**
  The value utilities of util/index.js: the deep clone that seeds and feeds
  snapshots, the prototype-chain key collector, dotted-path lookup and the
  prop-mapping helpers of the binding layer.
 */
module Util {
  import opened Wrappers
  import opened Values

  // ---------------------------------------------------------------------
  // clone
  // ---------------------------------------------------------------------

  /** The one name `getAllKeys`, and so `clone`, never lists. */
  const ConstructorKey: Key := Name("constructor")

  /**
    A value a snapshot may hold: only scalars, arrays and plain objects, no
    object field whose value is `undefined` (array holes stay as `Undef`),
    no object field named `constructor` and none keyed by a symbol.
   */
  predicate Detached(v: Value) {
    match v
    case Undef => true
    case Null => true
    case Bool(_) => true
    case Num(_) => true
    case Str(_) => true
    case Fn(_) => false
    case Sym(_) => false
    case Big(_) => false
    case Other(_, _) => false
    case Arr(xs) => forall i :: 0 <= i < |xs| ==> Detached(xs[i])
    case Obj(m) => ConstructorKey !in m && forall s :: s in m ==> StringKey(s) && m[s] != Undef && Detached(m[s])
  }

  /**
    The fields `clone` keeps of an object: those `getAllKeys` lists (no
    symbol, no `constructor`) whose clone is not `undefined`.
   */
  function CloneFields(m: map<Key, Value>, ghost parent: Value): (r: map<Key, Value>)
    requires forall s :: s in m ==> m[s] < parent
    ensures r.Keys <= m.Keys && ConstructorKey !in r
    ensures forall s :: s in r ==> StringKey(s) && r[s] != Undef && Detached(r[s])
    ensures forall s :: s in m && StringKey(s) && s != ConstructorKey && Detached(m[s]) && m[s] != Undef ==>
              s in r && r[s] == m[s]
    ensures Detached(Obj(m)) ==> r == m
    decreases parent, 0
  {
    map s | s in m && StringKey(s) && s != ConstructorKey && Clone(m[s]) != Undef :: Clone(m[s])
  }

  /** The elements `target.map(clone)` gives for an array of `parent`. */
  function CloneElements(xs: seq<Value>, ghost parent: Value): (ys: seq<Value>)
    requires forall i :: 0 <= i < |xs| ==> xs[i] < parent
    ensures |ys| == |xs|
    ensures forall i :: 0 <= i < |xs| ==> ys[i] == Clone(xs[i]) && Detached(ys[i])
    ensures Detached(Arr(xs)) ==> ys == xs
    decreases parent, 0
  {
    seq(|xs|, i requires 0 <= i < |xs| => Clone(xs[i]))
  }

  /**
    `clone`: numbers, strings, booleans and `null` are returned as they
    are; an array is mapped element-wise (an element whose clone is
    `undefined` stays as `undefined`, keeping the length); an object of any
    class becomes a plain object holding the clones of its fields, minus
    symbol-keyed ones, `constructor` and those whose clone is `undefined`;
    everything else (functions, symbols, bigints) clones to `undefined`.
   */
  function Clone(v: Value): (r: Value)
    ensures Detached(r)
    ensures Detached(v) ==> r == v
    ensures v.Fn? || v.Sym? || v.Big? || v.Undef? ==> r == Undef
    ensures v.Arr? ==> r.Arr? && |r.elems| == |v.elems|
    ensures v.Obj? || v.Other? ==> r.Obj?
    decreases v, 1
  {
    match v
    case Undef => Undef
    case Null => Null
    case Bool(_) => v
    case Num(_) => v
    case Str(_) => v
    case Fn(_) => Undef
    case Sym(_) => Undef
    case Big(_) => Undef
    case Arr(xs) => Arr(CloneElements(xs, v))
    case Obj(m) => Obj(CloneFields(m, v))
    case Other(_, m) => Obj(CloneFields(m, v))
  }

  /** Cloning a clone changes nothing. */
  lemma CloneIdempotent(v: Value)
    ensures Clone(Clone(v)) == Clone(v)
  {
  }

  /** The elements of a cloned array are the clones of the elements. */
  lemma CloneArray(xs: seq<Value>)
    ensures Clone(Arr(xs)).elems == seq(|xs|, i requires 0 <= i < |xs| => Clone(xs[i]))
  {
  }

  /**
    A cloned object keeps exactly the keys other than symbols and
    `constructor` whose clone is not `undefined`.
   */
  lemma CloneObject(m: map<Key, Value>, s: Key)
    ensures s in Clone(Obj(m)).fields <==> s in m && StringKey(s) && s != ConstructorKey && Clone(m[s]) != Undef
    ensures s in Clone(Obj(m)).fields ==> Clone(Obj(m)).fields[s] == Clone(m[s])
  {
  }

  // ---------------------------------------------------------------------
  // getAllKeys
  // ---------------------------------------------------------------------

  /** One prototype on an object's chain: its own property names and whether its constructor is `Object`. */
  datatype ProtoLevel = ProtoLevel(names: seq<string>, isObjectPrototype: bool)

  /** The names of the prototypes visited before the first one whose constructor is `Object`. */
  function InheritedNames(protos: seq<ProtoLevel>): seq<string>
    decreases |protos|
  {
    if |protos| == 0 || protos[0].isObjectPrototype then []
    else protos[0].names + InheritedNames(protos[1..])
  }

  predicate NoDuplicates(s: seq<string>) {
    forall i, j :: 0 <= i < j < |s| ==> s[i] != s[j]
  }

  /**
    Insertion into a `Set`, one name at a time: `keys` followed by the
    names of `names` not met before, in the order they first occur.
   */
  function Collect(keys: seq<string>, names: seq<string>): seq<string>
    decreases |names|
  {
    if |names| == 0 then keys
    else Collect(if names[0] in keys then keys else keys + [names[0]], names[1..])
  }

  /** `xs` with every occurrence of `x` removed, the rest in order. */
  function Without(xs: seq<string>, x: string): seq<string>
    decreases |xs|
  {
    if |xs| == 0 then []
    else Without(xs[..|xs| - 1], x) + (if xs[|xs| - 1] == x then [] else [xs[|xs| - 1]])
  }

  /** Removing a name from one more element of `xs`. */
  lemma WithoutStep(xs: seq<string>, i: nat, x: string)
    requires i < |xs|
    ensures Without(xs[..i + 1], x) == Without(xs[..i], x) + (if xs[i] == x then [] else [xs[i]])
  {
    assert xs[..i + 1][..i] == xs[..i];
  }

  /** Removing a name keeps every other name, and keeps them distinct. */
  lemma {:induction false} WithoutKeeps(xs: seq<string>, x: string)
    ensures forall s :: s in Without(xs, x) <==> s in xs && s != x
    ensures NoDuplicates(xs) ==> NoDuplicates(Without(xs, x))
    decreases |xs|
  {
    if |xs| > 0 {
      var init, last := xs[..|xs| - 1], xs[|xs| - 1];
      WithoutKeeps(init, x);
      assert xs == init + [last];
      if NoDuplicates(xs) {
        assert NoDuplicates(init);
        assert last !in Without(init, x);
      }
    }
  }

  /** Collecting holds every name once: those collected so far and the new ones. */
  lemma {:induction false} CollectKeeps(keys: seq<string>, names: seq<string>)
    requires NoDuplicates(keys)
    ensures forall s :: s in Collect(keys, names) <==> s in keys || s in names
    ensures NoDuplicates(Collect(keys, names))
    decreases |names|
  {
    if |names| > 0 {
      var keys' := if names[0] in keys then keys else keys + [names[0]];
      CollectKeeps(keys', names[1..]);
      assert names == [names[0]] + names[1..];
    }
  }

  /** Collecting one more run of names. */
  lemma CollectStep(own: seq<string>, walked: seq<string>, names: seq<string>)
    ensures Collect(Collect([], own + walked), names) == Collect([], own + (walked + names))
  {
    CollectAppend([], own + walked, names);
    assert own + walked + names == own + (walked + names);
  }

  /** Collecting two runs of names in turn is collecting their concatenation. */
  lemma {:induction false} CollectAppend(keys: seq<string>, a: seq<string>, b: seq<string>)
    ensures Collect(keys, a + b) == Collect(Collect(keys, a), b)
    decreases |a|
  {
    if |a| == 0 {
      assert a + b == b;
    } else {
      assert (a + b)[0] == a[0] && (a + b)[1..] == a[1..] + b;
      CollectAppend(if a[0] in keys then keys else keys + [a[0]], a[1..], b);
    }
  }

  /** Collecting only appends: the names collected so far stay in front. */
  lemma {:induction false} CollectKeepsPrefix(keys: seq<string>, names: seq<string>)
    ensures |Collect(keys, names)| >= |keys| && Collect(keys, names)[..|keys|] == keys
    decreases |names|
  {
    if |names| > 0 {
      var keys' := if names[0] in keys then keys else keys + [names[0]];
      CollectKeepsPrefix(keys', names[1..]);
      assert keys'[..|keys|] == keys;
    }
  }

  /** Removing a name commutes with concatenation. */
  lemma {:induction false} WithoutAppend(a: seq<string>, b: seq<string>, x: string)
    ensures Without(a + b, x) == Without(a, x) + Without(b, x)
    decreases |b|
  {
    if |b| == 0 {
      assert a + b == a;
    } else {
      assert (a + b)[..|a + b| - 1] == a + b[..|b| - 1];
      WithoutAppend(a, b[..|b| - 1], x);
    }
  }

  /** Appends the names not yet collected, keeping first-occurrence order. */
  method AddNames(keys: seq<string>, names: seq<string>) returns (r: seq<string>)
    requires NoDuplicates(keys)
    ensures NoDuplicates(r)
    ensures forall s :: s in r <==> s in keys || s in names
    ensures |r| >= |keys| && r[..|keys|] == keys
    ensures r == Collect(keys, names)
  {
    r := keys;
    var seen := set s | s in keys;
    var i := 0;
    while i < |names|
      invariant 0 <= i <= |names|
      invariant forall s :: s in seen <==> s in r
      invariant Collect(r, names[i..]) == Collect(keys, names)
    {
      assert names[i..][1..] == names[i + 1..];
      if names[i] !in seen {
        r := r + [names[i]];
        seen := seen + {names[i]};
      }
      i := i + 1;
    }
    CollectKeeps(keys, names);
    CollectKeepsPrefix(keys, names);
  }

  /**
    `getAllKeys`: the object's own property names, then the names of every
    prototype up to (not including) the first whose constructor is
    `Object`, each name once, with `constructor` removed.
   */
  method GetAllKeys(own: seq<string>, protos: seq<ProtoLevel>) returns (keys: seq<string>)
    ensures NoDuplicates(keys)
    ensures "constructor" !in keys
    ensures forall s :: s in keys <==> (s in own || s in InheritedNames(protos)) && s != "constructor"
    ensures keys == Without(Collect([], own + InheritedNames(protos)), "constructor")
  {
    var collected := CollectNames(own, protos);
    keys := DeleteName(collected, "constructor");
  }

  /** The `Set` of names `getAllKeys` fills, walking the prototypes up to the one of `Object`. */
  method CollectNames(own: seq<string>, protos: seq<ProtoLevel>) returns (collected: seq<string>)
    ensures NoDuplicates(collected)
    ensures forall s :: s in collected <==> s in own || s in InheritedNames(protos)
    ensures collected == Collect([], own + InheritedNames(protos))
  {
    collected := AddNames([], own);
    ghost var walked: seq<string> := [];
    assert own + walked == own;
    var j := 0;
    while j < |protos| && !protos[j].isObjectPrototype
      invariant 0 <= j <= |protos|
      invariant InheritedNames(protos) == walked + InheritedNames(protos[j..])
      invariant collected == Collect([], own + walked)
    {
      assert protos[j..][1..] == protos[j + 1..];
      CollectKeeps([], own + walked);
      CollectStep(own, walked, protos[j].names);
      collected := AddNames(collected, protos[j].names);
      walked := walked + protos[j].names;
      j := j + 1;
    }
    assert InheritedNames(protos[j..]) == [];
    assert walked == InheritedNames(protos);
    CollectKeeps([], own + walked);
  }

  /** `keys.delete(x)` followed by `Array.from(keys)`: the names in order, without `x`. */
  method DeleteName(collected: seq<string>, x: string) returns (keys: seq<string>)
    requires NoDuplicates(collected)
    ensures NoDuplicates(keys)
    ensures forall s :: s in keys <==> s in collected && s != x
    ensures keys == Without(collected, x)
  {
    keys := [];
    var i := 0;
    while i < |collected|
      invariant 0 <= i <= |collected|
      invariant keys == Without(collected[..i], x)
    {
      if collected[i] != x {
        keys := keys + [collected[i]];
      }
      WithoutStep(collected, i, x);
      i := i + 1;
    }
    assert collected[..i] == collected;
    WithoutKeeps(collected, x);
  }

  /**
    The names `getAllKeys` lists start with the object's own names, in
    their order, and only then come the prototypes' names.
   */
  lemma GetAllKeysOwnFirst(own: seq<string>, inherited: seq<string>)
    ensures var keys := Without(Collect([], own + inherited), "constructor");
            var first := Without(Collect([], own), "constructor");
            |first| <= |keys| && keys[..|first|] == first
  {
    var o := Collect([], own);
    var all := Collect([], own + inherited);
    CollectAppend([], own, inherited);
    CollectKeepsPrefix(o, inherited);
    assert all == o + all[|o|..];
    WithoutAppend(o, all[|o|..], "constructor");
  }

  // ---------------------------------------------------------------------
  // findInObject
  // ---------------------------------------------------------------------

  /** `s.split('.')`: the dot-free pieces between the dots, at least one. */
  function Split(s: string): (parts: seq<string>)
    ensures |parts| >= 1
    ensures forall i :: 0 <= i < |parts| ==> '.' !in parts[i]
    decreases |s|
  {
    if |s| == 0 then [""]
    else
      var rest := Split(s[1..]);
      if s[0] == '.' then [""] + rest
      else [[s[0]] + rest[0]] + rest[1..]
  }

  /** `parts.join('.')` */
  function Join(parts: seq<string>): string
    requires |parts| >= 1
    decreases |parts|
  {
    if |parts| == 1 then parts[0] else parts[0] + "." + Join(parts[1..])
  }

  lemma {:induction false} SplitNoDot(a: string)
    requires '.' !in a
    ensures Split(a) == [a]
    decreases |a|
  {
    if |a| > 0 {
      assert a[0] in a;
      assert forall c :: c in a[1..] ==> c in a;
      SplitNoDot(a[1..]);
      assert [a[0]] + a[1..] == a;
    }
  }

  lemma {:induction false} SplitDot(a: string, b: string)
    requires '.' !in a
    ensures Split(a + "." + b) == [a] + Split(b)
    decreases |a|
  {
    if |a| == 0 {
      assert a + "." + b == ['.'] + b;
      assert (['.'] + b)[1..] == b;
    } else {
      assert a[0] in a;
      assert forall c :: c in a[1..] ==> c in a;
      SplitDot(a[1..], b);
      assert (a + "." + b)[1..] == a[1..] + "." + b;
      assert [a[0]] + a[1..] == a;
    }
  }

  /** Joining the pieces of a split restores the string. */
  lemma {:induction false} JoinSplit(s: string)
    ensures Join(Split(s)) == s
    decreases |s|
  {
    if |s| > 0 {
      JoinSplit(s[1..]);
      var rest := Split(s[1..]);
      if s[0] == '.' {
        assert Split(s) == [""] + rest;
        assert Split(s)[1..] == rest;
        assert s == "" + "." + s[1..];
      } else {
        var parts := Split(s);
        assert parts[0] == [s[0]] + rest[0];
        if |rest| == 1 {
          assert s == [s[0]] + s[1..];
        } else {
          assert parts[1..] == rest[1..];
          assert Join(rest) == rest[0] + "." + Join(rest[1..]);
          assert s == [s[0]] + s[1..];
        }
      }
    }
  }

  /** Splitting a join of dot-free pieces restores the pieces. */
  lemma {:induction false} SplitJoin(parts: seq<string>)
    requires |parts| >= 1
    requires forall i :: 0 <= i < |parts| ==> '.' !in parts[i]
    ensures Split(Join(parts)) == parts
    decreases |parts|
  {
    if |parts| == 1 {
      SplitNoDot(parts[0]);
    } else {
      SplitJoin(parts[1..]);
      SplitDot(parts[0], Join(parts[1..]));
    }
  }

  /** The keys a list of property names denotes. */
  function KeysOf(names: seq<string>): (ks: Path)
    ensures |ks| == |names|
    ensures forall i :: 0 <= i < |names| ==> ks[i] == KeyOfName(names[i])
  {
    seq(|names|, i requires 0 <= i < |names| => KeyOfName(names[i]))
  }

  /**
    `findInObject`: splits the key traveller on dots and reads each piece
    in turn, starting at `data`; None when a read hits `undefined` or
    `null` (a TypeError).
   */
  function FindInObject(data: Value, keyTraveler: string): Option<Value> {
    Walk(data, KeysOf(Split(keyTraveler)))
  }

  /** A name without a dot is a single property read. */
  lemma FindSingle(data: Value, name: string)
    requires '.' !in name
    ensures FindInObject(data, name) == Lookup(data, KeyOfName(name))
  {
    SplitNoDot(name);
    var k := KeyOfName(name);
    assert KeysOf(Split(name)) == [k];
    assert [k][1..] == [];
    match Lookup(data, k)
    case None =>
    case Some(x) => assert Walk(data, [k]) == Walk(x, []);
  }

  /** `findInObject(d, "a.rest")` reads `a`, then looks up `rest` in what it found. */
  lemma FindDotted(data: Value, a: string, rest: string)
    requires '.' !in a
    ensures FindInObject(data, a + "." + rest) ==
            (match Lookup(data, KeyOfName(a))
             case None => None
             case Some(x) => FindInObject(x, rest))
  {
    SplitDot(a, rest);
    var ks := KeysOf(Split(a + "." + rest));
    assert ks == [KeyOfName(a)] + KeysOf(Split(rest));
    assert ks[1..] == KeysOf(Split(rest));
  }

  // ---------------------------------------------------------------------
  // Prop mapping
  // ---------------------------------------------------------------------

  /**
    `defaultMergeProps`: one object holding every key of the three, where
    method props win over state props and state props over plain props.
   */
  function DefaultMergeProps(props: map<Key, Value>, stateProps: map<Key, Value>,
                             methodProps: map<Key, Value>): (r: map<Key, Value>)
    ensures r.Keys == props.Keys + stateProps.Keys + methodProps.Keys
    ensures forall k :: k in methodProps ==> r[k] == methodProps[k]
    ensures forall k :: k in stateProps && k !in methodProps ==> r[k] == stateProps[k]
    ensures forall k :: k in props && k !in stateProps && k !in methodProps ==> r[k] == props[k]
  {
    props + stateProps + methodProps
  }

  /** The keys of the names listed as strings. */
  function NameKeys(names: seq<Value>): set<Key> {
    set i | 0 <= i < |names| && names[i].Str? :: KeyOfName(names[i].s)
  }

  lemma NameKeysSnoc(names: seq<Value>)
    requires |names| > 0 && names[|names| - 1].Str?
    ensures NameKeys(names) == NameKeys(names[..|names| - 1]) + {KeyOfName(names[|names| - 1].s)}
  {
    var init := names[..|names| - 1];
    forall k | k in NameKeys(names)
      ensures k in NameKeys(init) + {KeyOfName(names[|names| - 1].s)}
    {
      var i :| 0 <= i < |names| && names[i].Str? && KeyOfName(names[i].s) == k;
      if i < |names| - 1 {
        assert init[i] == names[i];
      }
    }
    forall k | k in NameKeys(init)
      ensures k in NameKeys(names)
    {
      var i :| 0 <= i < |init| && init[i].Str? && KeyOfName(init[i].s) == k;
      assert names[i] == init[i];
    }
  }

  /**
    The array form of `parseMapStateToProps`: each listed name, which must
    be a string (`split` is called on it), becomes a prop holding the value
    found at that dotted path.
   */
  function StatePropsOfNames(state: Value, names: seq<Value>): (r: Option<map<Key, Value>>)
    ensures r.Some? <==> forall i :: 0 <= i < |names| ==>
                           names[i].Str? && FindInObject(state, names[i].s).Some?
    ensures r.Some? ==> r.value.Keys == NameKeys(names)
    decreases |names|
  {
    if |names| == 0 then Some(map[])
    else
      var init :- StatePropsOfNames(state, names[..|names| - 1]);
      var last := names[|names| - 1];
      if !last.Str? then None
      else
        var v :- FindInObject(state, last.s);
        assert forall i :: 0 <= i < |names| - 1 ==> names[..|names| - 1][i] == names[i];
        NameKeysSnoc(names);
        Some(init[KeyOfName(last.s) := v])
  }

  /** Each listed name's prop holds the value found at its dotted path. */
  lemma {:induction false} StatePropsOfNamesValue(state: Value, names: seq<Value>, i: nat)
    requires StatePropsOfNames(state, names).Some? && i < |names|
    ensures names[i].Str? && KeyOfName(names[i].s) in StatePropsOfNames(state, names).value
    ensures StatePropsOfNames(state, names).value[KeyOfName(names[i].s)] == FindInObject(state, names[i].s).value
    decreases |names|
  {
    var init := names[..|names| - 1];
    var last := names[|names| - 1];
    if i < |names| - 1 {
      assert init[i] == names[i];
      StatePropsOfNamesValue(state, init, i);
      if KeyOfName(names[i].s) == KeyOfName(last.s) {
        KeyRoundTrip(names[i].s, Idx(0));
        KeyRoundTrip(last.s, Idx(0));
      }
    }
  }

  /**
    The object form of `parseMapStateToProps`, over the entries
    `Object.keys` lists (symbol keys are skipped); a function entry is
    called with the state through `invoke`.
   */
  function StatePropsOfObject(state: Value, m: map<Key, Value>, invoke: (nat, Value) -> Value)
    : (r: Option<map<Key, Value>>)
    ensures r.Some? <==> forall p :: p in m && StringKey(p) && m[p].Str? ==> FindInObject(state, m[p].s).Some?
    ensures r.Some? ==> forall p :: p in r.value <==> p in m && StringKey(p) && (m[p].Str? || m[p].Fn?)
    ensures r.Some? ==> forall p :: p in r.value && m[p].Str? ==> FindInObject(state, m[p].s) == Some(r.value[p])
    ensures r.Some? ==> forall p :: p in r.value && m[p].Fn? ==> r.value[p] == invoke(m[p].fid, state)
  {
    if forall p :: p in m && StringKey(p) && m[p].Str? ==> FindInObject(state, m[p].s).Some? then
      Some(map p | p in m && StringKey(p) && (m[p].Str? || m[p].Fn?) ::
             if m[p].Str? then FindInObject(state, m[p].s).value else invoke(m[p].fid, state))
    else None
  }

  /**
    `parseMapStateToProps`: an array lists the dotted paths to expose under
    their own names; an object maps prop names to a dotted path or a
    function of the state, skipping other entries; anything else gives no
    props. None when a lookup raises.
   */
  function ParseMapStateToProps(state: Value, mapping: Value, invoke: (nat, Value) -> Value)
    : (r: Option<map<Key, Value>>)
    ensures !(mapping.Arr? || mapping.Obj? || mapping.Other?) ==> r == Some(map[])
    ensures mapping.Arr? && r.Some? ==> r.value.Keys == NameKeys(mapping.elems)
    ensures mapping.Obj? && r.Some? ==>
              forall p :: p in r.value <==>
                p in mapping.fields && StringKey(p) && (mapping.fields[p].Str? || mapping.fields[p].Fn?)
  {
    match mapping
    case Arr(names) => StatePropsOfNames(state, names)
    case Obj(m) => StatePropsOfObject(state, m, invoke)
    case Other(_, m) => StatePropsOfObject(state, m, invoke)
    case _ => Some(map[])
  }

  /**
    `String(v)` as a property-key conversion applies it, None where it
    throws. An object gets `Object.prototype.toString`'s `[object Tag]`,
    an array the `join(",")` of its elements (with `undefined` and `null`
    printing as empty), a function the source text `fnText` gives it.
   */
  function ToText(v: Value, fnText: nat -> string): (r: Option<string>)
    ensures r.None? <==> HoldsSymbol(v)
    ensures v.Str? ==> r == Some(v.s)
    ensures v.Arr? && |v.elems| == 1 && v.elems[0].Str? ==> r == Some(v.elems[0].s)
    decreases v, 1
  {
    match v
    case Undef => Some("undefined")
    case Null => Some("null")
    case Bool(b) => Some(if b then "true" else "false")
    case Num(n) => Some(IntToString(n))
    case Str(chars) => Some(chars)
    case Fn(id) => Some(fnText(id))
    case Sym(_) => None
    case Big(b) => Some(IntToString(b))
    case Other(tag, _) => Some("[object " + tag + "]")
    case Obj(_) => Some("[object Object]")
    case Arr(xs) => JoinTexts(xs, fnText, v)
  }

  /** `join(",")` over elements of `parent`. */
  function JoinTexts(xs: seq<Value>, fnText: nat -> string, ghost parent: Value): (r: Option<string>)
    requires forall i :: 0 <= i < |xs| ==> xs[i] < parent
    ensures r.None? <==> exists i :: 0 <= i < |xs| && HoldsSymbol(xs[i])
    ensures |xs| == 1 && xs[0].Str? ==> r == Some(xs[0].s)
    decreases parent, 0, |xs|
  {
    if |xs| == 0 then Some("")
    else
      var head :- if xs[0].Undef? || xs[0].Null? then Some("") else ToText(xs[0], fnText);
      if |xs| == 1 then Some(head)
      else
        var tail :- JoinTexts(xs[1..], fnText, parent);
        assert forall i :: 1 <= i < |xs| ==> xs[1..][i - 1] == xs[i];
        Some(head + "," + tail)
  }

  /**
    `ToPropertyKey(v)`: a symbol is a key of its own; anything else is
    the canonical key of its text. It fails (a TypeError) only on an
    array holding a symbol, whose `join` cannot convert it.
   */
  function PropertyKey(v: Value, fnText: nat -> string): (r: Option<Key>)
    ensures r.None? <==> v.Arr? && HoldsSymbol(v)
    ensures v.Sym? ==> r == Some(SymbolKey(v.sid))
    ensures v.Str? ==> r == Some(KeyOfName(v.s))
    ensures v.Num? ==> r == Some(KeyOfName(IntToString(v.n)))
    ensures v.Big? ==> r == Some(KeyOfName(IntToString(v.big)))
    ensures v.Obj? ==> r == Some(Name("[object Object]"))
    ensures r.Some? && !v.Sym? ==> Canonical(r.value) && Some(KeyString(r.value)) == ToText(v, fnText)
  {
    if v.Sym? then Some(SymbolKey(v.sid))
    else
      var text :- ToText(v, fnText);
      KeyRoundTrip(text, Name(""));
      assert v.Obj? ==> !IsIndexName(text) by {
        if v.Obj? {
          assert text[0] == '[';
        }
      }
      Some(KeyOfName(text))
  }

  /** `contextMethods[name]`, `undefined` when absent. */
  function MethodOf(methods: map<Key, Value>, k: Key): Value {
    if k in methods then methods[k] else Undef
  }

  /**
    The array form of `parseMapMethodToProps`: each listed name, converted
    to a property key, maps to the method of that name. It fails only on a
    name that is an array holding a symbol.
   */
  function MethodPropsOfNames(methods: map<Key, Value>, names: seq<Value>, fnText: nat -> string)
    : (r: Option<map<Key, Value>>)
    ensures r.None? <==> exists i :: 0 <= i < |names| && names[i].Arr? && HoldsSymbol(names[i])
    ensures r.Some? ==> forall k :: k in r.value <==> exists i :: 0 <= i < |names| && PropertyKey(names[i], fnText) == Some(k)
    ensures r.Some? ==> forall k :: k in r.value ==> r.value[k] == MethodOf(methods, k)
    decreases |names|
  {
    if |names| == 0 then Some(map[])
    else
      var init :- MethodPropsOfNames(methods, names[..|names| - 1], fnText);
      var key :- PropertyKey(names[|names| - 1], fnText);
      assert forall i :: 0 <= i < |names| - 1 ==> names[..|names| - 1][i] == names[i];
      Some(init[key := MethodOf(methods, key)])
  }

  /**
    `parseMapMethodToProps`: an array lists method names to expose as they
    are; an object maps prop names to a method name, or to a function that
    `bind` pre-applies to the methods and the state; other entries are
    skipped; anything else gives no props.
   */
  function ParseMapMethodToProps(methods: map<Key, Value>, state: Value, mapping: Value,
                                 bind: nat -> Value, fnText: nat -> string): (r: Option<map<Key, Value>>)
    ensures !(mapping.Arr? || mapping.Obj? || mapping.Other?) ==> r == Some(map[])
    ensures r.None? <==> mapping.Arr? && exists i :: 0 <= i < |mapping.elems| &&
                                                     mapping.elems[i].Arr? && HoldsSymbol(mapping.elems[i])
    ensures mapping.Arr? && r.Some? ==>
              forall k :: k in r.value <==>
                exists i :: 0 <= i < |mapping.elems| && PropertyKey(mapping.elems[i], fnText) == Some(k)
    ensures mapping.Obj? ==> r.Some? && forall p :: p in r.value <==>
              p in mapping.fields && StringKey(p) && (mapping.fields[p].Str? || mapping.fields[p].Fn?)
    ensures mapping.Obj? ==> forall p :: p in r.value && mapping.fields[p].Str? ==>
              r.value[p] == MethodOf(methods, KeyOfName(mapping.fields[p].s))
  {
    match mapping
    case Arr(names) => MethodPropsOfNames(methods, names, fnText)
    case Obj(m) => Some(MethodPropsOfObject(methods, m, bind))
    case Other(_, m) => Some(MethodPropsOfObject(methods, m, bind))
    case _ => Some(map[])
  }

  /** The object form of `parseMapMethodToProps`, over the entries `Object.keys` lists. */
  function MethodPropsOfObject(methods: map<Key, Value>, m: map<Key, Value>, bind: nat -> Value)
    : (r: map<Key, Value>)
  {
    map p | p in m && StringKey(p) && (m[p].Str? || m[p].Fn?) ::
      if m[p].Str? then MethodOf(methods, KeyOfName(m[p].s)) else bind(m[p].fid)
  }
}

=== FILE: values.dfy ===
/**
  The JSON-like values the engine works on, the property keys that address
  them, and the primitive reads (`target[name]`) the other modules share.
 */
module Values {
  import opened Wrappers

  /**
    A property key in canonical form: an array index, any other name, or a
    symbol (by its id), which is a key of its own and never spelled as a
    name.
   */
  datatype Key = Name(name: string) | Idx(index: nat) | SymbolKey(sid: nat)

  /** A namespace path: the keys from the graph root to a node. */
  type Path = seq<Key>

  /**
    A value as the engine sees it. `Fn` is a function object and `Sym` a
    symbol, both identified by an opaque id; `Big` is a bigint. `Other` is an object
    whose class tag is not `Object` (a Date, a Map, ...), with the fields a
    key walk finds on it. `Arr` elements that are holes are `Undef`. An
    object's property names are held as the canonical keys they denote
    (`KeyOfName`), which loses nothing since names and canonical keys are
    in one-to-one correspondence (`KeyRoundTrip`).
   */
  datatype Value =
    | Undef
    | Null
    | Bool(b: bool)
    | Num(n: int)
    | Str(s: string)
    | Fn(fid: nat)
    | Sym(sid: nat)
    | Big(big: int)
    | Other(tag: string, members: map<Key, Value>)
    | Arr(elems: seq<Value>)
    | Obj(fields: map<Key, Value>)

  /** The JavaScript exception an operation would raise, or use of a destroyed interceptor. */
  datatype Fault = TypeError | RangeError | StaleProxy

  /** The closed classification the interceptors dispatch on. */
  datatype Kind = Scalar | Sequence | KeyedMap | Unsupported

  /** `isArray` */
  predicate IsArray(v: Value) {
    v.Arr?
  }

  /** `isPlainObject`: a non-null object whose class tag is `Object`. */
  predicate IsPlainObject(v: Value) {
    v.Obj?
  }

  /** A value that gets its own interceptor. */
  predicate IsContainer(v: Value) {
    IsArray(v) || IsPlainObject(v)
  }

  /**
    The classification `tryToProxyIt` performs: non-objects (including
    functions) are left alone silently, arrays and plain objects are
    wrapped, every other object is unsupported and only warned about.
   */
  function Classify(v: Value): (k: Kind)
    ensures k == Sequence <==> IsArray(v)
    ensures k == KeyedMap <==> IsPlainObject(v)
    ensures k == Unsupported <==> v.Other?
  {
    match v
    case Arr(_) => Sequence
    case Obj(_) => KeyedMap
    case Other(_, _) => Unsupported
    case _ => Scalar
  }

  /**
    The strict equality `===` the set traps use to skip writes. Scalars
    compare by value; functions and symbols by identity (their id); an
    array or object written through a trap is treated as a fresh object,
    so it is never identical to the stored one.
   */
  predicate Same(a: Value, b: Value) {
    a == b && !(a.Arr? || a.Obj? || a.Other?)
  }

  /** A symbol, or an array holding one at any depth: what `String` cannot convert. */
  predicate HoldsSymbol(v: Value)
    decreases v
  {
    match v
    case Sym(_) => true
    case Arr(xs) => exists i :: 0 <= i < |xs| && HoldsSymbol(xs[i])
    case _ => false
  }

  // ---------------------------------------------------------------------
  // Property names: decimal index names and their canonical keys.
  // ---------------------------------------------------------------------

  predicate IsDigit(c: char) {
    '0' <= c <= '9'
  }

  predicate AllDigits(s: string) {
    forall i :: 0 <= i < |s| ==> IsDigit(s[i])
  }

  /** A canonical array-index name: decimal digits without a leading zero. */
  predicate IsIndexName(s: string) {
    |s| > 0 && AllDigits(s) && (s[0] == '0' ==> |s| == 1)
  }

  function DigitChar(d: nat): (c: char)
    requires d < 10
    ensures IsDigit(c)
  {
    ('0' as int + d) as char
  }

  function DigitValue(c: char): (d: nat)
    requires IsDigit(c)
    ensures d < 10
  {
    c as int - '0' as int
  }

  /** The decimal spelling of a natural number. */
  function NatToString(n: nat): (s: string)
    ensures |s| > 0
    decreases n
  {
    if n < 10 then [DigitChar(n)] else NatToString(n / 10) + [DigitChar(n % 10)]
  }

  /** The number a string of decimal digits spells. */
  function ParseNat(s: string): nat
    requires AllDigits(s)
    decreases |s|
  {
    if |s| == 0 then 0 else 10 * ParseNat(s[..|s| - 1]) + DigitValue(s[|s| - 1])
  }

  /** The property name of a signed number, as `String(n)` spells it. */
  function IntToString(n: int): string {
    if n < 0 then "-" + NatToString(-n) else NatToString(n)
  }

  /** The canonical key a property name denotes. */
  function KeyOfName(s: string): Key {
    if IsIndexName(s) then Idx(ParseNat(s)) else Name(s)
  }

  /** The property name a string key denotes; a symbol key has none and gives the empty string. */
  function KeyString(k: Key): string {
    match k
    case Name(s) => s
    case Idx(i) => NatToString(i)
    case SymbolKey(_) => ""
  }

  /**
    A key `Object.keys` and `Object.getOwnPropertyNames` list: any key
    but a symbol.
   */
  predicate StringKey(k: Key) {
    !k.SymbolKey?
  }

  /** Canonical string keys: not a symbol, and never an index spelled as a name. */
  predicate Canonical(k: Key) {
    !k.SymbolKey? && (k.Name? ==> !IsIndexName(k.name))
  }

  lemma {:induction false} NatToStringLeadingDigit(n: nat)
    ensures AllDigits(NatToString(n))
    ensures n > 0 ==> NatToString(n)[0] != '0'
    decreases n
  {
    if n >= 10 {
      NatToStringLeadingDigit(n / 10);
      var p := NatToString(n / 10);
      assert NatToString(n) == p + [DigitChar(n % 10)];
      assert NatToString(n)[0] == p[0];
    }
  }

  /** Every number spells a canonical index name. */
  lemma NatToStringIsIndexName(n: nat)
    ensures IsIndexName(NatToString(n))
  {
    NatToStringLeadingDigit(n);
  }

  /** Parsing the decimal spelling of `n` gives back `n`. */
  lemma {:induction false} ParseNatToString(n: nat)
    ensures AllDigits(NatToString(n))
    ensures ParseNat(NatToString(n)) == n
    decreases n
  {
    NatToStringLeadingDigit(n);
    if n >= 10 {
      ParseNatToString(n / 10);
      var s := NatToString(n);
      assert s[..|s| - 1] == NatToString(n / 10);
    }
  }

  lemma {:induction false} ParseNatPositive(s: string)
    requires IsIndexName(s) && s[0] != '0'
    ensures ParseNat(s) > 0
    decreases |s|
  {
    if |s| > 1 {
      var p := s[..|s| - 1];
      assert p[0] == s[0];
      ParseNatPositive(p);
    } else {
      assert s[|s| - 1] == s[0];
    }
  }

  /** Spelling the number an index name parses to gives back the name. */
  lemma {:induction false} NatToStringParseNat(s: string)
    requires IsIndexName(s)
    ensures NatToString(ParseNat(s)) == s
    decreases |s|
  {
    var d := DigitValue(s[|s| - 1]);
    if |s| == 1 {
      assert [DigitChar(d)] == s;
    } else {
      var p := s[..|s| - 1];
      assert p[0] == s[0];
      assert IsIndexName(p);
      ParseNatPositive(p);
      NatToStringParseNat(p);
      var n := ParseNat(s);
      assert n / 10 == ParseNat(p) && n % 10 == d;
      assert s == p + [DigitChar(d)];
    }
  }

  /** Property names and canonical keys are in one-to-one correspondence. */
  lemma KeyRoundTrip(s: string, k: Key)
    ensures KeyString(KeyOfName(s)) == s
    ensures Canonical(KeyOfName(s))
    ensures Canonical(k) ==> KeyOfName(KeyString(k)) == k
  {
    if IsIndexName(s) {
      NatToStringParseNat(s);
      NatToStringIsIndexName(ParseNat(s));
    }
    if k.Idx? {
      NatToStringIsIndexName(k.index);
      ParseNatToString(k.index);
    }
  }

  /** `KeyOfName` never maps two names to one key. */
  lemma KeyOfNameInjective()
    ensures forall s, t :: KeyOfName(s) == KeyOfName(t) ==> s == t
  {
    forall s, t | KeyOfName(s) == KeyOfName(t)
      ensures s == t
    {
      KeyRoundTrip(s, Name(""));
      KeyRoundTrip(t, Name(""));
    }
  }

  // ---------------------------------------------------------------------
  // Reading properties.
  // ---------------------------------------------------------------------

  /**
    `target[name]`: None when reading from `undefined` or `null` (a
    TypeError). Built-in and inherited members (string and array methods,
    a function's `name`) are not modelled and read as `undefined`.
   */
  function Lookup(v: Value, k: Key): (r: Option<Value>)
    ensures r.None? <==> v.Undef? || v.Null?
  {
    match v
    case Undef => None
    case Null => None
    case Arr(xs) =>
      Some(match k
           case Idx(i) => if i < |xs| then xs[i] else Undef
           case Name(s) => if s == "length" then Num(|xs|) else Undef
           case SymbolKey(_) => Undef)
    case Str(s) =>
      Some(match k
           case Idx(i) => if i < |s| then Str([s[i]]) else Undef
           case Name(n) => if n == "length" then Num(|s|) else Undef
           case SymbolKey(_) => Undef)
    case Obj(m) => Some(if k in m then m[k] else Undef)
    case Other(_, m) => Some(if k in m then m[k] else Undef)
    case _ => Some(Undef)
  }

  /** Successive property reads along a path, failing on the first read from `undefined`/`null`. */
  function Walk(v: Value, p: Path): Option<Value>
    decreases |p|
  {
    if |p| == 0 then Some(v)
    else
      var child :- Lookup(v, p[0]);
      Walk(child, p[1..])
  }

  /** Walking a concatenated path is walking its first part, then the rest. */
  lemma {:induction false} WalkAppend(v: Value, p: Path, q: Path)
    ensures Walk(v, p + q) == (match Walk(v, p)
                               case None => None
                               case Some(w) => Walk(w, q))
    decreases |p|
  {
    if |p| > 0 {
      assert (p + q)[0] == p[0];
      assert (p + q)[1..] == p[1..] + q;
      match Lookup(v, p[0])
      case None =>
      case Some(c) =>
        WalkAppend(c, p[1..], q);
        assert Walk(v, p + q) == Walk(c, p[1..] + q);
        assert Walk(v, p) == Walk(c, p[1..]);
    } else {
      assert p + q == q;
    }
  }
}

=== FILE: wrappers.dfy ===
/** Failure-compatible result types shared by every module of the model. */
module Wrappers {

  /** An optional value. */
  datatype Option<+T> = None | Some(value: T) {
    predicate IsFailure() {
      None?
    }

    function PropagateFailure<U>(): Option<U>
      requires None?
    {
      None
    }

    function Extract(): T
      requires Some?
    {
      value
    }
  }

  /** Either a value or the error that stopped the computation. */
  datatype Result<+T, +E> = Success(value: T) | Failure(error: E) {
    predicate IsFailure() {
      Failure?
    }

    function PropagateFailure<U>(): Result<U, E>
      requires Failure?
    {
      Failure(error)
    }

    function Extract(): T
      requires Success?
    {
      value
    }
  }

  /** Turns a missing value into the given error. */
  function Need<T, E>(o: Option<T>, e: E): (r: Result<T, E>)
    ensures r.Success? <==> o.Some?
    ensures r.Success? ==> r.value == o.value
  {
    match o
    case Some(v) => Success(v)
    case None => Failure(e)
  }
}
